=== FILE: README.md ===
# URL attack classifier: a Dafny model of the detection and risk-scoring engine

This project models the engine of a small web-attack triage tool. The tool reads
HTTP access logs or URL lists, labels every request, scores its risk and explains
the verdict. The model covers the pure core of that engine, written as immutable
datatypes and total functions, and proves what each step promises.

The steps, one Dafny module per source file:

- `Ingest` (`core/ingest.py`) maps CSV records to `Event`s.
- `Normalize` (`core/normalize.py`) strips, percent-decodes and cleans URLs and client fields.
- `Features` (`core/features.py`) computes per-event boolean and length signals.
- `FeatureExtractor` (`feature_extractor.py`) builds the classifier's fourteen numeric columns.
- `Rules` (`core/rules.py`) is the signature rule engine: SQL, XSS, keyword, IP-host and abused-TLD rules.
- `Detector` (`detector.py`) is the stand-alone five-signature labeller.
- `Ml` (`core/ml.py`) is the glue around an opaque classifier: caching, class-column choice, the 0.5 threshold and fallbacks.
- `Score` (`core/score.py`) covers clamped risk arithmetic, risk levels, the per-address boost and finding ranking.
- `Store` and `Correlate` (`core/store.py`, `core/correlate.py`) group events by source address, give each an attack stage, and derive chains, density, multi-stage flags and repeated labels.
- `Explain` (`core/explain.py`) assembles the explanation sentences.
- `Analyze` (`core/pipeline.py`) is the end-to-end URL analysis, which degrades gracefully when the classifier fails.
- `LogPipeline` (`pipeline.py`) triages log rows into outcome and priority.
- `Dataset` (`dataset_builder.py`) covers URL-column detection, labelling, canonicalisation, deduplication and class balancing.
- `Auth` (`auth_db.py`) is registration and login over a user table.
- `Schema` (`core/schema.py`) holds `Event`, `Finding` and Python value semantics: truthiness, `pd.isna`, `str()`.

Shared helpers:

- `Wrappers`: `Option` and `Result`.
- `Text`: Python string operations with ASCII case mapping, and Python's `int()` on text.
- `Signature`: regular-expression fragments restated as substring predicates.
- `Url`: the parts of `urllib.parse` the engine uses.
- `Numeric`: Python's round-half-even on exact reals.

Floats are modelled as exact reals. Python dictionaries whose order is
observable are sequences of pairs or maps with a recorded key order. Anything the
engine obtains from outside becomes a parameter:

- the classifier's outputs;
- the model files;
- the clock and the date parser;
- the password hash and salt;
- `log2`-based entropy, the sigmoid and two-decimal formatting.

Behaviours of the source that the proofs make explicit:

- The risk level is taken from the unrounded score, so a score that rounds to 70 can still be "Medium" (`Score.SeventyCanBeMedium`).
- The keyword rule fires at most once however many keywords match (`Rules.RuleOrderBounds`).
- The classifier fallback is "Normal" in the ML adapter but "benign" in the URL pipeline (`Analyze.FallbackLabelsDiffer`).
- The feature extractor's address test keeps the port, while the rule engine strips it (`FeatureExtractor.PortSplitsAddressTests`).
- Directory traversal with an SQL comment is labelled SQL Injection, because that signature is tried first (`Detector.TraversalWithCommentIsSql`).

## Model

| member | source | states |
|---|---|---|
| Schema.NewEvent | core/schema.py:6-18 | an event built from a URL alone has every optional field absent and empty metadata |
| Schema.NewFinding | core/schema.py:21-29 | a finding keeps its attack type, severity, confidence and event, with empty details |
| Schema.ShortReason | core/schema.py:31-32 | the short reason is the `reason` detail when that is truthy, otherwise the attack type |
| Schema.ShortReasonNonEmpty | core/schema.py:31-32 | a finding with a non-empty attack type always has a truthy short reason |
| Schema.IpKey | core/correlate.py:45 | the grouping key is never empty, and it is "unknown" exactly when the address is absent, empty or literally "unknown" |
| Score.SeverityWeight | core/score.py:7-11 | the weight is 3, 2 or 1 exactly for critical, high or medium in any letter case, and 0 for anything else |
| Score.WeightIgnoresCase | core/score.py:10-11 | severities equal up to letter case weigh the same |
| Score.KnownWeights | core/score.py:7-11 | "Critical" weighs 3, "HIGH" 2, "medium" 1, and "low" and "" weigh 0 |
| Score.Weight | core/score.py:10-11 | a finding weighs at most 3, and 0 exactly when its lower-cased severity is not critical, high or medium |
| Score.Clamped | core/score.py:58-61 | the clamped sum lies in [0, 100] and equals the raw sum whenever that already does |
| Score.LevelOf | core/score.py:63-68 | High exactly from 70, Medium exactly on [40, 70), Low exactly below 40 |
| Score.ComputeRisk | core/score.py:54-70 | the score is an integer in 0..100 within one half of the clamped sum, and the level is read off the clamped sum before rounding |
| Score.AddRulePoints | core/score.py:59-61 | one more rule adds exactly five points, plus 15 when it is the first SQL or XSS rule |
| Score.BonusOnce | core/score.py:60 | for any rule list, SQL and XSS mixed with others or not, the sum exceeds 60p plus five per rule by exactly 15 when at least one rule is SQL or XSS and by nothing otherwise |
| Score.NoBonus | core/score.py:60 | without an SQL or XSS rule the sum is 60p plus five per rule |
| Score.AddRuleMonotone | core/score.py:59-61 | adding a rule never lowers the clamped sum or the score |
| Score.ProbMonotone | core/score.py:58-61 | a higher probability never lowers the clamped sum or the score |
| Score.SeventyCanBeMedium | core/score.py:63-70 | a sum of 69.85 rounds to score 70 yet keeps level Medium |
| Score.SmokeScenarioRisks | core/test_pipeline.py:5-8 | at probability 0.05 no rule gives score 3, Low, and the SQL rule alone gives 23, Low |
| Score.ComputeBatchRisk | core/score.py:73-74 | one risk per zipped pair, as long as the shorter input, each equal to the single risk of its pair |
| Score.BatchScoresInRange | core/score.py:73-74 | every batch score lies in 0..100 |
| Score.IpRiskBoost | core/score.py:14-25 | the boost lies in [0, 0.7]; it is 0 without an address or a report, at least 0.3 for a multi-stage address, at most 0.4 otherwise, and 0 with neither flag nor repeats |
| Score.FlagAddsThreeTenths | core/score.py:20-21 | a multi-stage flag adds exactly 0.3 to what the same report gives without the flag |
| Score.RepeatBoostValue | core/score.py:22-24 | an unflagged address gains 0.1 per repeat of its labels up to four repeats, and 0.4 beyond |
| Score.RepeatedBoost | core/score.py:22-24 | an address with a repeated label earns at least 0.2 |
| Score.MlFinding | core/score.py:36-48 | the ML finding keeps the label and event, marks its source as ml, uses the given severity or "medium", and its confidence is the score (0.5 if absent) plus the boost of its event's address |
| Score.MlFindings | core/score.py:35-49 | exactly the promoted ML results (label non-empty and not "Normal") become findings |
| Score.MlFindingsSingle | core/score.py:35-49 | one ML result gives its finding when its label is promoted and nothing otherwise |
| Score.MlFindingsAppend | core/score.py:35-49 | the findings of two result lists in a row are the findings of the first followed by those of the second |
| Score.MlFindingsCount | core/score.py:35-49 | there is exactly one finding per promoted result |
| Score.InsertPerm | core/score.py:51 | insertion adds the new finding and loses none |
| Score.InsertSorted | core/score.py:51 | insertion into a descending sequence keeps it descending |
| Score.SortFindings | core/score.py:51 | the sort keeps the number of findings |
| Score.SortPerm | core/score.py:51 | the sort is a permutation of its input |
| Score.SortSorted | core/score.py:51 | the sort output is descending by (weight, confidence) |
| Score.KeyRunAppend | core/score.py:51 | the equal-key run of a concatenation is the concatenation of the runs |
| Score.InsertStable | core/score.py:51 | inserting a finding appends it to the end of its own key's run and moves nothing within any run |
| Score.SortStable | core/score.py:51 | findings with equal keys keep their input order, as Python's stable sort keeps them |
| Score.Rank | core/score.py:28-51 | the result is descending by (weight, confidence), is a permutation of the input findings plus the ML findings, keeps equal keys in input order, and has one entry per input finding plus one per promoted result |
| Rules.IdInjective | core/rules.py:55-80 | different rules are reported under different ids |
| Rules.RuleOf | core/rules.py:88-101 | reading an id back gives the rule reported under it, and nothing for any other string |
| Rules.RuleOfId | core/rules.py:88-101 | reading back a rule's id gives that rule |
| Rules.SqlHit | core/rules.py:9-11 | the search succeeds exactly when the text holds a quote or `%27`, optional whitespace, `or`, optional whitespace and `1=1`; or `--`; or `union`, whitespace and `select`; or `%3d`; or `%27` |
| Rules.IsIpv4 | core/rules.py:20-30 | an address host is non-empty and its colon-free name holds a dot and no colon |
| Rules.IsAbusedTld | core/rules.py:16-17 | an abused TLD has two or three lower-case letters |
| Rules.HostName | core/rules.py:23 | the name is a colon-free prefix of the host |
| Rules.Tld | core/rules.py:33-37 | the TLD has no dot, colon or capital; it is empty when the host name has no dot, and otherwise the lower-cased name ends with a dot and the TLD |
| Rules.LastLabel | core/rules.py:37 | the lower-cased last label ends the lower-cased dotted name after a dot |
| Rules.Fire | core/rules.py:53-80 | one check appends its rule and explanation exactly when it fired, and keeps the rules aligned with their explanations and in rule order |
| Rules.Collect | core/rules.py:53-80 | the checks run in order collect exactly the fired rules, one explanation each, in rule order |
| Rules.Assemble | core/rules.py:53-80 | the five checks yield exactly the fired rules, in the fixed order, each with its explanation |
| Rules.Detect | core/rules.py:53-82 | each of the five rules fires exactly when its signature holds (SQL, XSS and keywords on the lower-cased URL; IPv4 and abused TLD on the host), in the fixed order, with one aligned explanation each |
| Rules.RuleOrderBounds | core/rules.py:53-80 | rules in the fixed order are distinct and number at most five, so the keyword rule appears at most once |
| Rules.IpExcludesTld | core/rules.py:69-80 | a host that is an IPv4 address never fires the abused-TLD rule |
| Rules.DottedIsIpv4 | core/rules.py:20-30 | every dotted quad of octets is an IPv4 host, with or without a port |
| Rules.QuadSplit | core/rules.py:24 | four dot-free parts joined with dots split back into the same parts |
| Rules.ApplyRulesUrl | core/rules.py:40-82 | the call fails exactly when the URL parser does; otherwise it is the detection over the lower-cased URL and the parsed netloc, with a path-only URL put after `http://example.local` |
| Rules.LetterEndNotIpv4 | core/rules.py:20-30 | a port-free name ending with a letter is not an IPv4 host |
| Rules.AbusedLength | core/rules.py:16-17 | abused TLDs are two or three characters long |
| Rules.LocalHostBenign | core/rules.py:49 | the placeholder host `example.local` is neither an address nor on an abused list |
| Rules.PathOnlyNoHostRules | core/rules.py:48-50 | a URL starting with `/` and lacking `://` parses, and fires neither the IPv4 rule nor the TLD rule |
| Rules.RuleUrl | core/rules.py:131-132 | the URL read is a truthy metadata `clean_url`, else the event's URL, and the read fails only for a truthy non-string `clean_url` |
| Rules.HitConfidence | core/rules.py:139 | the confidence for n hits is 0.6 + 0.05(n-1), capped at 0.95 |
| Rules.HitConfidenceRange | core/rules.py:111 | one URL's hits give a confidence in [0.6, 0.8], so the cap is never reached |
| Rules.RuleLabel | core/rules.py:134-138 | "Normal" without hits, "SQL Injection" when the SQL rule hit, else the first hit's id |
| Rules.RuleLabelCases | core/rules.py:134-138 | the label is "Normal" exactly without hits and "SQL Injection" exactly when the SQL rule hit |
| Rules.VerdictOf | core/rules.py:130-140 | the verdict carries the event, the ids of its hits, their label, and 0.05 or the hit confidence; it fails exactly when the URL lookup or parse fails |
| Rules.RuleDetect | core/rules.py:125-141 | one verdict per event, in order, and failure exactly when some event's verdict fails |
| Rules.EventFindings | core/rules.py:111-121 | one finding per hit, each with its event, the rule's severity and attack type, the shared hit confidence, and the rule id with all explanations as details |
| Rules.Severity | core/rules.py:88-94 | the SQL rule is "high"; the XSS and address rules are "medium"; the keyword and TLD rules are "low" |
| Rules.AttackType | core/rules.py:95-101 | the SQL rule is "SQL Injection", the XSS rule "XSS", and the other three "Suspicious" |
| Rules.RowFindings | core/rules.py:103-121 | a row whose `event` key is missing raises KeyError, one whose event is None raises AttributeError, anything not a dict fails; otherwise its findings are the event's findings, and it fails exactly when the lookup or parse does |
| Rules.ApplyRulesFeatures | core/rules.py:86-122 | the call succeeds exactly when every row does, and then is the concatenation, in row order, of each row's findings |
| Rules.ApplyRulesFeaturesSingle | core/rules.py:103-122 | one row gives exactly that row's outcome |
| Rules.ApplyRulesFeaturesAppend | core/rules.py:103-122 | two successful row lists in a row give the findings of the first followed by those of the second |
| Rules.FindingsMatchHits | core/rules.py:109-139 | an event has findings exactly when its label is not "Normal", one per hit id, each with the verdict's confidence |
| Rules.FindingsMatchVerdict | core/rules.py:103-141 | the findings of an event's row agree with its verdict: none exactly for "Normal", one per hit, each with the verdict's confidence |
| Rules.ApplyRules | core/rules.py:148-158 | a string goes to the URL rules; a non-empty list whose first row is a dict with an `event` key goes to the feature rules, so a None event raises AttributeError there; anything else gives an empty list |
| Signature.SkipSpaces | core/rules.py:10 | the skipped run is all whitespace and stops at a non-space or the end |
| Signature.SpacedGreedy | core/rules.py:10 | `\s*` followed by a pattern that does not start with whitespace matches exactly where the greedy whitespace run ends |
| Signature.Spaced1Greedy | core/rules.py:10 | `\s+` followed by such a pattern matches exactly when the greedy run is non-empty and the pattern follows it |
| Signature.Present | core/rules.py:64 | the present patterns are exactly those of the list that occur in the string; `Signature.PresentAppend` and `Signature.PresentSingle` fix their order and multiplicity |
| Signature.PresentAppend | core/rules.py:64 | filtering two lists in a row gives the present patterns of the first followed by those of the second |
| Signature.PresentSingle | core/rules.py:64 | a single pattern is kept exactly when it occurs |
| Signature.PresentIffAny | core/rules.py:64 | some pattern is present exactly when the string contains one of them |
| Detector.SqlMatch | detector.py:4 | a URL the SQL signature matches has at least two characters |
| Detector.CommandMatch | detector.py:7 | a URL the command signature matches holds `;`, `|` or `&` |
| Detector.FirstMatch | detector.py:13-15 | no attack is found exactly when no signature matches; a found one matches and no earlier one in the order does |
| Detector.DetectAttack | detector.py:10-16 | a non-string gives "Normal"; so does a string no signature matches; otherwise the name of the first matching attack in table order |
| Detector.NamesDistinct | detector.py:3-9 | no attack is named "Normal" and distinct attacks have distinct names |
| Detector.SixLabels | detector.py:10-16 | the label is an attack name or "Normal", and "Normal" for a string exactly when no signature matches |
| Detector.TraversalWithCommentIsSql | detector.py:4-15 | a URL with both "../" and "--" matches traversal but is labelled SQL Injection, the earlier entry |
| Detector.NoSeparatorNoCommand | detector.py:7 | a URL without `;`, `|` or `&` never matches the command signature |
| Detector.SeparatorThenCommand | detector.py:7 | a separator followed on the same line by a command matches, whatever lies between |
| Detector.LineBreakDefeatsCommand | detector.py:7 | a line break between the only separator and the following text defeats the command signature |
| Features.HasExtension | core/features.py:24 | a path has an extension exactly when it is non-empty and its last slash-free segment holds a dot |
| Features.HasExtensionIff | core/features.py:24 | a path has an extension exactly when some dot has no slash after it; an empty path has none |
| Features.EventRow | core/features.py:12-29 | a row fails exactly when the URL does not parse; otherwise it keeps the event, parsed path and query, URL length, and each signal holds exactly when its condition does |
| Features.ExtractFeatures | core/features.py:9-31 | one row per event in order, each carrying its event; the batch succeeds exactly when every URL parses |
| Features.SqlTokensMatchDetector | core/features.py:25 | every URL flagged `contains_sql` also matches the stand-alone labeller's SQL signature |
| Features.QuoteOr | core/features.py:25 | a quote, a space and "or" satisfy the labeller's `'\s*or` alternative |
| Features.BackslashTraversal | core/features.py:26 | the backslash traversal form is flagged by the feature but not by the labeller's traversal signature |
| Correlate.StageForLabel | core/correlate.py:22-32 | a label's stage is benign exactly when the label is "normal" or "benign" in any letter case |
| Correlate.StageIgnoresCase | core/correlate.py:23 | labels equal up to letter case fall in the same stage |
| Correlate.DetectorLabelStages | core/correlate.py:24-31 | "Normal" is benign, "SQL Injection" and "XSS" are exploitation, "SSRF" is lateral movement |
| Correlate.DetectorLongLabelStages | core/correlate.py:26-29 | "Directory Traversal" is reconnaissance and "Command Injection" is exploitation |
| Correlate.ClassifierLabelStages | core/correlate.py:24-32 | "benign" is benign, while "malicious" and "Suspicious" fall through to suspicious |
| Correlate.FindingsFor | core/correlate.py:35-46 | the findings listed for an event all belong to it, every finding for it is listed, and the first listed is the earliest finding for it |
| Correlate.FindingsForAppend | core/correlate.py:35-46 | the findings of two concatenated lists are those of each list, in list order |
| Correlate.FindingsForSingle | core/correlate.py:35-46 | a single finding is listed exactly when it is for the event |
| Correlate.HitsOfDetails | core/correlate.py:54-58 | a list of hits is spliced in, another truthy value is added as its text, and a missing or falsy value adds nothing |
| Correlate.HitsOf | core/correlate.py:53-58 | every hit of an event comes from the details of one of its findings |
| Correlate.HitsOfAppend | core/correlate.py:53-58 | the hits of two concatenated finding lists are those of each, in finding order |
| Correlate.HitsOfSingle | core/correlate.py:53-58 | one finding contributes exactly its own details' hits |
| Correlate.LabelAt | core/correlate.py:47-50 | an event's label is the attack type of its earliest finding in the batch, else the label of the classifier entry at its index, else "Normal" |
| Correlate.EntryAt | core/correlate.py:63-73 | an event's chain entry carries its batch index, timestamp, label and that label's stage, its findings and their hits, and the classifier entry at its index exactly when one exists |
| Correlate.Bump | core/correlate.py:61 | incrementing a label's count adds one to that label only, lists it if it was new, and keeps the labels distinct |
| Correlate.Repeated | core/correlate.py:82-85 | the kept pairs are exactly those with a count above one |
| Correlate.ScanIps | core/correlate.py:40-45 | the loop lists each address once, and the listed addresses are exactly those of the batch |
| Correlate.ScanSession | core/correlate.py:44-73 | each address's session holds exactly its entries in batch order, a density equal to their attack count, and a counter that counts each label exactly as often as it occurs among them |
| Correlate.EntriesForSound | core/correlate.py:44-65 | every chain entry is the entry of an event of that address, at its own index |
| Correlate.EntriesForOrdered | core/correlate.py:63-65 | a chain lists its entries in strictly increasing batch position |
| Correlate.EntriesForComplete | core/correlate.py:44-63 | no event of an address is missing from its chain |
| Correlate.ScanTotal | core/correlate.py:63-73 | the chain lengths add up to the number of events |
| Correlate.AttackCountBounds | core/correlate.py:60 | the density is at most the chain length, and it is zero exactly when every label is "normal" or "benign" |
| Correlate.MultiStageIff | core/correlate.py:77-80 | an address is multi-stage exactly when two of its entries have different non-benign stages |
| Correlate.AllBenignNotMultiStage | core/correlate.py:77-80 | an address whose entries are all benign is never flagged |
| Correlate.RepeatedIff | core/correlate.py:61-85 | a pair is among the repeated labels exactly when the label's count is that number and above one |
| Correlate.Report | core/correlate.py:75-93 | every address of the scan has a chain, a density, a flag and a repeated-label map, each drawn from its session, and the session totals follow the store's key order |
| Correlate.CorrelateSequences | core/correlate.py:96-105 | the alias returns exactly what correlate_sessions returns |
| Correlate.CorrelateIps | core/correlate.py:44-92 | the report lists each address of the batch once, "unknown" standing for events without one, and nothing else |
| Correlate.CorrelateChain | core/correlate.py:44-73 | an address's chain holds the entry of every event of that address, each at its batch index, in batch order, and nothing else |
| Correlate.CorrelateTotal | core/correlate.py:63-73 | the reported chains together hold as many entries as the batch has events |
| Correlate.CorrelateAggregates | core/correlate.py:60-92 | every listed address has a density equal to its chain's attack count, a flag that holds exactly for two different non-benign stages, and a repeated pair for exactly each label occurring more than once |
| Correlate.CorrelateSessionTotals | core/correlate.py:75 | each session total counts the address's events already in the store plus those of this batch |
| Correlate.CorrelateSessions | core/correlate.py:10-20 | correlating first adds every event of the batch to the store, and reports exactly the addresses the scan over the batch meets |
| Correlate.Entries | core/correlate.py:44-73 | the batch gives one numbered chain entry per event, each the entry of that event |
| Store.EmptyStore | core/store.py:16-17 | a new store holds no address and satisfies the dict invariant |
| Store.AddEvent | core/store.py:19-21 | the event is appended to the list of its address ("unknown" when it has none), and a new address is listed last |
| Store.AddEventValid | core/store.py:19-21 | adding an event keeps every address listed once and exactly the addresses of the map |
| Store.AddEventGet | core/store.py:19-21 | adding an event appends it to its own address and changes no other address's events |
| Store.GetEvents | core/store.py:23-24 | an address's events, or none for an address never seen |
| Store.IterSessions | core/store.py:26-28 | each address once, in insertion order, with its events |
| Store.ClearAll | core/store.py:31-32 | clearing everything leaves an empty store |
| Store.ClearIp | core/store.py:33-34 | clearing one address removes it, keeps every other address's events and the invariant, and changes nothing when it is absent |
| Store.Without | core/store.py:34 | dropping a key keeps every other key, in order, each still listed once |
| Store.Len | core/store.py:36-37 | an empty store has length zero, and no listed address holds more events than the length |
| Store.SessionCount | core/store.py:16-21 | under the dict invariant the map has one key per listed address |
| Store.AddEventLen | core/store.py:19-37 | adding an event grows the length by exactly one |
| Store.ClearIpLen | core/store.py:33-37 | clearing an address lowers the length by exactly the number of its events |
| Store.AddAllValid | core/correlate.py:19-20 | adding a batch keeps the dict invariant |
| Store.AddAllGet | core/correlate.py:19-20 | after a batch each address holds its earlier events followed by its batch events in batch order |
| Store.AddAllLen | core/store.py:36-37 | adding a batch grows the length by the batch length |
| Store.ClearAllLen | core/store.py:31-37 | after clearing everything the length is zero |
| Explain.FirstMax | core/explain.py:14-15 | the chosen entry has the largest key, and every entry before it has a strictly smaller one, as `max` with a key returns the first maximum |
| Explain.FirstMaxUnique | core/explain.py:14-15 | exactly one position satisfies both halves of that contract, so the first maximum is determined |
| Explain.TopIpSentence | core/explain.py:18-19 | the address sentence is empty exactly for an empty address, and otherwise starts " Most activity observed from ", names the address and ends with a full stop |
| Explain.Summarize | core/explain.py:8-21 | no findings give the fixed message and no address; otherwise the count of findings, and the first address of largest attack density when densities exist |
| Explain.SummaryDistinguishes | core/explain.py:9-21 | the fixed message appears exactly when there are no findings, and a top address is named only when there are findings |
| Explain.Opening | core/explain.py:39-42 | the fixed normal sentence is written exactly for the label "Normal"; any other label gives "Flagged as ", the label and a full stop |
| Explain.HitsSentence | core/explain.py:44-45 | the hit sentence has its fixed opening and full stop and names every hit |
| Explain.TopSentence | core/explain.py:48-51 | the top-class sentence names the class and holds its formatted probability |
| Explain.Disagreement | core/explain.py:53-59 | no clause is written exactly when the labels agree or the classifier label is empty for a flagged row; otherwise the clause is "ML disagrees (predicted Normal).", "ML suspects X, needs review." or "Rule/ML differ (ML: X).", each in its own case |
| Explain.OrNormal | core/explain.py:35 | a missing or empty classifier label reads as "Normal"; any other label is kept |
| Explain.DisagreementIff | core/explain.py:53-59 | with a non-empty classifier label a disagreement clause is written exactly when the final and classifier labels differ |
| Explain.Sentences | core/explain.py:44-59 | an optional sentence contributes no sentence or exactly that one |
| Explain.TopClass | core/explain.py:48-50 | the reported class is one of the given classes, none has a larger probability, and it is the first with the largest, as the stable descending sort puts first |
| Explain.RowParts | core/explain.py:34-59 | the explanation has the opening sentence first, the rule-hit sentence second when there are hits, the top-class sentence when probabilities exist, and the disagreement clause last exactly when the labels differ; nothing else |
| Explain.ExplainRow | core/explain.py:24-61 | the joined explanation starts with the opening sentence for the final label |
| Explain.JoinStartsWithFirst | core/explain.py:61 | a space-joined list of sentences begins with its first sentence |
| Explain.Readable | core/explain.py:64-89 | a known rule id is named by its fixed phrase; an unknown id keeps its length and loses every underscore |
| Explain.Phrase | core/explain.py:64-70 | each known rule has a non-empty phrase |
| Explain.PhraseInjective | core/explain.py:64-70 | distinct rules have distinct phrases |
| Explain.ReadableKnown | core/explain.py:64-70 | every one of the five known rules is named by its own phrase |
| Explain.Listing | core/explain.py:90-93 | one name is listed alone; more start with the first name and end with "and" and the last |
| Explain.ListingShapes | core/explain.py:90-93 | one name is listed alone, two are joined with "and", three as "A, B and C" |
| Explain.NamedRules | core/explain.py:89 | only the first three rule ids are named, each by its readable name, in order |
| Explain.SignatureSentence | core/explain.py:88-95 | no rules give the fixed no-signature sentence; otherwise the listing of the named rules |
| Explain.PredictionSentence | core/explain.py:86 | the prediction sentence opens with the label and ends with the rounded percentage and "% confidence." |
| Explain.ClosingSentence | core/explain.py:97 | the closing sentence opens with the level and the score and ends with the fixed clause |
| Explain.Percent | core/explain.py:84 | the percentage is within one half of the probability times 100, and lies in 0..100 for a probability in [0, 1] |
| Explain.WhySummary | core/explain.py:73-99 | the summary starts with the prediction sentence, holds the signature sentence between spaces, and ends with the closing sentence |
| Explain.ThreeSentences | core/explain.py:99 | three sentences joined by spaces keep each sentence whole and in order |
| Explain.WhyOnlyFirstThree | core/explain.py:89 | rule ids after the third never change the summary |
| Explain.TwoNamed | core/explain.py:89-91 | two rule ids are listed as their readable names joined by "and" |
| Explain.WhyTwoKnownRules | core/explain.py:89-91 | two known rules are listed by their fixed phrases joined by "and" |
| FeatureExtractor.SafeParse | feature_extractor.py:13-21 | a non-string gives nothing; a string gives its parse, path-only URLs parsed under the placeholder base, and nothing exactly when the parser rejects it |
| FeatureExtractor.PathOnlyParses | feature_extractor.py:16-19 | a URL starting with a slash always parses, under the placeholder host |
| FeatureExtractor.CountDigits | feature_extractor.py:24-25 | the digit count is at most the length, zero exactly when there is no digit, the length exactly when all are digits; `FeatureExtractor.CountersAppend` and `FeatureExtractor.CountersSingle` pin its value |
| FeatureExtractor.CountSpecial | feature_extractor.py:28-29 | the count of characters outside `[a-zA-Z0-9]` is at most the length, zero exactly when all are alphanumeric, the length exactly when none is; `FeatureExtractor.CountersAppend` and `FeatureExtractor.CountersSingle` pin its value |
| FeatureExtractor.CountUpper | feature_extractor.py:95 | the upper-case count is at most the length, zero exactly when there is no capital, the length exactly when all are capitals |
| FeatureExtractor.CountWhere | feature_extractor.py:24-29 | a count of matching characters is at most the length, zero exactly when none match, the length exactly when all do |
| FeatureExtractor.CountWhereAppend | feature_extractor.py:24-25 | the count of two pieces in a row is the sum of their counts |
| FeatureExtractor.CountWhereSingle | feature_extractor.py:24-25 | one character counts one exactly when it matches, zero otherwise |
| FeatureExtractor.CountersAppend | feature_extractor.py:24-29 | the digit, special and upper-case counts of two pieces in a row are the sums of their counts |
| FeatureExtractor.CountersSingle | feature_extractor.py:24-29 | one character counts one as a digit exactly when it is 0-9, as special exactly when it is outside `[a-zA-Z0-9]`, as upper case exactly when it is A-Z |
| FeatureExtractor.CountDisjoint | feature_extractor.py:24-29 | two classes that never overlap are counted at most once in all |
| FeatureExtractor.DigitsAndSpecials | feature_extractor.py:24-29 | digits plus special characters never exceed the URL length |
| FeatureExtractor.CountKeywords | feature_extractor.py:32-34 | the keyword count is at most the number of keywords |
| FeatureExtractor.KeywordCountMatchesRule | feature_extractor.py:32-34 | the keyword count is at most 9 and positive exactly when the rule engine's keyword rule fires on the same URL |
| FeatureExtractor.HasIp | feature_extractor.py:37-50 | the flag is 0 or 1, and 1 only for a non-empty domain of exactly four dotted parts |
| FeatureExtractor.DigitWordInt | feature_extractor.py:45-47 | `int()` reads a digit run as its decimal value |
| FeatureExtractor.HasIpNoColon | feature_extractor.py:37-50 | a domain flagged as an address holds no colon |
| FeatureExtractor.HasIpIsIpv4 | feature_extractor.py:37-50 | every domain flagged as an address is also an address to the rule engine |
| FeatureExtractor.PortSplitsAddressTests | feature_extractor.py:37-50 | with a port, the rule engine sees an address and this flag does not |
| FeatureExtractor.TldRisk | feature_extractor.py:53-61 | the grade is 1 to 3, and 1 for a domain with no dot |
| FeatureExtractor.TldRiskAgreesWithRules | feature_extractor.py:53-61 | without a port the grade is raised exactly for a TLD the rule engine calls abused, and is 3 exactly for a high-risk one |
| FeatureExtractor.PortHidesTld | feature_extractor.py:56 | with a port the grade stays 1, because the port stays in the TLD text |
| FeatureExtractor.LastLabelHoldsPort | feature_extractor.py:56 | the text after the last dot of `host:port` holds the colon when the port has no dot |
| FeatureExtractor.LabelLast | feature_extractor.py:102-120 | the label is the fifteenth and last column and not a numeric one |
| FeatureExtractor.Ratio | feature_extractor.py:100 | the ratio times a non-zero length is the count, so it is `count / url_length`; 0 for an empty URL; within [0, 1] for a count within the length |
| FeatureExtractor.Subdomains | feature_extractor.py:110 | the subdomain count is the number of dots less one when the domain has a dot, 0 when it has none |
| FeatureExtractor.ExtractRow | feature_extractor.py:83-120 | a row exists exactly when the URL parses; it holds the URL, path and query lengths, the digit and special counts of the URL, the three ratios of the digit, special and upper-case counts to the URL length, the keyword count, the URL's entropy and the label; the address flag is 0 or 1 and the grade 1 to 3 |
| FeatureExtractor.PathOnlyFeatures | feature_extractor.py:85-110 | a path-only URL is graded on the placeholder host: domain length 13, no address, grade 1, no subdomain |
| FeatureExtractor.LocalHostGrades | feature_extractor.py:37-61 | the placeholder host has 13 characters, is not an address, has grade 1 and no subdomain |
| FeatureExtractor.LocalHostDots | feature_extractor.py:17 | the placeholder host holds exactly one dot |
| FeatureExtractor.HostFeatures | feature_extractor.py:89-110 | the domain columns are graded on the parsed network location alone |
| FeatureExtractor.Graded | feature_extractor.py:83-87 | each row is graded on its own, in order |
| FeatureExtractor.ExtractFeatures | feature_extractor.py:76-122 | rows that parse are kept in order and others dropped: at most one row per input, all of them when every row parses, none when none does |
| FeatureExtractor.ExtractFeaturesMembers | feature_extractor.py:76-122 | a feature row is in the output exactly when some input row extracts to it |
| FeatureExtractor.ExtractFeaturesSingle | feature_extractor.py:76-122 | one input row gives its feature row when it parses and nothing otherwise |
| FeatureExtractor.ExtractFeaturesAppend | feature_extractor.py:76-122 | the features of two batches in a row are those of the first followed by those of the second |
| Ml.Load | core/ml.py:20-29 | a cached pair is returned unchanged; with no cache a missing model or vectorizer file fails with "not found" and caches nothing; otherwise the loaded pair is returned and cached |
| Ml.LoadOnce | core/ml.py:20-29 | after one successful load every later load returns the same pair and cache, whatever the files are by then |
| Ml.DropLabel | core/ml.py:38 | the kept columns are exactly the given ones other than "label" |
| Ml.NumericColumnsDerived | core/ml.py:32-40 | the column order inferred from the feature extractor is exactly its fourteen numeric columns |
| Ml.MatrixRow | core/ml.py:46-55 | a URL's row has one cell per numeric column: all zeros when the extractor yields no row, otherwise the extractor's values in column order |
| Ml.NumericMatrix | core/ml.py:43-56 | the matrix has one row per URL, in order |
| Ml.NonStringZeroRow | core/ml.py:47-49 | a URL that is not a string gets the all-zero row |
| Ml.IndexOf | core/ml.py:64-74 | the index is the first position holding the class, or -1 exactly when it is absent |
| Ml.ClassColumn | core/ml.py:63-67 | the column read is the first "malicious" one when the classes include it, else the last (-1) |
| Ml.At | core/ml.py:65-67 | indexing succeeds exactly for indices in range, negative ones counting from the end; otherwise it is an index error |
| Ml.ColumnOf | core/ml.py:65-67 | a column exists exactly when every row has that index, and holds each row's cell; otherwise it is an index error |
| Ml.MaxOf | core/ml.py:77 | a row's maximum exists exactly when the row is non-empty, is one of its cells and bounds them all; otherwise it is a shape error |
| Ml.RowMaxima | core/ml.py:77 | per-row maxima exist exactly when no row is empty, one per row; otherwise it is a shape error |
| Ml.DecisionScores | core/ml.py:69-77 | flat scores are used as they are; per-class scores give the "malicious" column when known, else each row's maximum; a failure is a shape error |
| Ml.HardProbability | core/ml.py:81 | a hard label scores 1 exactly when it is "malicious", else 0 |
| Ml.MaliciousProbs | core/ml.py:59-81 | probabilities come from the malicious (or last) column, from the sigmoid of the decision scores, or as 1/0 from hard labels, one per sample; a failure is a shape error, never a missing file |
| Ml.ProbaReadsMaliciousColumn | core/ml.py:61-65 | with a "malicious" class every sample's probability is that class's column |
| Ml.ProbaReadsLastColumn | core/ml.py:66-67 | without a "malicious" class every sample's probability is its last column |
| Ml.LabelFor | core/ml.py:96 | the verdict is "malicious" exactly from probability 0.5 up, "benign" exactly below |
| Ml.LabelMonotone | core/ml.py:96 | a more probable sample is never labelled benign when a less probable one is malicious |
| Ml.Thresholded | core/ml.py:94-98 | URLs are zipped with their probabilities, each keeping its URL and probability with the threshold verdict |
| Ml.HardLabelsKept | core/ml.py:80-97 | with a hard-label model each URL is malicious exactly when the model said so, with probability 1 or 0 |
| Ml.PredictUrls | core/ml.py:84-98 | the load decides the cache; a failed load fails with "not found"; after a load, a failure to read the classifier's probabilities propagates, and otherwise result i keeps URL i and carries the classifier's probability i with a verdict agreeing with it, one result per URL when the classifier gives a probability per URL |
| Ml.UrlFor | core/ml.py:103-109 | the URL classified is the truthy `clean_url`, else the truthy `decoded_url`, else the event's own URL |
| Ml.EventUrls | core/ml.py:103-109 | one URL per event, in event order, each the URL classified for that event |
| Ml.CleanUrlWins | core/ml.py:108 | a non-empty cleaned URL is what the classifier reads |
| Ml.FallbackEntry | core/ml.py:115 | without a model an event is labelled "Normal" with score 0.05 and probabilities 0.05/0.95 |
| Ml.EntryFor | core/ml.py:119-122 | an entry keeps its event, verdict and score, and its benign probability complements the malicious one |
| Ml.Entries | core/ml.py:111-123 | a missing model gives the fallback entry for every event; other failures propagate; otherwise events are zipped with predictions |
| Ml.MlPredict | core/ml.py:102-123 | the entries are those of the predictions for the events' URLs in order; a failed load gives one fallback entry per event; after a load, a failure to read the classifier's probabilities propagates, otherwise entry i keeps event i, its score is the classifier's probability for that event's URL and its label agrees with the 0.5 threshold, one entry per event when the classifier gives a probability per URL |
| Ml.EntriesAgree | core/ml.py:117-123 | entries built from thresholded predictions keep their events and labels that agree with their scores |
| Analyze.SafeUrl | core/pipeline.py:11-12 | a missing URL becomes ""; any other is stripped, and every character of the result comes from the input |
| Analyze.SafeUrlIdempotent | core/pipeline.py:11-12 | stripping an already safe URL changes nothing |
| Analyze.FromPredictions | core/pipeline.py:24-37 | each prediction is read as its label and probability, one per prediction |
| Analyze.Degraded | core/pipeline.py:25-27 | a failing classifier gives one "benign" output with probability 0.05 per URL |
| Analyze.MlOutputs | core/pipeline.py:23-27 | the outputs are the degraded ones when the classifier raised, else its predictions |
| Analyze.RulesFor | core/pipeline.py:30-35 | a URL the rule engine rejects has no rules; otherwise its rule ids |
| Analyze.AnalyzeOne | core/pipeline.py:30-59 | a result keeps its URL, the classifier's label and probability (defaulting to "benign" and 0), its rule ids, the risk computed from them (a score in 0..100) and the summary built from all of these |
| Analyze.Cleaned | core/pipeline.py:21 | one stripped URL per input URL, in order |
| Analyze.AnalyzeUrls | core/pipeline.py:15-61 | the stripped URLs are zipped with the classifier outputs, one result per pair, in order |
| Analyze.DegradedOneToOne | core/pipeline.py:21-29 | when the classifier fails there is exactly one result per URL, in order, each benign with probability 0.05 |
| Analyze.PredictedOneToOne | core/pipeline.py:21-37 | with one prediction per URL there is one result per URL carrying that prediction's label and probability |
| Analyze.RuleFailureIsLocal | core/pipeline.py:29-35 | a URL the rule engine rejects gets no rules, and every result's rules depend on its own URL alone |
| Analyze.FallbackLabelsDiffer | core/pipeline.py:27 | the degraded label ("benign") differs from the classifier adapter's fallback label ("Normal") |
| Normalize.StripOrNone | core/normalize.py:27-31 | a field is absent exactly when its stripped text is empty, and otherwise is that non-empty stripped text |
| Normalize.StripOrNoneIdempotent | core/normalize.py:27-31 | normalising a field twice is normalising it once |
| Normalize.DecodedUrl | core/normalize.py:12-13 | the decoded URL is never longer than the stripped raw URL |
| Normalize.CleanUrl | core/normalize.py:14-16 | a blank decoded URL stays empty; one with no `://` and no leading slash gains a slash; any other is kept |
| Normalize.CleanUrlAbsolute | core/normalize.py:14-16 | a non-empty cleaned URL holds `://` or starts with a slash |
| Normalize.CleanUrlStable | core/normalize.py:12-16 | a cleaned URL with no escape left is a fixed point of cleaning |
| Normalize.CleanUrlEdges | core/normalize.py:14-16 | a cleaned URL neither starts nor ends with whitespace |
| Normalize.NormalizeMethod | core/normalize.py:18 | the method is absent exactly when it is blank, and otherwise is its stripped lower-case form |
| Normalize.WithUrls | core/normalize.py:19-20 | the metadata gains the decoded and cleaned URLs and keeps every other entry |
| Normalize.NormalizeEvent | core/normalize.py:12-33 | the event's URL is the cleaned URL, timestamp and status are kept, text fields are stripped or absent, and the metadata records both URLs |
| Normalize.NormalizeEvents | core/normalize.py:9-35 | one normalised event per input event, in order |
| Normalize.ClassifierReadsCleanUrl | core/normalize.py:20 | after normalisation the classifier reads the cleaned URL whenever there is one |
| Normalize.MethodLowered | core/normalize.py:18 | a normalised method has no capital letters |
| Url.Unquote | core/normalize.py:13 | decoding never lengthens the text and leaves text without `%` unchanged |
| Url.UnquoteEncode | core/normalize.py:13 | percent-decoding undoes percent-encoding of any ASCII text |
| Url.UnquoteHighByte | core/normalize.py:13 | an escape of a byte from 0x80 up, alone, decodes to the replacement character U+FFFD |
| Url.UnquoteLatinByte | core/normalize.py:13 | `%E9` decodes to U+FFFD, not to `é` |
| Url.UrlSplit | core/rules.py:49 | the split succeeds exactly when the piece split does, and holds its scheme, authority, path, query and fragment, absent parts as empty |
| Url.SplitReassemble | core/rules.py:49 | putting the pieces back together gives the cleaned URL with its scheme lower-cased, so the URL itself when its scheme has no capitals |
| Url.UrlParse | core/rules.py:49 | parsing succeeds exactly when splitting does, keeps scheme, network location, query and fragment, and either keeps the path with no params or cuts it at a semicolon into path and params |
| Url.UrlUnparse | dataset_builder.py:62-71 | with a scheme and a network location the text starts with `scheme://netloc`, and with no `#` in any part and no fragment it holds no `#` |
| Url.ParsedDelimiters | pipeline.py:10-11 | a parsed path holds no `?` or `#` and a parsed query no `#` |
| Url.ParseLocal | feature_extractor.py:16-19 | a path-only URL after `http://example.local` parses with scheme `http` and host `example.local` |
| Ingest.Get | core/ingest.py:60-74 | a missing column reads as the missing value; a present one as its cell |
| Text.PyInt | core/ingest.py:28-29 | `int()` reads a value only from text that is not blank |
| Text.PyIntOfDigits | core/ingest.py:28-29 | `int()` reads a bare digit string as its decimal value |
| Text.PyIntOfNegDigits | core/ingest.py:28-29 | `int()` reads a minus sign and digits as the negated value |
| Text.IntToStringRoundTrip | core/explain.py:97 | rendering an integer as text and reading it back with `int()` gives the integer |
| Numeric.RoundHalfEven | core/score.py:70 | the rounded integer lies within one half of the value, and an exact tie goes to the even neighbour, as Python's `round` does |
| Ingest.Truncate | core/ingest.py:29 | `int()` of a float rounds toward zero: never more than one unit away, on the zero side |
| Ingest.MaybeInt | core/ingest.py:25-31 | a missing cell gives nothing; text gives what `int()` accepts; a float truncates; a boolean gives 1 or 0 |
| Ingest.StatusCodeText | core/ingest.py:25-31 | a status written in digits reads back as its value, and a word reads as nothing |
| Ingest.MaybeStr | core/ingest.py:34-38 | a missing cell gives nothing; otherwise the stripped text, absent exactly when blank |
| Ingest.SourceIp | core/ingest.py:63 | the address is the `ip` text when present, else the `source_ip` text, else "unknown"; never empty |
| Ingest.Method | core/ingest.py:72 | the method is the upper-cased cell text, "GET" when absent, with no lower-case letter |
| Ingest.UrlCell | core/ingest.py:67 | a falsy `url` cell gives "", a truthy one its text |
| Ingest.TimestampCell | core/ingest.py:60 | the `timestamp` column is used whenever it exists, else `ts` |
| Ingest.ParseTimestamp | core/ingest.py:41-47 | a missing value or one the date parser rejects gives the current time; otherwise the parsed time |
| Ingest.Extra | core/ingest.py:61 | the metadata holds exactly the unsupported columns, with their cells |
| Ingest.RowEvent | core/ingest.py:60-76 | each event field is read from its column as described, and the metadata is the unsupported columns |
| Ingest.LoadRows | core/ingest.py:58-79 | one event per record, in record order |
| Ingest.MetadataPartition | core/ingest.py:61 | metadata keys never name a supported column, and with the supported columns present they cover the record |
| Ingest.IngestedAddress | core/ingest.py:63 | every ingested event has a non-empty address, which is its own session key |
| LogPipeline.PreprocessUrl | pipeline.py:6-11 | a non-string gives ""; a string succeeds exactly when its decoded form parses, and gives its path, `?` and query, with no `?` in the path and no fragment |
| LogPipeline.Decoded | pipeline.py:9 | the decoded URL holds no capital letter |
| LogPipeline.StripKeepsNoUpper | pipeline.py:9 | stripping keeps a lower-case string free of capitals |
| LogPipeline.PreprocessShape | pipeline.py:10-11 | the result always holds a `?`, and the first one ends the parsed path |
| LogPipeline.FirstQuestionMark | pipeline.py:11 | a path without `?` followed by `?` and a query has its first `?` right after the path |
| LogPipeline.FinalAttack | pipeline.py:22-25 | the signature label wins unless it is "Normal"; the result is "Normal" exactly when both labels are |
| LogPipeline.Outcome | pipeline.py:26-31 | "Likely Successful" exactly for an attack with status 200 or 302, "Attempt" exactly for another attack, "Benign" exactly for no attack |
| LogPipeline.Priority | pipeline.py:33-38 | "High" for a likely success, else "Medium" for an attack, else "Low" |
| LogPipeline.PriorityTable | pipeline.py:26-38 | High exactly for a likely success, Medium exactly for an attempt, Low exactly for no attack |
| LogPipeline.MlColumn | pipeline.py:17-21 | the column has one entry per row: the predictions when there is one per row, else "Normal" everywhere |
| LogPipeline.CleanColumn | pipeline.py:15 | the cleaned column exists exactly when every row's URL preprocesses, one entry per row |
| LogPipeline.Triage | pipeline.py:16-39 | an output row keeps its input row and cleaned URL and derives its label, final attack, outcome and priority from them |
| LogPipeline.ApplyPipeline | pipeline.py:13-40 | the pipeline succeeds exactly when every URL preprocesses, and then gives one output row per input row, in order |
| LogPipeline.NoModelRulesDecide | pipeline.py:17-38 | without a classifier every prediction is "Normal", the final attack is the signature label, and priority is Low exactly when that label is "Normal" |
| Dataset.FirstPresent | dataset_builder.py:20-24 | the index found is the first candidate among the columns, or the number of candidates when none is |
| Dataset.FindUrlColumn | dataset_builder.py:16-24 | no column is found exactly when no candidate is present; a found one is a present candidate with no earlier candidate present |
| Dataset.FirstPresentSameNames | dataset_builder.py:20-24 | only which names a file has matters, not their order |
| Dataset.FindUrlColumnSameNames | dataset_builder.py:20-24 | files with the same column names find the same URL column |
| Dataset.InferLabel | dataset_builder.py:17-29 | the label is "malicious" exactly when the lower-cased file name holds a keyword, else "benign" |
| Dataset.InferLabelCaseBlind | dataset_builder.py:27-29 | upper-casing the file name never changes the label |
| Dataset.CleanValue | dataset_builder.py:32-35 | a non-string gives ""; a string has whitespace, then double quotes, then single quotes stripped from both ends |
| Dataset.CleanValueWindow | dataset_builder.py:32-35 | the cleaned text is a contiguous piece of the input |
| Dataset.CleanValueEnds | dataset_builder.py:35 | the cleaned text neither starts nor ends with a single quote |
| Dataset.StripInfix | dataset_builder.py:35 | one strip leaves a contiguous piece of its input whose ends are not stripped characters |
| Dataset.InfixCompose | dataset_builder.py:35 | a piece of a piece is a piece of the whole |
| Dataset.ParseTarget | dataset_builder.py:50-51 | a path-only URL is parsed after `http://example.local`; anything else as it is |
| Dataset.Rebuilt | dataset_builder.py:62-71 | a URL with a host is rebuilt starting with its scheme, `://` and its lower-cased host |
| Dataset.Canonicalize | dataset_builder.py:38-76 | empty, unparsable and non-web inputs give nothing; an accepted URL is its rebuilt form unless that exceeds 3000 characters; any result fits and holds no fragment |
| Dataset.RebuiltNoFragment | dataset_builder.py:62-71 | the rebuilt URL holds no `#` |
| Dataset.LowerKeepsAbsent | dataset_builder.py:64-65 | lower-casing never introduces a character that is not a letter |
| Dataset.PathOnlyLocal | dataset_builder.py:50-76 | a path-only input parses as http on `example.local`, is kept exactly when its canonical form fits, and that form starts with `http://example.local` |
| Dataset.LocalRebuilt | dataset_builder.py:51-71 | rebuilding a URL on the placeholder host keeps the `http://example.local` prefix |
| Dataset.CellUrls | dataset_builder.py:104-111 | one canonical form per cell; a missing cell gives nothing; every form fits and holds no fragment |
| Dataset.ColumnUrls | dataset_builder.py:104-111 | no more URLs are kept than the column has cells |
| Dataset.ColumnUrlsCanonical | dataset_builder.py:104-111 | every kept URL has at most 3000 characters and no fragment |
| Dataset.FileRows | dataset_builder.py:98-115 | a file without a URL column contributes nothing; otherwise one row per kept URL of that column, in order, each carrying the file's label and name |
| Dataset.Urls | dataset_builder.py:122 | every row's URL is among the URLs of the list |
| Dataset.UrlsSnoc | dataset_builder.py:122 | appending a row adds exactly its URL |
| Dataset.Dedup | dataset_builder.py:122 | deduplication never adds rows, and keeps at least one row of a non-empty input |
| Dataset.FirstIndex | dataset_builder.py:122 | the position of a URL's first row: that row carries it and no earlier one does |
| Dataset.FirstIndexSnoc | dataset_builder.py:122 | appending a row keeps the first position of a present URL, and a new URL is first carried by the appended row |
| Dataset.DedupKeepsFirst | dataset_builder.py:122 | every kept row is the first row of the input with its URL, as `drop_duplicates` keeps by default |
| Dataset.DedupInOrder | dataset_builder.py:122 | the kept rows appear in the order of their first positions in the input |
| Dataset.DedupCovers | dataset_builder.py:122 | deduplication loses no URL |
| Dataset.DedupKeepsInput | dataset_builder.py:122 | deduplication keeps only input rows |
| Dataset.DedupDistinct | dataset_builder.py:122 | no two kept rows share a URL |
| Dataset.DedupNoOp | dataset_builder.py:122 | rows whose URLs are already distinct pass unchanged |
| Dataset.DedupIdempotent | dataset_builder.py:122 | deduplicating twice is deduplicating once |
| Dataset.Balance | dataset_builder.py:126-148 | counts only shrink, the smaller class is kept whole, with both classes present neither exceeds three times the other, and counts within the ratio or with a class missing are kept |
| Dataset.BalanceClosedForm | dataset_builder.py:133-140 | with both classes present the sizes are the minima against three times the other, and balancing again changes nothing |
| Dataset.CountLabel | dataset_builder.py:126 | a label count never exceeds the number of rows |
| Dataset.CountsPartition | dataset_builder.py:126-127 | with only two labels the two counts add up to the number of rows |
| Dataset.AllRows | dataset_builder.py:98-115 | the rows of all files, in file order, each labelled "malicious" or "benign" |
| Dataset.Combined | dataset_builder.py:89-122 | the combined rows carry every URL of every file exactly once, each by its first row across the files, so with that row's label "malicious" or "benign", in the order of first appearance |
| Dataset.BalancedSizes | dataset_builder.py:122-148 | the written classes together never exceed the deduplicated rows, and with both present neither exceeds three times the other |
| Auth.NormalizeEmail | auth_db.py:50 | a normalised address is never longer than the input and holds no capital letter |
| Auth.NormalizeEmailIdempotent | auth_db.py:50 | normalising an address twice is normalising it once |
| Auth.StripLowered | auth_db.py:50 | lower-casing keeps a stripped address stripped |
| Auth.Rejection | auth_db.py:49-57 | a blank name, address or password is refused first; then an address lacking `@` or `.`; then a password shorter than 8; nothing else is refused |
| Auth.CreateUser | auth_db.py:48-77 | a refused registration reports its message and leaves the table; a known address reports "already exists" and leaves it; otherwise exactly the new row is stored under the normalised address with the next id |
| Auth.CreateUserPreservesValid | auth_db.py:48-77 | registration keeps every row stored under its own normalised, well-formed address with an id below the next one |
| Auth.CreateUserAddsOne | auth_db.py:65-77 | a successful registration adds exactly one address, and no existing row changes |
| Auth.Authenticate | auth_db.py:87-106 | a blank address or password is refused as such; login succeeds exactly when the address is known and the password hashes to its stored digest, returning that row's user; every other failure is "Invalid credentials." |
| Auth.RegisterThenLogin | auth_db.py:48-106 | a freshly registered user logs in with the same password under any spelling that normalises alike, and gets the trimmed name and normalised address back |
| Auth.FailuresIndistinguishable | auth_db.py:95-103 | an unknown address and a wrong password are answered alike |
| Auth.SecondRegistrationFails | auth_db.py:65-77 | registering the same address again fails with "already exists" and leaves the table as it was |

## Left out

- User interface: the Streamlit pages, navigation and session state are presentation, not engine logic.
- Model training: the training scripts, TF-IDF vectorisation and the scikit-learn classifiers are foreign library code. The classifier is a parameter: its class list with a probability matrix, decision scores, or hard labels.
- Numerics:
  - Shannon entropy (`log2`), the sigmoid of decision scores and the `:.2f` formatting of probabilities are floating-point library calls; each is a function parameter.
  - IEEE rounding error is not modelled: floats are exact reals.
  - Python's `int()` of an infinite float, which raises, is not modelled.
- I/O and time:
  - CSV reading and writing, directory creation and `datetime.utcnow` are I/O; a record is a map from column to cell, and the current time is an input.
  - The random undersampling and the stratified train/validation/test splits of the dataset builder are left out. Only the class-count arithmetic of balancing is modelled.
- Accounts: the SQLite connection, PBKDF2, `os.urandom` and base64 in the account code are left out. The table is a map keyed by the unique e-mail column, the hash is an uninterpreted function and the salt an input.
- Caching: thread safety of the lazily filled model cache is a concurrency concern. Only the sequential load-once-then-reuse behaviour is modelled.
- Text:
  - Case mapping and digits are ASCII only; non-ASCII case folding and Unicode digits are not modelled. Whitespace is Python's full `str.isspace` set, so `strip()` and `\s` are modelled exactly.
  - `unquote` decodes each `%XX` escape to one character: an ASCII byte to itself and any byte from 0x80 up to U+FFFD. Python decodes a valid multi-byte UTF-8 sequence to its one character, and replaces an invalid sequence per maximal subpart rather than per byte; neither is modelled.
- Url.UnquoteEncode: the round trip is stated for ASCII text only, because a non-ASCII character encodes to more than one escape.
- URL parsing and matching:
  - `urllib.parse` is modelled for the cases the engine relies on: scheme, `//` authority, path, `;params`, query and fragment splitting, and rejection of unbalanced brackets in the authority. `urlunparse` follows the Python 3.11 form.
  - Regular expressions are restated as substring and whitespace-run predicates.
- Types: `core/types.py` is not part of this model. `Event` and `Finding` follow `core/schema.py`.
  - `core/correlate.py` uses events as dictionary keys. The model compares events by value, whereas the schema dataclass is not hashable.
- Ingestion: `apply_pipeline` reads a `status_code` column. A frame without that column raises there; the model's rows always carry a status cell.
- Rules: the legacy feature-row entry point's exceptions are modelled as failure messages: KeyError for a missing `event` key and AttributeError for a `None` event. Other non-event values in the key, which would raise their own errors, are not modelled: a row holds an event or None.
- Explain.Readable: for an unknown rule id the contract states the length and the absence of underscores, not the title casing itself.
- Explain.ExplainRow: the contract states only the opening sentence. `Explain.RowParts` states every part.
- FeatureExtractor.HasIp: the contract gives one direction. `FeatureExtractor.HasIpIsIpv4` and `FeatureExtractor.PortSplitsAddressTests` relate it to the rule engine's address test.
- FeatureExtractor.CountKeywords: the contract bounds the count. `FeatureExtractor.KeywordCountMatchesRule` states when it is positive, and `Signature.PresentAppend` and `Signature.PresentSingle` state which keywords are counted.
- FeatureExtractor.CountWhere: the contract states the bounds and extremes. `FeatureExtractor.CountWhereAppend` and `FeatureExtractor.CountWhereSingle` state the count itself.
- FeatureExtractor.CountDigits: the contract states the bounds and extremes. `FeatureExtractor.CountersAppend` and `FeatureExtractor.CountersSingle` state the count itself.
- FeatureExtractor.CountSpecial: the contract states the bounds and extremes. `FeatureExtractor.CountersAppend` and `FeatureExtractor.CountersSingle` state the count itself.
- FeatureExtractor.CountUpper: the contract states the bounds and extremes. `FeatureExtractor.CountersAppend` and `FeatureExtractor.CountersSingle` state the count itself.
- FeatureExtractor.TldRisk: the contract bounds the grade. `FeatureExtractor.TldRiskAgreesWithRules` ties it to the TLD lists for port-free hosts.
- Dataset.ColumnUrls: the contract bounds the length. `Dataset.ColumnUrlsCanonical` states what every kept URL satisfies.
- Dataset.Dedup: the contract bounds the length. `Dataset.DedupKeepsFirst`, `Dataset.DedupInOrder`, `Dataset.DedupCovers` and `Dataset.DedupDistinct` state which rows are kept and in what order.
- Dataset.Rebuilt: the contract states the scheme-and-host prefix. `Dataset.RebuiltNoFragment` states that the fragment is dropped.
- Normalize.DecodedUrl: the contract bounds the length. `Url.UnquoteEncode` states that decoding inverts encoding.
- Score.SortFindings: the contract states the length. `Score.SortPerm`, `Score.SortSorted` and `Score.SortStable` state permutation, order and stability.
- Explain.HitsSentence: the contract states the sentence's fixed opening and ending and the values it names, not every character of the text.
- Explain.TopSentence: the contract states the sentence's fixed opening and ending and the values it names, not every character of the text.
- Explain.TopIpSentence: the contract states the sentence's fixed opening and ending and the values it names, not every character of the text.
- Explain.PredictionSentence: the contract states the sentence's fixed opening and ending and the values it names, not every character of the text.
- Explain.ClosingSentence: the contract states the sentence's fixed opening and ending and the values it names, not every character of the text.
- Explain.Listing: the contract states the sentence's fixed opening and ending and the values it names, not every character of the text.
- Detector.SqlMatch: the contract states a necessary condition; `Detector.TraversalWithCommentIsSql` and `Detector.FirstMatch` use the full signature.
- Detector.CommandMatch: the contract states a necessary condition; `Detector.NoSeparatorNoCommand`, `Detector.SeparatorThenCommand` and `Detector.LineBreakDefeatsCommand` characterise the signature.
- Explain.Phrase: the contract states that each phrase is non-empty; `Explain.PhraseInjective` and `Explain.ReadableKnown` state how phrases name rules.
- Store.Len: the contract bounds the length by the sessions; `Store.AddEventLen`, `Store.ClearIpLen` and `Store.AddAllLen` state how it changes.
- Text.PyInt: the contract states when a value can be read. `Text.PyIntOfDigits`, `Text.PyIntOfNegDigits` and `Text.IntToStringRoundTrip` state what is read.

=== FILE: analyze.dfy ===
/** The end-to-end inference of `core/pipeline.py`: every URL is stripped, run
    through the classifier and the rule engine, scored and explained. A
    classifier failure degrades to a benign verdict for every URL, and a rule
    engine failure to no rules for that URL alone. The classifier's outcome is a
    parameter (see `Ml.PredictUrls` for how it is obtained). */
module Analyze {
  import opened Wrappers
  import opened Text
  import opened Schema
  import Rules
  import Score
  import Explain
  import Ml

  /** `_safe_url`: `None` and the empty string become "", anything else is
      stripped of surrounding whitespace. */
  function SafeUrl(url: Option<string>): (r: string)
    ensures url.None? ==> r == ""
    ensures url.Some? ==> r == Strip(url.value)
    ensures forall i :: 0 <= i < |r| ==> r[i] in url.GetOr("")
  {
    var r := Strip(url.GetOr(""));
    assert forall i :: 0 <= i < |r| ==> r[i] in url.GetOr("") by {
      StripByWindow(url.GetOr(""), IsSpace);
      var a := LeadCount(url.GetOr(""), IsSpace);
      forall i | 0 <= i < |r| ensures r[i] in url.GetOr("") {
        assert r[i] == url.GetOr("")[a + i];
      }
    }
    r
  }

  /** Stripping twice changes nothing, so the reported URL is a fixed point. */
  lemma SafeUrlIdempotent(url: Option<string>)
    ensures SafeUrl(Some(SafeUrl(url))) == SafeUrl(url)
  {
    StripIdempotent(url.GetOr(""));
  }

  /** One entry of the classifier's output as the loop reads it: the label and the
      probability may each be missing and then default to "benign" and 0.0. */
  datatype MlOut = MlOut(predicted: Option<string>, probability: Option<real>)

  /** The classifier's predictions as the loop sees them. */
  function FromPredictions(preds: seq<Ml.Prediction>): (r: seq<MlOut>)
    ensures |r| == |preds|
    ensures forall i :: 0 <= i < |preds| ==> r[i] == MlOut(Some(preds[i].verdict), Some(preds[i].probability))
  {
    seq(|preds|, i requires 0 <= i < |preds| => MlOut(Some(preds[i].verdict), Some(preds[i].probability)))
  }

  /** The degraded output: benign with probability 0.05, one per URL. */
  function Degraded(urls: seq<string>): (r: seq<MlOut>)
    ensures |r| == |urls|
    ensures forall i :: 0 <= i < |urls| ==> r[i] == MlOut(Some(Ml.BenignClass), Some(0.05))
  {
    seq(|urls|, _ => MlOut(Some(Ml.BenignClass), Some(0.05)))
  }

  /** The classifier's outputs, or the degraded ones when it raised anything. */
  function MlOutputs<E>(urls: seq<string>, predicted: Result<seq<Ml.Prediction>, E>): (r: seq<MlOut>)
    ensures predicted.Failure? ==> r == Degraded(urls)
    ensures predicted.Success? ==> r == FromPredictions(predicted.value)
  {
    match predicted
    case Failure(_) => Degraded(urls)
    case Success(preds) => FromPredictions(preds)
  }

  /** The rule ids for a URL, or none when the rule engine raised. */
  function RulesFor(url: string): (r: seq<string>)
    ensures Rules.ApplyRulesUrl(url).Failure? ==> r == []
    ensures Rules.ApplyRulesUrl(url).Success? ==> r == Rules.ApplyRulesUrl(url).value.Ids()
  {
    match Rules.ApplyRulesUrl(url)
    case Failure(_) => []
    case Success(d) => d.Ids()
  }

  /** One result of `analyze_urls`. */
  datatype Analysis = Analysis(
    url: string,
    mlLabel: string,
    mlProbability: real,
    rulesTriggered: seq<string>,
    riskScore: int,
    riskLevel: Score.Level,
    whySummary: string)

  /** The result for one stripped URL and its classifier output. */
  function AnalyzeOne(url: string, out: MlOut): (a: Analysis)
    ensures a.url == url && a.rulesTriggered == RulesFor(url)
    ensures a.mlLabel == out.predicted.GetOr(Ml.BenignClass) && a.mlProbability == out.probability.GetOr(0.0)
    ensures Score.Risk(a.riskScore, a.riskLevel) == Score.ComputeRisk(a.mlProbability, a.rulesTriggered)
    ensures 0 <= a.riskScore <= 100
    ensures a.whySummary == Explain.WhySummary(a.mlLabel, a.mlProbability, a.rulesTriggered,
                                               a.riskScore, Score.LevelName(a.riskLevel))
  {
    var rules := RulesFor(url);
    var verdict := out.predicted.GetOr(Ml.BenignClass);
    var p := out.probability.GetOr(0.0);
    var risk := Score.ComputeRisk(p, rules);
    Analysis(url, verdict, p, rules, risk.score, risk.level,
             Explain.WhySummary(verdict, p, rules, risk.score, Score.LevelName(risk.level)))
  }

  /** The stripped URLs, in order. */
  function Cleaned(urls: seq<Option<string>>): (r: seq<string>)
    ensures |r| == |urls| && forall i :: 0 <= i < |urls| ==> r[i] == SafeUrl(urls[i])
  {
    seq(|urls|, i requires 0 <= i < |urls| => SafeUrl(urls[i]))
  }

  /** `analyze_urls`: the stripped URLs zipped with the classifier's outputs. */
  function AnalyzeUrls<E>(urls: seq<Option<string>>, predicted: Result<seq<Ml.Prediction>, E>): (r: seq<Analysis>)
    ensures var outs := MlOutputs(Cleaned(urls), predicted);
      && |r| == (if |urls| <= |outs| then |urls| else |outs|)
      && forall i :: 0 <= i < |r| ==> r[i] == AnalyzeOne(SafeUrl(urls[i]), outs[i])
  {
    var outs := MlOutputs(Cleaned(urls), predicted);
    var n := if |urls| <= |outs| then |urls| else |outs|;
    seq(n, i requires 0 <= i < n => AnalyzeOne(SafeUrl(urls[i]), outs[i]))
  }

  /** With the classifier failing, the output is one-to-one and in order with the
      input: each URL is reported stripped, benign, with probability 0.05. */
  lemma DegradedOneToOne<E>(urls: seq<Option<string>>, err: E)
    ensures var r := AnalyzeUrls(urls, Failure(err));
      && |r| == |urls|
      && forall i :: 0 <= i < |urls| ==> (r[i].url == SafeUrl(urls[i])
        && r[i].mlLabel == "benign" && r[i].mlProbability == 0.05)
  {
    var cleaned := Cleaned(urls);
    var outs := MlOutputs(cleaned, Failure(err));
    var r := AnalyzeUrls(urls, Failure(err));
    forall i | 0 <= i < |urls|
      ensures r[i].url == SafeUrl(urls[i]) && r[i].mlLabel == "benign" && r[i].mlProbability == 0.05
    {
      assert outs[i] == MlOut(Some(Ml.BenignClass), Some(0.05));
      var a := AnalyzeOne(SafeUrl(urls[i]), outs[i]);
    }
  }

  /** With one prediction per URL the output is one-to-one as well, and each
      result carries that prediction's label and probability. */
  lemma PredictedOneToOne<E>(urls: seq<Option<string>>, preds: seq<Ml.Prediction>)
    requires |preds| == |urls|
    ensures var r := AnalyzeUrls<E>(urls, Success(preds));
      && |r| == |urls|
      && forall i :: 0 <= i < |urls| ==> (r[i].url == SafeUrl(urls[i])
        && r[i].mlLabel == preds[i].verdict && r[i].mlProbability == preds[i].probability)
  {
    var cleaned := Cleaned(urls);
    var outs := MlOutputs<E>(cleaned, Success(preds));
    var r := AnalyzeUrls<E>(urls, Success(preds));
    forall i | 0 <= i < |urls|
      ensures r[i].url == SafeUrl(urls[i]) && r[i].mlLabel == preds[i].verdict && r[i].mlProbability == preds[i].probability
    {
      var a := AnalyzeOne(SafeUrl(urls[i]), outs[i]);
    }
  }

  /** A URL the rule engine rejects gets no rules, and only its own result is
      affected: every result's rules depend on its own URL alone. */
  lemma RuleFailureIsLocal<E>(urls: seq<Option<string>>, predicted: Result<seq<Ml.Prediction>, E>, i: nat)
    requires i < |AnalyzeUrls(urls, predicted)|
    ensures var r := AnalyzeUrls(urls, predicted);
      Rules.ApplyRulesUrl(SafeUrl(urls[i])).Failure? ==> r[i].rulesTriggered == []
    ensures var r := AnalyzeUrls(urls, predicted);
      forall j :: 0 <= j < |r| ==> r[j].rulesTriggered == RulesFor(SafeUrl(urls[j]))
  {
  }

  /** The two fallback labels disagree: the ML adapter falls back to "Normal",
      this pipeline to "benign". */
  lemma FallbackLabelsDiffer(e: Event)
    ensures Ml.FallbackEntry(e).predicted != Degraded([""])[0].predicted.value
  {
  }
}

=== FILE: auth.dfy ===
/** Account validation of `auth_db.py`: registering a user and logging in,
    over a user table held as a map from normalised e-mail to row. The password
    hash, the random salt and the database connection are not modelled: the hash
    is a function parameter and the salt an input. */
module Auth {
  import opened Wrappers
  import opened Text

  type Bytes = seq<int>

  /** The password hash `(password, salt) -> digest`. */
  type Hasher = (string, Bytes) -> Bytes

  /** A row of the `users` table. */
  datatype UserRow = UserRow(id: nat, name: string, email: string, salt: Bytes, pwHash: Bytes)

  /** The table, keyed by its unique e-mail column, and the next identifier
      AUTOINCREMENT hands out. */
  datatype Db = Db(users: map<string, UserRow>, nextId: nat)

  /** The user returned by a successful login. */
  datatype User = User(id: nat, name: string, email: string)

  const MsgAllFields: string := "All fields are required."
  const MsgBadEmail: string := "Enter a valid email."
  const MsgShortPassword: string := "Password must be at least 8 characters."
  const MsgCreated: string := "Account created. You can login now."
  const MsgExists: string := "Email already exists. Try logging in."
  const MsgCredentialsRequired: string := "Email and password required."
  const MsgInvalid: string := "Invalid credentials."
  const MsgLoggedIn: string := "Logged in."

  const MinPasswordLength: nat := 8

  /** `email.strip().lower()`. */
  function NormalizeEmail(email: string): (r: string)
    ensures |r| <= |email|
    ensures forall i :: 0 <= i < |r| ==> !IsUpper(r[i])
  {
    Lower(Strip(email))
  }

  /** Normalising twice is normalising once, so whitespace and capitals around an
      address never make a second account. */
  lemma NormalizeEmailIdempotent(email: string)
    ensures NormalizeEmail(NormalizeEmail(email)) == NormalizeEmail(email)
  {
    StripLowered(email);
    LowerIdempotent(Strip(email));
  }

  /** Lower-casing keeps a stripped string stripped. */
  lemma StripLowered(email: string)
    ensures Strip(Lower(Strip(email))) == Lower(Strip(email))
  {
    var s := Strip(email);
    var r := Lower(s);
    StripByWindow(email, IsSpace);
    if r != [] {
      LowerCharSpace(s[0]);
      LowerCharSpace(s[|s| - 1]);
    }
    StripByNoOp(r, IsSpace);
  }

  lemma LowerIdempotent(s: string)
    ensures Lower(Lower(s)) == Lower(s)
  {
    forall i | 0 <= i < |s| ensures LowerChar(Lower(s)[i]) == Lower(s)[i] {
      LowerCharTwice(s[i]);
    }
  }

  lemma LowerCharSpace(c: char)
    ensures IsSpace(LowerChar(c)) == IsSpace(c)
  {
  }

  lemma LowerCharTwice(c: char)
    ensures LowerChar(LowerChar(c)) == LowerChar(c)
  {
  }

  /** Every row is stored under its own e-mail, which is normalised and holds an
      `@` and a `.`, and every identifier is below the next one. */
  predicate Valid(db: Db) {
    forall e :: e in db.users ==>
      && db.users[e].email == e
      && NormalizeEmail(e) == e
      && '@' in e && '.' in e
      && db.users[e].id < db.nextId
  }

  /** The first validation error of a registration, if any. */
  function Rejection(name: string, email: string, password: string): (r: Option<string>)
    ensures Strip(name) == "" || NormalizeEmail(email) == "" || password == "" ==> r == Some(MsgAllFields)
    ensures !(Strip(name) == "" || NormalizeEmail(email) == "" || password == "") ==>
      (('@' !in NormalizeEmail(email) || '.' !in NormalizeEmail(email)) ==> r == Some(MsgBadEmail))
    ensures (!(Strip(name) == "" || NormalizeEmail(email) == "" || password == "")
             && '@' in NormalizeEmail(email) && '.' in NormalizeEmail(email)) ==>
      (r.Some? <==> |password| < MinPasswordLength) && (r.Some? ==> r.value == MsgShortPassword)
  {
    var n := Strip(name);
    var e := NormalizeEmail(email);
    if n == "" || e == "" || password == "" then Some(MsgAllFields)
    else if '@' !in e || '.' !in e then Some(MsgBadEmail)
    else if |password| < MinPasswordLength then Some(MsgShortPassword)
    else None
  }

  /** `create_user` with the given salt: validation first, then an insert that
      the unique e-mail column refuses for a known address. */
  function CreateUser(db: Db, name: string, email: string, password: string, salt: Bytes, hash: Hasher): (r: (bool, string, Db))
    ensures Rejection(name, email, password).Some? ==> r == (false, Rejection(name, email, password).value, db)
    ensures Rejection(name, email, password).None? && NormalizeEmail(email) in db.users ==> r == (false, MsgExists, db)
    ensures r.0 <==> Rejection(name, email, password).None? && NormalizeEmail(email) !in db.users
    ensures r.0 ==> r.1 == MsgCreated
    ensures r.0 ==> var e := NormalizeEmail(email);
      && r.2.users == db.users[e := UserRow(db.nextId, Strip(name), e, salt, hash(password, salt))]
      && r.2.nextId == db.nextId + 1
  {
    match Rejection(name, email, password)
    case Some(msg) => (false, msg, db)
    case None =>
      var e := NormalizeEmail(email);
      if e in db.users then (false, MsgExists, db)
      else (true, MsgCreated, Db(db.users[e := UserRow(db.nextId, Strip(name), e, salt, hash(password, salt))], db.nextId + 1))
  }

  /** Registration keeps the table valid, adds exactly one row when it succeeds,
      and touches no other row. */
  lemma CreateUserPreservesValid(db: Db, name: string, email: string, password: string, salt: Bytes, hash: Hasher)
    requires Valid(db)
    ensures Valid(CreateUser(db, name, email, password, salt, hash).2)
  {
    var r := CreateUser(db, name, email, password, salt, hash);
    if r.0 {
      var e := NormalizeEmail(email);
      NormalizeEmailIdempotent(email);
      assert '@' in e && '.' in e;
      var row := UserRow(db.nextId, Strip(name), e, salt, hash(password, salt));
      assert r.2 == Db(db.users[e := row], db.nextId + 1);
      forall k | k in r.2.users
        ensures r.2.users[k].email == k && NormalizeEmail(k) == k && '@' in k && '.' in k && r.2.users[k].id < r.2.nextId
      {
        if k != e {
          assert r.2.users[k] == db.users[k];
        }
      }
    }
  }

  /** A successful registration adds exactly one row and touches no other. */
  lemma CreateUserAddsOne(db: Db, name: string, email: string, password: string, salt: Bytes, hash: Hasher)
    ensures var r := CreateUser(db, name, email, password, salt, hash);
      && (r.0 ==> r.2.users.Keys == db.users.Keys + {NormalizeEmail(email)} && |r.2.users| == |db.users| + 1)
      && (forall e :: e in db.users ==> e in r.2.users && r.2.users[e] == db.users[e])
  {
  }

  /** `authenticate`: the stored row for the normalised address, when the
      password hashes to its stored digest under its stored salt. */
  function Authenticate(db: Db, email: string, password: string, hash: Hasher): (r: (bool, string, Option<User>))
    ensures NormalizeEmail(email) == "" || password == "" ==> r == (false, MsgCredentialsRequired, None)
    ensures r.0 <==> (NormalizeEmail(email) != "" && password != "" && NormalizeEmail(email) in db.users
                      && hash(password, db.users[NormalizeEmail(email)].salt) == db.users[NormalizeEmail(email)].pwHash)
    ensures !r.0 && NormalizeEmail(email) != "" && password != "" ==> r == (false, MsgInvalid, None)
    ensures r.0 ==> var row := db.users[NormalizeEmail(email)];
      r == (true, MsgLoggedIn, Some(User(row.id, row.name, row.email)))
  {
    var e := NormalizeEmail(email);
    if e == "" || password == "" then (false, MsgCredentialsRequired, None)
    else if e !in db.users then (false, MsgInvalid, None)
    else
      var row := db.users[e];
      if hash(password, row.salt) != row.pwHash then (false, MsgInvalid, None)
      else (true, MsgLoggedIn, Some(User(row.id, row.name, row.email)))
  }

  /** A freshly registered user can log in with the same password, under any
      spelling of the address that normalises the same, and gets back the
      trimmed name and normalised address. */
  lemma RegisterThenLogin(db: Db, name: string, email: string, login: string, password: string, salt: Bytes, hash: Hasher)
    requires CreateUser(db, name, email, password, salt, hash).0
    requires NormalizeEmail(login) == NormalizeEmail(email)
    ensures Authenticate(CreateUser(db, name, email, password, salt, hash).2, login, password, hash)
      == (true, MsgLoggedIn, Some(User(db.nextId, Strip(name), NormalizeEmail(email))))
  {
  }

  /** An unknown address and a wrong password are answered alike. */
  lemma FailuresIndistinguishable(db: Db, unknown: string, known: string, wrong: string, hash: Hasher)
    requires Valid(db)
    requires NormalizeEmail(unknown) != "" && NormalizeEmail(unknown) !in db.users
    requires NormalizeEmail(known) in db.users && wrong != ""
    requires hash(wrong, db.users[NormalizeEmail(known)].salt) != db.users[NormalizeEmail(known)].pwHash
    ensures Authenticate(db, unknown, wrong, hash) == Authenticate(db, known, wrong, hash)
  {
  }

  /** Registering the same address twice fails the second time and leaves the
      table as the first call left it. */
  lemma SecondRegistrationFails(db: Db, name: string, email: string, password: string, name2: string, password2: string,
                                salt: Bytes, salt2: Bytes, hash: Hasher)
    requires CreateUser(db, name, email, password, salt, hash).0
    requires Rejection(name2, email, password2).None?
    ensures var db1 := CreateUser(db, name, email, password, salt, hash).2;
      CreateUser(db1, name2, email, password2, salt2, hash) == (false, MsgExists, db1)
  {
  }
}

=== FILE: correlate.dfy ===
/** Session correlation: every event of a batch is filed under its source address,
    given a primary label and an attack stage, and the per-address chains are
    summarised as an attack density, a multi-stage flag and the labels seen more
    than once. */
module Correlate {
  import opened Wrappers
  import opened Text
  import opened Schema
  import opened Store

  // ---------------------------------------------------------------- stages

  /** The fixed attack-stage taxonomy. */
  datatype Stage = Benign | Reconnaissance | Exploitation | LateralMovement | Suspicious

  function StageName(s: Stage): string {
    match s
    case Benign => "benign"
    case Reconnaissance => "reconnaissance"
    case Exploitation => "exploitation"
    case LateralMovement => "lateral movement"
    case Suspicious => "suspicious"
  }

  /** A label that reports no attack: "normal" or "benign" in any letter case. */
  predicate IsQuietLabel(name: string) {
    var key := Lower(name);
    key == "normal" || key == "benign"
  }

  /** `stage_for_label`: the stage of a label, compared case-insensitively. */
  function StageForLabel(name: string): (s: Stage)
    ensures s == Benign <==> IsQuietLabel(name)
  {
    var key := Lower(name);
    if key == "normal" || key == "benign" then Benign
    else if key == "directory traversal" then Reconnaissance
    else if key == "sql injection" || key == "command injection" || key == "xss" then Exploitation
    else if key == "ssrf" then LateralMovement
    else Suspicious
  }

  /** Labels that differ only in letter case fall in the same stage. */
  lemma StageIgnoresCase(a: string, b: string)
    requires Lower(a) == Lower(b)
    ensures StageForLabel(a) == StageForLabel(b)
  {
  }

  /** The stages of the labels the pattern detector produces. */
  lemma DetectorLabelStages()
    ensures StageForLabel("Normal") == Benign
    ensures StageForLabel("SQL Injection") == Exploitation
    ensures StageForLabel("XSS") == Exploitation
    ensures StageForLabel("SSRF") == LateralMovement
  {
    SqlInjectionStage();
  }

  lemma SqlInjectionStage()
    ensures StageForLabel("SQL Injection") == Exploitation
  {
  }

  /** ... and its two longer labels. */
  lemma DetectorLongLabelStages()
    ensures StageForLabel("Directory Traversal") == Reconnaissance
    ensures StageForLabel("Command Injection") == Exploitation
  {
    TraversalStage();
    CommandInjectionStage();
  }

  lemma TraversalStage()
    ensures StageForLabel("Directory Traversal") == Reconnaissance
  {
  }

  lemma CommandInjectionStage()
    ensures StageForLabel("Command Injection") == Exploitation
  {
  }

  /** The stages of the classifier's labels and of the rule engine's catch-all label. */
  lemma ClassifierLabelStages()
    ensures StageForLabel("benign") == Benign
    ensures StageForLabel("malicious") == Suspicious
    ensures StageForLabel("Suspicious") == Suspicious
  {
  }

  // ---------------------------------------------------------------- per-event data

  /** The inputs of one correlation: events, findings, and the per-event
      classifier entries (matched to events by position). */
  datatype Batch = Batch(events: seq<Event>, findings: seq<Finding>, ml: seq<MlEntry>)

  /** One element of an address's chain. */
  datatype ChainEntry = ChainEntry(
    order: nat,
    timestamp: Option<Timestamp>,
    attack: string,
    stage: Stage,
    hits: seq<Value>,
    ml: Option<MlEntry>,
    findings: seq<Finding>)

  /** The findings attached to `e`, in the order given (`findings_by_event[e]`):
      the first one is the earliest finding for `e`, and none for `e` is left out. */
  function FindingsFor(findings: seq<Finding>, e: Event): (r: seq<Finding>)
    ensures |r| <= |findings|
    ensures forall j :: 0 <= j < |r| ==> r[j].event == e
    ensures forall j :: 0 <= j < |findings| && findings[j].event == e ==> findings[j] in r
    ensures r != [] ==> exists j :: 0 <= j < |findings| && findings[j] == r[0] && IsFirstFor(findings, e, j)
  {
    if findings == [] then []
    else
      var rest := FindingsFor(findings[1..], e);
      assert forall j :: 1 <= j < |findings| ==> findings[1..][j - 1] == findings[j];
      if findings[0].event == e then
        assert IsFirstFor(findings, e, 0);
        [findings[0]] + rest
      else
        assert rest != [] ==> exists j :: 0 <= j < |findings| && findings[j] == rest[0] && IsFirstFor(findings, e, j) by {
          if rest != [] {
            var j :| 0 <= j < |findings[1..]| && findings[1..][j] == rest[0] && IsFirstFor(findings[1..], e, j);
            assert findings[j + 1] == rest[0];
            assert IsFirstFor(findings, e, j + 1);
          }
        }
        rest
  }

  /** `findings[j]` is the earliest finding for `e`. */
  predicate IsFirstFor(findings: seq<Finding>, e: Event, j: nat)
    requires j < |findings|
  {
    findings[j].event == e && forall k :: 0 <= k < j ==> findings[k].event != e
  }

  /** The findings of two lists concatenated are those of each, in list order. */
  lemma {:induction false} FindingsForAppend(a: seq<Finding>, b: seq<Finding>, e: Event)
    ensures FindingsFor(a + b, e) == FindingsFor(a, e) + FindingsFor(b, e)
    decreases |a|
  {
    if a != [] {
      assert (a + b)[1..] == a[1..] + b;
      FindingsForAppend(a[1..], b, e);
    } else {
      assert a + b == b;
    }
  }

  /** One finding is listed exactly when it is for `e`. */
  lemma FindingsForSingle(f: Finding, e: Event)
    ensures FindingsFor([f], e) == (if f.event == e then [f] else [])
  {
    assert [f][1..] == [];
  }

  /** The `hits` a finding's details contribute: a list is spliced in, any other
      truthy value is added as its text, and anything else adds nothing. */
  function HitsOfDetails(d: map<string, Value>): (r: seq<Value>)
    ensures "hits" !in d ==> r == []
    ensures "hits" in d && d["hits"].List? ==> r == d["hits"].items
    ensures "hits" in d && !d["hits"].List? ==> r == (if Truthy(d["hits"]) then [Str(Show(d["hits"]))] else [])
  {
    if "hits" !in d then []
    else
      var v := d["hits"];
      if v.List? then v.items
      else if Truthy(v) then [Str(Show(v))]
      else []
  }

  /** The `hits` of an event: every finding's contribution, in finding order. */
  function HitsOf(fs: seq<Finding>): (r: seq<Value>)
    ensures fs == [] ==> r == []
    ensures forall x :: x in r ==> exists j :: 0 <= j < |fs| && x in HitsOfDetails(fs[j].details)
  {
    if fs == [] then []
    else
      var head, rest := HitsOfDetails(fs[0].details), HitsOf(fs[1..]);
      assert forall j :: 1 <= j < |fs| ==> fs[1..][j - 1] == fs[j];
      head + rest
  }

  /** The hits of two finding lists concatenated are those of each, in order. */
  lemma {:induction false} HitsOfAppend(a: seq<Finding>, b: seq<Finding>)
    ensures HitsOf(a + b) == HitsOf(a) + HitsOf(b)
    decreases |a|
  {
    if a != [] {
      assert (a + b)[1..] == a[1..] + b;
      HitsOfAppend(a[1..], b);
    } else {
      assert a + b == b;
    }
  }

  /** One finding contributes exactly its own details' hits. */
  lemma HitsOfSingle(f: Finding)
    ensures HitsOf([f]) == HitsOfDetails(f.details)
  {
    assert [f][1..] == [];
  }

  /** The primary label of event `i`: its first finding's attack type, else its
      classifier entry's label, else "Normal". */
  function LabelAt(b: Batch, i: nat): (r: string)
    requires i < |b.events|
    ensures FindingsFor(b.findings, b.events[i]) != [] ==> r == FindingsFor(b.findings, b.events[i])[0].attackType
    ensures FindingsFor(b.findings, b.events[i]) == [] && i < |b.ml| ==> r == b.ml[i].predicted
    ensures FindingsFor(b.findings, b.events[i]) == [] && i >= |b.ml| ==> r == "Normal"
    ensures forall j :: 0 <= j < |b.findings| && IsFirstFor(b.findings, b.events[i], j) ==> r == b.findings[j].attackType
  {
    var fs := FindingsFor(b.findings, b.events[i]);
    if fs != [] then fs[0].attackType
    else if i < |b.ml| then b.ml[i].predicted
    else "Normal"
  }

  /** The chain entry of event `i`. */
  function EntryAt(b: Batch, i: nat): (r: ChainEntry)
    requires i < |b.events|
    ensures r.order == i && r.attack == LabelAt(b, i) && r.stage == StageForLabel(r.attack)
    ensures r.ml.Some? <==> i < |b.ml|
    ensures i < |b.ml| ==> r.ml == Some(b.ml[i])
    ensures r.timestamp == b.events[i].timestamp
    ensures r.findings == FindingsFor(b.findings, b.events[i]) && r.hits == HitsOf(r.findings)
  {
    var fs := FindingsFor(b.findings, b.events[i]);
    var name := LabelAt(b, i);
    ChainEntry(i, b.events[i].timestamp, name, StageForLabel(name), HitsOf(fs),
      if i < |b.ml| then Some(b.ml[i]) else None, fs)
  }

  function KeyAt(b: Batch, i: nat): string
    requires i < |b.events|
  {
    IpKey(b.events[i].sourceIp)
  }

  // ---------------------------------------------------------------- label counts

  /** A per-address label counter: labels in first-seen order with their counts. */
  type Counts = seq<(string, nat)>

  /** The count of label `name`, 0 when absent. */
  function CountOf(cs: Counts, name: string): nat {
    if cs == [] then 0
    else if cs[0].0 == name then cs[0].1
    else CountOf(cs[1..], name)
  }

  predicate DistinctLabels(cs: Counts) {
    forall i, j :: 0 <= i < j < |cs| ==> cs[i].0 != cs[j].0
  }

  function LabelsOf(cs: Counts): set<string> {
    set i | 0 <= i < |cs| :: cs[i].0
  }

  /** `counts[label] += 1`. */
  function Bump(cs: Counts, name: string): (r: Counts)
    ensures forall x :: CountOf(r, x) == CountOf(cs, x) + (if x == name then 1 else 0)
    ensures LabelsOf(r) == LabelsOf(cs) + {name}
    ensures DistinctLabels(cs) ==> DistinctLabels(r)
  {
    if cs == [] then [(name, 1)]
    else if cs[0].0 == name then
      var r := [(name, cs[0].1 + 1)] + cs[1..];
      LabelsCons(cs);
      LabelsCons(r);
      assert r[1..] == cs[1..];
      r
    else
      var rest := Bump(cs[1..], name);
      var r := [cs[0]] + rest;
      LabelsCons(cs);
      LabelsCons(r);
      assert r[1..] == rest;
      assert DistinctLabels(cs) ==> DistinctLabels(r) by {
        if DistinctLabels(cs) {
          DistinctCons(cs);
          DistinctConsBack(r);
        }
      }
      r
  }

  /** The labels of a non-empty counter: its first label and the rest's. */
  lemma LabelsCons(cs: Counts)
    requires cs != []
    ensures LabelsOf(cs) == {cs[0].0} + LabelsOf(cs[1..])
  {
    forall x | x in LabelsOf(cs) ensures x == cs[0].0 || x in LabelsOf(cs[1..]) {
      var i :| 0 <= i < |cs| && cs[i].0 == x;
      if i > 0 { assert cs[1..][i - 1] == cs[i]; }
    }
    forall x | x in LabelsOf(cs[1..]) ensures x in LabelsOf(cs) {
      var i :| 0 <= i < |cs[1..]| && cs[1..][i].0 == x;
      assert cs[i + 1] == cs[1..][i];
    }
  }

  /** A counter with distinct labels: its first label is not among the rest,
      which are distinct. */
  lemma DistinctCons(cs: Counts)
    requires cs != [] && DistinctLabels(cs)
    ensures cs[0].0 !in LabelsOf(cs[1..]) && DistinctLabels(cs[1..])
  {
    forall x | x in LabelsOf(cs[1..]) ensures x != cs[0].0 {
      var i :| 0 <= i < |cs[1..]| && cs[1..][i].0 == x;
      assert cs[i + 1] == cs[1..][i];
    }
    forall i, j | 0 <= i < j < |cs[1..]| ensures cs[1..][i].0 != cs[1..][j].0 {
      assert cs[1..][i] == cs[i + 1] && cs[1..][j] == cs[j + 1];
    }
  }

  /** The converse: a first label not among distinct others makes them all distinct. */
  lemma DistinctConsBack(cs: Counts)
    requires cs != [] && cs[0].0 !in LabelsOf(cs[1..]) && DistinctLabels(cs[1..])
    ensures DistinctLabels(cs)
  {
    forall i, j | 0 <= i < j < |cs| ensures cs[i].0 != cs[j].0 {
      assert cs[j] == cs[1..][j - 1];
      if i > 0 {
        assert cs[i] == cs[1..][i - 1];
      } else {
        assert cs[1..][j - 1].0 in LabelsOf(cs[1..]);
      }
    }
  }

  /** The labels counted more than once (`{label: count ... if count > 1}`), in order. */
  function Repeated(cs: Counts): (r: Counts)
    ensures forall p :: p in r <==> p in cs && p.1 > 1
  {
    if cs == [] then []
    else
      var rest := Repeated(cs[1..]);
      assert forall p :: p in cs <==> p == cs[0] || p in cs[1..];
      if cs[0].1 > 1 then [cs[0]] + rest else rest
  }

  // ---------------------------------------------------------------- the scan

  /** What the loop keeps for one address: its chain, its attack density and its
      label counter. */
  datatype Session = Session(chain: seq<ChainEntry>, density: nat, counts: Counts)

  /** The state of the loop: the addresses in first-seen order and their sessions. */
  datatype Acc = Acc(ips: seq<string>, table: map<string, Session>)

  function SessionOf(acc: Acc, ip: string): Session {
    if ip in acc.table then acc.table[ip] else Session([], 0, [])
  }

  /** One iteration of the loop: file entry `e` under address `ip`. */
  function Step(acc: Acc, ip: string, e: ChainEntry): Acc {
    var s := SessionOf(acc, ip);
    Acc(
      if ip in acc.table then acc.ips else acc.ips + [ip],
      acc.table[ip := Session(
        s.chain + [e],
        s.density + (if IsQuietLabel(e.attack) then 0 else 1),
        Bump(s.counts, e.attack))])
  }

  /** The loop over a batch whose events have addresses `keys` and entries `entries`. */
  function Scan(keys: seq<string>, entries: seq<ChainEntry>): Acc
    requires |keys| == |entries|
    decreases |keys|
  {
    if keys == [] then Acc([], map[])
    else
      var n := |keys| - 1;
      Step(Scan(keys[..n], entries[..n]), keys[n], entries[n])
  }

  /** The number of entries of a chain whose label reports an attack. */
  function AttackCount(chain: seq<ChainEntry>): nat {
    if chain == [] then 0
    else AttackCount(chain[..|chain| - 1]) + (if IsQuietLabel(chain[|chain| - 1].attack) then 0 else 1)
  }

  /** The number of entries of a chain carrying label `name`. */
  function LabelCount(chain: seq<ChainEntry>, name: string): nat {
    if chain == [] then 0
    else LabelCount(chain[..|chain| - 1], name) + (if chain[|chain| - 1].attack == name then 1 else 0)
  }

  /** The addresses are listed once each, in first-seen order, and they are
      exactly the addresses of the batch. */
  lemma {:induction false} ScanIps(keys: seq<string>, entries: seq<ChainEntry>)
    requires |keys| == |entries|
    ensures Distinct(Scan(keys, entries).ips)
    ensures forall k :: k in Scan(keys, entries).table <==> k in Scan(keys, entries).ips
    ensures forall k :: k in Scan(keys, entries).table <==> k in keys
    decreases |keys|
  {
    if keys != [] {
      var n := |keys| - 1;
      ScanIps(keys[..n], entries[..n]);
      var acc := Scan(keys[..n], entries[..n]);
      var ip := keys[n];
      var next := Scan(keys, entries);
      assert keys == keys[..n] + [ip];
      if ip !in acc.table {
        forall i, j | 0 <= i < j < |next.ips| ensures next.ips[i] != next.ips[j] {
          if j == |acc.ips| { assert acc.ips[i] in acc.ips; }
        }
      }
    }
  }

  /** The entries filed under `ip`, in batch order: the reference definition of a chain. */
  function EntriesFor(keys: seq<string>, entries: seq<ChainEntry>, ip: string): (r: seq<ChainEntry>)
    requires |keys| == |entries|
    ensures |r| <= |keys|
    decreases |keys|
  {
    if keys == [] then []
    else
      var n := |keys| - 1;
      EntriesFor(keys[..n], entries[..n], ip) + (if keys[n] == ip then [entries[n]] else [])
  }

  /** Each address's session holds exactly its entries in batch order, its attack
      density is the number of those whose label reports an attack, and its counter
      holds, once each, the number of times each label occurs among them. */
  lemma {:induction false} ScanSession(keys: seq<string>, entries: seq<ChainEntry>, ip: string)
    requires |keys| == |entries|
    ensures SessionOf(Scan(keys, entries), ip).chain == EntriesFor(keys, entries, ip)
    ensures SessionOf(Scan(keys, entries), ip).density == AttackCount(EntriesFor(keys, entries, ip))
    ensures forall x :: CountOf(SessionOf(Scan(keys, entries), ip).counts, x) == LabelCount(EntriesFor(keys, entries, ip), x)
    ensures DistinctLabels(SessionOf(Scan(keys, entries), ip).counts)
    decreases |keys|
  {
    if keys != [] {
      var n := |keys| - 1;
      var ks, es := keys[..n], entries[..n];
      ScanSession(ks, es, ip);
      var acc := Scan(ks, es);
      var c0 := EntriesFor(ks, es, ip);
      assert Scan(keys, entries) == Step(acc, keys[n], entries[n]);
      assert EntriesFor(keys, entries, ip) == c0 + (if keys[n] == ip then [entries[n]] else []);
      if keys[n] == ip {
        StepSame(acc, ip, entries[n]);
        LastOf(c0, entries[n]);
      } else {
        StepOther(acc, keys[n], ip, entries[n]);
      }
    }
  }

  /** Filing an entry under `ip` appends it to that session's chain and counts it. */
  lemma StepSame(acc: Acc, ip: string, e: ChainEntry)
    ensures var s := SessionOf(acc, ip);
      SessionOf(Step(acc, ip, e), ip)
        == Session(s.chain + [e], s.density + (if IsQuietLabel(e.attack) then 0 else 1), Bump(s.counts, e.attack))
  {
  }

  /** Filing an entry under another address leaves the session of `ip` alone. */
  lemma StepOther(acc: Acc, k: string, ip: string, e: ChainEntry)
    requires k != ip
    ensures SessionOf(Step(acc, k, e), ip) == SessionOf(acc, ip)
  {
  }

  /** The counts of a chain grown by one entry. */
  lemma LastOf(c0: seq<ChainEntry>, e: ChainEntry)
    ensures AttackCount(c0 + [e]) == AttackCount(c0) + (if IsQuietLabel(e.attack) then 0 else 1)
    ensures forall x :: LabelCount(c0 + [e], x) == LabelCount(c0, x) + (if e.attack == x then 1 else 0)
  {
    var c := c0 + [e];
    assert c[..|c| - 1] == c0;
  }

  /** Entries carry their own batch position. */
  predicate Numbered(entries: seq<ChainEntry>) {
    forall i :: 0 <= i < |entries| ==> entries[i].order == i
  }

  /** Every entry of the chain of `ip` is the entry of an event of that address. */
  lemma {:induction false} EntriesForSound(keys: seq<string>, entries: seq<ChainEntry>, ip: string)
    requires |keys| == |entries| && Numbered(entries)
    ensures forall j :: 0 <= j < |EntriesFor(keys, entries, ip)| ==>
      var o := EntriesFor(keys, entries, ip)[j].order;
      o < |keys| && keys[o] == ip && entries[o] == EntriesFor(keys, entries, ip)[j]
    decreases |keys|
  {
    if keys != [] {
      var n := |keys| - 1;
      var ks, es := keys[..n], entries[..n];
      assert Numbered(es) by {
        forall i | 0 <= i < n ensures es[i].order == i {
          assert es[i] == entries[i];
        }
      }
      EntriesForSound(ks, es, ip);
      var c0 := EntriesFor(ks, es, ip);
      var c := EntriesFor(keys, entries, ip);
      assert c == c0 + (if keys[n] == ip then [entries[n]] else []);
      forall j | 0 <= j < |c| ensures c[j].order < |keys| && keys[c[j].order] == ip && entries[c[j].order] == c[j] {
        if j < |c0| {
          var o := c0[j].order;
          assert o < n && ks[o] == ip && es[o] == c0[j];
          assert c[j] == c0[j];
          assert ks[o] == keys[o] && es[o] == entries[o];
        } else {
          assert c[j] == entries[n];
        }
      }
    }
  }

  /** The chain of `ip` lists its entries in strictly increasing batch position. */
  lemma {:induction false} EntriesForOrdered(keys: seq<string>, entries: seq<ChainEntry>, ip: string)
    requires |keys| == |entries| && Numbered(entries)
    ensures forall j, j' :: 0 <= j < j' < |EntriesFor(keys, entries, ip)| ==>
      EntriesFor(keys, entries, ip)[j].order < EntriesFor(keys, entries, ip)[j'].order
    decreases |keys|
  {
    if keys != [] {
      var n := |keys| - 1;
      var ks, es := keys[..n], entries[..n];
      assert Numbered(es) by {
        forall i | 0 <= i < n ensures es[i].order == i {
          assert es[i] == entries[i];
        }
      }
      EntriesForOrdered(ks, es, ip);
      EntriesForSound(ks, es, ip);
      var c0 := EntriesFor(ks, es, ip);
      var c := EntriesFor(keys, entries, ip);
      assert c == c0 + (if keys[n] == ip then [entries[n]] else []);
      forall j, j' | 0 <= j < j' < |c| ensures c[j].order < c[j'].order {
        assert c[j] == c0[j];
        if j' < |c0| {
          assert c[j'] == c0[j'];
        } else {
          assert c[j'] == entries[n];
          assert c0[j].order < n;
        }
      }
    }
  }

  /** No event of `ip` is missing from its chain. */
  lemma {:induction false} EntriesForComplete(keys: seq<string>, entries: seq<ChainEntry>, ip: string, i: nat)
    requires |keys| == |entries| && i < |keys| && keys[i] == ip
    ensures entries[i] in EntriesFor(keys, entries, ip)
    decreases |keys|
  {
    var n := |keys| - 1;
    if i < n {
      assert keys[..n][i] == ip && entries[..n][i] == entries[i];
      EntriesForComplete(keys[..n], entries[..n], ip, i);
    }
  }

  /** The chains of all addresses, as a map. */
  function ChainsOf(acc: Acc): (r: map<string, seq<ChainEntry>>)
    ensures forall k :: k in r <==> k in acc.table
  {
    map k | k in acc.table :: acc.table[k].chain
  }

  /** The chain lengths add up to the number of events. */
  lemma {:induction false} ScanTotal(keys: seq<string>, entries: seq<ChainEntry>)
    requires |keys| == |entries|
    ensures SumLens(Scan(keys, entries).ips, ChainsOf(Scan(keys, entries))) == |keys|
    decreases |keys|
  {
    if keys != [] {
      var n := |keys| - 1;
      var ks, es := keys[..n], entries[..n];
      var acc := Scan(ks, es);
      ScanTotal(ks, es);
      assert Distinct(acc.ips) && (forall k :: k in acc.table <==> k in acc.ips) by {
        ScanIps(ks, es);
      }
      assert Scan(keys, entries) == Step(acc, keys[n], entries[n]);
      StepTotal(acc, keys[n], entries[n]);
    }
  }

  /** One iteration adds one entry to the total. */
  lemma StepTotal(acc: Acc, ip: string, e: ChainEntry)
    requires Distinct(acc.ips) && (forall k :: k in acc.table <==> k in acc.ips)
    ensures SumLens(Step(acc, ip, e).ips, ChainsOf(Step(acc, ip, e))) == SumLens(acc.ips, ChainsOf(acc)) + 1
  {
    var m := ChainsOf(acc);
    var v := SessionOf(acc, ip).chain + [e];
    assert ChainsOf(Step(acc, ip, e)) == m[ip := v];
    if ip in acc.table {
      assert |m[ip]| + 1 == |v|;
      var i :| 0 <= i < |acc.ips| && acc.ips[i] == ip;
      SumLensUpdate(acc.ips, m, ip, v);
    } else {
      SumLensAppend(acc.ips, [ip], m[ip := v]);
      SumLensOther(acc.ips, m, ip, v);
    }
  }

  // ---------------------------------------------------------------- aggregates

  /** An address's attack density counts at most its events, and is zero exactly
      when every label of its chain is "normal" or "benign". */
  lemma {:induction false} AttackCountBounds(chain: seq<ChainEntry>)
    ensures AttackCount(chain) <= |chain|
    ensures AttackCount(chain) == 0 <==> forall j :: 0 <= j < |chain| ==> IsQuietLabel(chain[j].attack)
  {
    if chain != [] {
      var n := |chain| - 1;
      AttackCountBounds(chain[..n]);
      assert forall j :: 0 <= j < n ==> chain[..n][j] == chain[j];
    }
  }

  /** The distinct non-benign stages of a chain. */
  function NoisyStages(chain: seq<ChainEntry>): set<Stage> {
    set e | e in chain && e.stage != Benign :: e.stage
  }

  /** `multi_stage`: more than one distinct non-benign stage. */
  predicate MultiStage(chain: seq<ChainEntry>) {
    |NoisyStages(chain)| > 1
  }

  /** Two entries of the chain have different non-benign stages. */
  predicate TwoNoisyStages(chain: seq<ChainEntry>) {
    exists i, j :: 0 <= i < |chain| && 0 <= j < |chain| && chain[i].stage != Benign
      && chain[j].stage != Benign && chain[i].stage != chain[j].stage
  }

  /** A chain is multi-stage exactly when two of its entries have different
      non-benign stages. */
  lemma MultiStageIff(chain: seq<ChainEntry>)
    ensures MultiStage(chain) <==> TwoNoisyStages(chain)
  {
    var ss := NoisyStages(chain);
    if MultiStage(chain) {
      var a :| a in ss;
      assert |ss - {a}| > 0;
      var b :| b in ss - {a};
      var i :| 0 <= i < |chain| && chain[i].stage == a && a != Benign;
      var j :| 0 <= j < |chain| && chain[j].stage == b && b != Benign;
    }
    if TwoNoisyStages(chain) {
      var i, j :| 0 <= i < |chain| && 0 <= j < |chain| && chain[i].stage != Benign
        && chain[j].stage != Benign && chain[i].stage != chain[j].stage;
      var a, b := chain[i].stage, chain[j].stage;
      assert chain[i] in chain && chain[j] in chain;
      assert a in ss && b in ss - {a};
      assert |ss - {a}| == |ss| - 1;
    }
  }

  /** An address whose events are all benign is never flagged. */
  lemma AllBenignNotMultiStage(chain: seq<ChainEntry>)
    requires forall j :: 0 <= j < |chain| ==> chain[j].stage == Benign
    ensures !MultiStage(chain)
  {
    assert NoisyStages(chain) == {};
  }

  /** In a counter with distinct labels, a listed pair holds that label's count... */
  lemma {:induction false} CountOfListed(cs: Counts, p: (string, nat))
    requires DistinctLabels(cs) && p in cs
    ensures CountOf(cs, p.0) == p.1
  {
    if cs[0] != p {
      assert p in cs[1..];
      assert DistinctLabels(cs[1..]) by {
        forall i, j | 0 <= i < j < |cs[1..]| ensures cs[1..][i].0 != cs[1..][j].0 {
          assert cs[1..][i] == cs[i + 1] && cs[1..][j] == cs[j + 1];
        }
      }
      var k :| 0 <= k < |cs| && cs[k] == p;
      assert cs[0].0 != p.0;
      CountOfListed(cs[1..], p);
    }
  }

  /** ... and a label with a non-zero count is listed with it. */
  lemma {:induction false} CountOfPositive(cs: Counts, x: string)
    requires CountOf(cs, x) > 0
    ensures (x, CountOf(cs, x)) in cs
  {
    if cs[0].0 != x {
      CountOfPositive(cs[1..], x);
    }
  }

  /** `repeated[ip]` lists exactly the labels counted more than once, with their counts. */
  lemma RepeatedIff(cs: Counts, x: string, k: nat)
    requires DistinctLabels(cs)
    ensures (x, k) in Repeated(cs) <==> CountOf(cs, x) == k && k > 1
  {
    if (x, k) in cs {
      CountOfListed(cs, (x, k));
    }
    if CountOf(cs, x) == k && k > 1 {
      CountOfPositive(cs, x);
    }
  }

  // ---------------------------------------------------------------- the result

  /** The correlation report: per-address event totals from the store (in store
      order), and, for the batch's addresses in first-seen order, their chains,
      attack densities, multi-stage flags and repeated labels. */
  datatype Correlation = Correlation(
    sessions: seq<(string, nat)>,
    ips: seq<string>,
    chains: map<string, seq<ChainEntry>>,
    density: map<string, nat>,
    multiStage: map<string, bool>,
    repeated: map<string, Counts>)

  /** The address of every event of the batch. */
  function Keys(b: Batch): (r: seq<string>)
    ensures |r| == |b.events| && forall i :: 0 <= i < |r| ==> r[i] == KeyAt(b, i)
  {
    seq(|b.events|, i requires 0 <= i < |b.events| => KeyAt(b, i))
  }

  /** The chain entry of every event of the batch. */
  function Entries(b: Batch): (r: seq<ChainEntry>)
    ensures |r| == |b.events| && forall i :: 0 <= i < |r| ==> r[i] == EntryAt(b, i)
    ensures Numbered(r)
  {
    seq(|b.events|, i requires 0 <= i < |b.events| => EntryAt(b, i))
  }

  /** The report drawn from a finished scan and the updated store. */
  function Report(st: SessionStore, acc: Acc): (r: Correlation)
    ensures r.ips == acc.ips
    ensures forall k :: k in r.chains <==> k in acc.table
    ensures forall k :: k in r.density <==> k in acc.table
    ensures forall k :: k in r.multiStage <==> k in acc.table
    ensures forall k :: k in r.repeated <==> k in acc.table
    ensures forall k :: k in acc.table ==> r.chains[k] == acc.table[k].chain
    ensures forall k :: k in acc.table ==> r.density[k] == acc.table[k].density
    ensures forall k :: k in acc.table ==> r.multiStage[k] == MultiStage(acc.table[k].chain)
    ensures forall k :: k in acc.table ==> r.repeated[k] == Repeated(acc.table[k].counts)
    ensures |r.sessions| == |st.order|
    ensures forall i :: 0 <= i < |r.sessions| ==> r.sessions[i] == (st.order[i], |GetEvents(st, st.order[i])|)
  {
    var groups := IterSessions(st);
    Correlation(
      seq(|groups|, i requires 0 <= i < |groups| => (groups[i].0, |groups[i].1|)),
      acc.ips,
      ChainsOf(acc),
      map k | k in acc.table :: acc.table[k].density,
      map k | k in acc.table :: MultiStage(acc.table[k].chain),
      map k | k in acc.table :: Repeated(acc.table[k].counts))
  }

  /** `correlate_sessions`: add the batch to the store, then correlate it. */
  function CorrelateSessions(b: Batch, st: SessionStore): (r: (SessionStore, Correlation))
    ensures r.0 == AddAll(st, b.events)
    ensures r.1.ips == Scan(Keys(b), Entries(b)).ips
  {
    var st1 := AddAll(st, b.events);
    (st1, Report(st1, Scan(Keys(b), Entries(b))))
  }

  /** `correlate_sequences` is the same computation under another name. */
  function CorrelateSequences(b: Batch, st: SessionStore): (r: (SessionStore, Correlation))
    ensures r.0 == AddAll(st, b.events)
    ensures r == CorrelateSessions(b, st)
  {
    CorrelateSessions(b, st)
  }

  /** Some event of the batch is filed under `k`. */
  predicate HasAddress(b: Batch, k: string) {
    exists i :: 0 <= i < |b.events| && IpKey(b.events[i].sourceIp) == k
  }

  /** The report lists each address of the batch once, "unknown" standing for
      events without one, and nothing else. */
  lemma CorrelateIps(b: Batch, st: SessionStore)
    ensures Distinct(CorrelateSessions(b, st).1.ips)
    ensures forall k :: k in CorrelateSessions(b, st).1.chains <==> k in CorrelateSessions(b, st).1.ips
    ensures forall k :: k in CorrelateSessions(b, st).1.ips <==> HasAddress(b, k)
  {
    var keys := Keys(b);
    ScanIps(keys, Entries(b));
    forall k ensures k in keys <==> HasAddress(b, k) {
      if k in keys {
        var i :| 0 <= i < |keys| && keys[i] == k;
      }
      if HasAddress(b, k) {
        var i :| 0 <= i < |b.events| && IpKey(b.events[i].sourceIp) == k;
        assert keys[i] == k;
      }
    }
  }

  /** The chain of address `ip` holds the entry of every event of that address, in
      batch order, each carrying its batch position, and nothing else. */
  lemma CorrelateChain(b: Batch, st: SessionStore, ip: string)
    requires ip in CorrelateSessions(b, st).1.chains
    ensures var c := CorrelateSessions(b, st).1.chains[ip];
      && (forall j :: 0 <= j < |c| ==> c[j].order < |b.events| && KeyAt(b, c[j].order) == ip && c[j] == EntryAt(b, c[j].order))
      && (forall j, j' :: 0 <= j < j' < |c| ==> c[j].order < c[j'].order)
      && (forall i :: 0 <= i < |b.events| && KeyAt(b, i) == ip ==> EntryAt(b, i) in c)
  {
    var c := CorrelateSessions(b, st).1.chains[ip];
    assert c == EntriesFor(Keys(b), Entries(b), ip) by {
      ReportedChain(b, st, ip);
      ScanSession(Keys(b), Entries(b), ip);
    }
    BatchChain(b, ip, c);
  }

  /** The reported chain of an address is the one its session collected. */
  lemma ReportedChain(b: Batch, st: SessionStore, ip: string)
    requires ip in CorrelateSessions(b, st).1.chains
    ensures CorrelateSessions(b, st).1.chains[ip] == SessionOf(Scan(Keys(b), Entries(b)), ip).chain
  {
    var acc := Scan(Keys(b), Entries(b));
    assert CorrelateSessions(b, st).1 == Report(AddAll(st, b.events), acc);
  }

  /** The three facts about one address's chain, over the events of a batch. */
  lemma BatchChain(b: Batch, ip: string, c: seq<ChainEntry>)
    requires c == EntriesFor(Keys(b), Entries(b), ip)
    ensures && (forall j :: 0 <= j < |c| ==> c[j].order < |b.events| && KeyAt(b, c[j].order) == ip && c[j] == EntryAt(b, c[j].order))
      && (forall j, j' :: 0 <= j < j' < |c| ==> c[j].order < c[j'].order)
      && (forall i :: 0 <= i < |b.events| && KeyAt(b, i) == ip ==> EntryAt(b, i) in c)
  {
    var keys, entries := Keys(b), Entries(b);
    forall j | 0 <= j < |c| ensures c[j].order < |b.events| && KeyAt(b, c[j].order) == ip && c[j] == EntryAt(b, c[j].order) {
      EntrySound(keys, entries, ip, j);
      var o := c[j].order;
      assert keys[o] == KeyAt(b, o) && entries[o] == EntryAt(b, o);
    }
    EntriesForOrdered(keys, entries, ip);
    forall i | 0 <= i < |b.events| && KeyAt(b, i) == ip ensures EntryAt(b, i) in c {
      assert keys[i] == KeyAt(b, i) && entries[i] == EntryAt(b, i);
      EntriesForComplete(keys, entries, ip, i);
    }
  }

  /** One entry of a chain: it is the entry of an event of that address. */
  lemma EntrySound(keys: seq<string>, entries: seq<ChainEntry>, ip: string, j: nat)
    requires |keys| == |entries| && Numbered(entries) && j < |EntriesFor(keys, entries, ip)|
    ensures var o := EntriesFor(keys, entries, ip)[j].order;
      o < |keys| && keys[o] == ip && entries[o] == EntriesFor(keys, entries, ip)[j]
  {
    EntriesForSound(keys, entries, ip);
  }

  /** The chains together hold every event of the batch exactly once by count. */
  lemma CorrelateTotal(b: Batch, st: SessionStore)
    ensures var r := CorrelateSessions(b, st).1;
      SumLens(r.ips, r.chains) == |b.events|
  {
    ScanTotal(Keys(b), Entries(b));
  }

  /** Per address: the density counts the attack labels of its chain, the flag says
      whether two different non-benign stages occur, and the repeated labels are
      exactly those occurring more than once, with their number of occurrences. */
  lemma CorrelateAggregates(b: Batch, st: SessionStore, ip: string, x: string, k: nat)
    requires ip in CorrelateSessions(b, st).1.chains
    ensures var r := CorrelateSessions(b, st).1;
      && ip in r.density && ip in r.multiStage && ip in r.repeated
      && r.density[ip] == AttackCount(r.chains[ip])
      && (r.multiStage[ip] <==> TwoNoisyStages(r.chains[ip]))
      && ((x, k) in r.repeated[ip] <==> LabelCount(r.chains[ip], x) == k && k > 1)
  {
    var keys, entries := Keys(b), Entries(b);
    var acc := Scan(keys, entries);
    ScanSession(keys, entries, ip);
    MultiStageIff(acc.table[ip].chain);
    RepeatedIff(acc.table[ip].counts, x, k);
  }

  /** The session totals come from the store after the batch was added: each address
      counts its earlier events plus its events of this batch. */
  lemma CorrelateSessionTotals(b: Batch, st: SessionStore, i: nat)
    requires i < |CorrelateSessions(b, st).1.sessions|
    ensures var r := CorrelateSessions(b, st);
      var k := r.1.sessions[i].0;
      && k == r.0.order[i]
      && r.1.sessions[i].1 == |GetEvents(st, k)| + |EventsFor(b.events, k)|
  {
    var r := CorrelateSessions(b, st);
    AddAllGet(st, b.events, r.0.order[i]);
  }
}

=== FILE: dataset.dfy ===
/** The URL dataset builder of `dataset_builder.py`: raw CSV files are reduced
    to one URL column, each URL is cleaned and canonicalised, every file's URLs
    take the label its file name implies, duplicates are dropped and the larger
    class is cut to three times the smaller one. Reading and writing files, the
    random choice of the kept rows and the train/validation/test split are not
    modelled. */
module Dataset {
  import opened Wrappers
  import opened Text
  import opened Schema
  import Url

  /** `URL_CANDIDATES`, in order of preference. */
  const UrlCandidates: seq<string> := ["url", "URL", "Url", "link", "Link"]

  /** `MALICIOUS_KEYWORDS`. */
  const MaliciousKeywords: seq<string> := ["phish", "malware", "attack", "malicious"]

  /** The longest canonical URL kept. */
  const MaxUrlLength: nat := 3000

  // ------------------------------------------------------------ URL column

  /** The index of the first candidate that is one of the columns, or the number
      of candidates when none is. */
  function FirstPresent(candidates: seq<string>, columns: seq<string>): (i: nat)
    ensures i <= |candidates|
    ensures forall k :: 0 <= k < i ==> candidates[k] !in columns
    ensures i < |candidates| ==> candidates[i] in columns
  {
    if candidates == [] then 0
    else if candidates[0] in columns then 0
    else 1 + FirstPresent(candidates[1..], columns)
  }

  /** `find_url_column`: the first candidate name the file has. */
  function FindUrlColumn(columns: seq<string>): (r: Option<string>)
    ensures r.None? <==> forall k :: 0 <= k < |UrlCandidates| ==> UrlCandidates[k] !in columns
    ensures r.Some? ==> r.value in columns && r.value in UrlCandidates
    ensures r.Some? ==> forall k :: 0 <= k < |UrlCandidates| && UrlCandidates[k] == r.value ==>
      forall j :: 0 <= j < k ==> UrlCandidates[j] !in columns
  {
    var i := FirstPresent(UrlCandidates, columns);
    if i < |UrlCandidates| then Some(UrlCandidates[i]) else None
  }

  /** Only which names are present matters, not the order of the file's columns. */
  lemma {:induction false} FirstPresentSameNames(candidates: seq<string>, a: seq<string>, b: seq<string>)
    requires forall x :: x in a <==> x in b
    ensures FirstPresent(candidates, a) == FirstPresent(candidates, b)
  {
    if candidates != [] && candidates[0] !in a {
      FirstPresentSameNames(candidates[1..], a, b);
    }
  }

  lemma FindUrlColumnSameNames(a: seq<string>, b: seq<string>)
    requires forall x :: x in a <==> x in b
    ensures FindUrlColumn(a) == FindUrlColumn(b)
  {
    FirstPresentSameNames(UrlCandidates, a, b);
  }

  // ------------------------------------------------------------ labels

  /** `infer_label`: "malicious" when the lower-cased file name contains one of
      the keywords, else "benign". */
  function InferLabel(filename: string): (r: string)
    ensures r == "malicious" <==> exists k :: 0 <= k < |MaliciousKeywords| && Contains(Lower(filename), MaliciousKeywords[k])
    ensures r == "malicious" || r == "benign"
  {
    if exists k :: 0 <= k < |MaliciousKeywords| && Contains(Lower(filename), MaliciousKeywords[k]) then "malicious"
    else "benign"
  }

  /** The label ignores letter case: an upper-cased file name gets the same one. */
  lemma InferLabelCaseBlind(filename: string)
    ensures InferLabel(Upper(filename)) == InferLabel(filename)
  {
    assert Lower(Upper(filename)) == Lower(filename);
  }

  // ------------------------------------------------------------ cleaning

  predicate IsDoubleQuote(c: char) { c == '"' }
  predicate IsSingleQuote(c: char) { c == '\'' }

  /** `clean_url`: "" for a non-string; otherwise whitespace, then double quotes,
      then single quotes stripped from both ends. */
  function CleanValue(v: Value): (r: string)
    ensures !v.Str? ==> r == ""
    ensures v.Str? ==> r == StripBy(StripBy(Strip(v.s), IsDoubleQuote), IsSingleQuote)
  {
    if v.Str? then StripBy(StripBy(Strip(v.s), IsDoubleQuote), IsSingleQuote) else ""
  }

  /** The cleaned text is a contiguous piece of the input. */
  lemma CleanValueWindow(s: string)
    ensures var r := CleanValue(Str(s));
      exists a :: InfixAt(r, s, a)
  {
    var t1 := Strip(s);
    var t2 := StripBy(t1, IsDoubleQuote);
    var r := StripBy(t2, IsSingleQuote);
    var a1, a2, a3 := LeadCount(s, IsSpace), LeadCount(t1, IsDoubleQuote), LeadCount(t2, IsSingleQuote);
    assert InfixAt(t1, s, a1) by {
      StripInfix(s, IsSpace);
    }
    assert InfixAt(t2, t1, a2) by {
      StripInfix(t1, IsDoubleQuote);
    }
    assert InfixAt(r, t2, a3) by {
      StripInfix(t2, IsSingleQuote);
    }
    InfixCompose(t2, t1, s, a2, a1);
    InfixCompose(r, t2, s, a3, a2 + a1);
    assert CleanValue(Str(s)) == r;
  }

  /** Neither end of the cleaned text is a single quote. */
  lemma CleanValueEnds(s: string)
    ensures var r := CleanValue(Str(s)); r == "" || (r[0] != '\'' && r[|r| - 1] != '\'')
  {
    var t2 := StripBy(Strip(s), IsDoubleQuote);
    assert CleanValue(Str(s)) == StripBy(t2, IsSingleQuote);
    StripInfix(t2, IsSingleQuote);
  }

  /** `r` sits in `s` from index `a` on. */
  predicate InfixAt(r: string, s: string, a: int) {
    0 <= a && a + |r| <= |s| && s[a..a + |r|] == r
  }

  lemma StripInfix(s: string, drop: char -> bool)
    ensures var r := StripBy(s, drop);
      && InfixAt(r, s, LeadCount(s, drop))
      && (r == [] || (!drop(r[0]) && !drop(r[|r| - 1])))
  {
    StripByWindow(s, drop);
  }

  lemma InfixCompose(r: string, t: string, s: string, a: int, b: int)
    requires InfixAt(r, t, a) && InfixAt(t, s, b)
    ensures InfixAt(r, s, a + b)
  {
    forall k | 0 <= k < |r| ensures s[a + b + k] == r[k] {
      assert r[k] == t[a + k] == s[b + a + k];
    }
  }

  // ------------------------------------------------------------ canonical form

  /** What is parsed: a path-only URL is put after `http://example.local`. */
  function ParseTarget(cleaned: string): (t: string)
    ensures StartsWith(cleaned, "/") ==> t == Url.LocalBase + cleaned
    ensures !StartsWith(cleaned, "/") ==> t == cleaned
  {
    if StartsWith(cleaned, "/") then Url.LocalBase + cleaned else cleaned
  }

  /** The parsed URL rebuilt with a lower-cased scheme and netloc, `/` for an
      empty path, the parameters and query kept and the fragment dropped. */
  function Rebuilt(p: Url.ParseResult): (r: string)
    requires p.scheme == "http" || p.scheme == "https"
    ensures p.netloc != "" ==> StartsWith(r, p.scheme + "://" + Lower(p.netloc))
  {
    SchemeLower(p.scheme);
    Url.UrlUnparse(Url.ParseResult(Lower(p.scheme), Lower(p.netloc), if p.path == "" then "/" else p.path,
                                   p.params, p.query, ""))
  }

  /** The two accepted schemes are already lower case and hold no `#`. */
  lemma SchemeLower(scheme: string)
    requires scheme == "http" || scheme == "https"
    ensures Lower(scheme) == scheme && '#' !in scheme
  {
    forall k | 0 <= k < |scheme| ensures LowerChar(scheme[k]) == scheme[k] {
      assert scheme[k] in scheme;
    }
  }

  /** `canonicalize_url`: the canonical URL, or `None` when the cleaned text is
      empty, does not parse, has a scheme other than http and https, or
      canonicalises to more than 3000 characters. */
  function Canonicalize(raw: Value): (r: Option<string>)
    ensures CleanValue(raw) == "" ==> r.None?
    ensures CleanValue(raw) != "" ==> var parsed := Url.UrlParse(ParseTarget(CleanValue(raw)));
      && (parsed.Failure? ==> r.None?)
      && (parsed.Success? && parsed.value.scheme != "http" && parsed.value.scheme != "https" ==> r.None?)
      && (parsed.Success? && (parsed.value.scheme == "http" || parsed.value.scheme == "https") ==>
            r == (if |Rebuilt(parsed.value)| > MaxUrlLength then None else Some(Rebuilt(parsed.value))))
    ensures r.Some? ==> |r.value| <= MaxUrlLength && '#' !in r.value
  {
    var cleaned := CleanValue(raw);
    if cleaned == "" then None
    else
      match Url.UrlParse(ParseTarget(cleaned))
      case Failure(_) => None
      case Success(p) =>
        if p.scheme != "http" && p.scheme != "https" then None
        else
          var normalized := Rebuilt(p);
          if |normalized| > MaxUrlLength then None
          else
            RebuiltNoFragment(ParseTarget(cleaned));
            Some(normalized)
  }

  /** The rebuilt URL keeps no fragment: no part it is made of holds a `#`. */
  lemma RebuiltNoFragment(target: string)
    requires Url.UrlParse(target).Success?
    requires Url.UrlParse(target).value.scheme == "http" || Url.UrlParse(target).value.scheme == "https"
    ensures '#' !in Rebuilt(Url.UrlParse(target).value)
  {
    var p := Url.UrlParse(target).value;
    Url.ParsedNoFragment(target);
    SchemeLower(p.scheme);
    LowerKeepsAbsent(p.netloc, '#');
    UnparseNoFragment(p.scheme, Lower(p.netloc), if p.path == "" then "/" else p.path, p.params, p.query);
  }

  lemma UnparseNoFragment(scheme: string, netloc: string, path: string, params: string, query: string)
    requires '#' !in scheme && '#' !in netloc && '#' !in path && '#' !in params && '#' !in query
    ensures '#' !in Url.UrlUnparse(Url.ParseResult(scheme, netloc, path, params, query, ""))
  {
  }

  /** Lower-casing neither adds nor removes a character that is not a letter. */
  lemma LowerKeepsAbsent(s: string, c: char)
    requires !IsLetter(c) && c !in s
    ensures c !in Lower(s)
  {
    forall k | 0 <= k < |s| ensures Lower(s)[k] != c {
      assert s[k] in s;
    }
  }

  /** A path-only input is kept exactly when its canonical form fits, and that
      form names the host `example.local`. */
  lemma PathOnlyLocal(raw: Value)
    requires StartsWith(CleanValue(raw), "/")
    ensures var p := Url.UrlParse(Url.LocalBase + CleanValue(raw));
      && p.Success? && p.value.scheme == "http" && p.value.netloc == Url.LocalHost
      && (Canonicalize(raw).None? <==> |Rebuilt(p.value)| > MaxUrlLength)
    ensures Canonicalize(raw).Some? ==> StartsWith(Canonicalize(raw).value, Url.LocalBase)
  {
    var c := CleanValue(raw);
    var t := ParseTarget(c);
    assert c != [] && c[0] == '/' by {
      SlashStart(c);
    }
    Url.ParseLocal(c);
    var p := Url.UrlParse(t).value;
    assert Canonicalize(raw) == (if |Rebuilt(p)| > MaxUrlLength then None else Some(Rebuilt(p)));
    LocalRebuilt(p);
  }

  lemma SlashStart(c: string)
    requires StartsWith(c, "/")
    ensures c != [] && c[0] == '/'
  {
  }

  /** Rebuilding a URL on the local host keeps the `http://example.local` prefix. */
  lemma LocalRebuilt(p: Url.ParseResult)
    requires p.scheme == "http" && p.netloc == Url.LocalHost
    ensures StartsWith(Rebuilt(p), Url.LocalBase)
  {
    LocalHostLower();
    Url.LocalBaseParts();
  }

  lemma LocalHostLower()
    ensures Lower(Url.LocalHost) == Url.LocalHost
  {
    forall k | 0 <= k < |Url.LocalHost| ensures LowerChar(Url.LocalHost[k]) == Url.LocalHost[k] {
      assert Url.LocalHost[k] in Url.LocalHost;
    }
  }

  // ------------------------------------------------------------ one file

  /** A raw CSV file: its name, its column names in order, and each column's cells. */
  datatype CsvFile = CsvFile(name: string, columns: seq<string>, cells: map<string, seq<Value>>)

  /** One output row. */
  datatype LabelledUrl = LabelledUrl(url: string, verdict: string, source: string)

  /** The canonical form of each cell: nothing for a missing value, else the
      canonical form of its text. */
  function CellUrls(cells: seq<Value>): (r: seq<Option<string>>)
    requires forall i :: 0 <= i < |cells| ==> !cells[i].List?
    ensures |r| == |cells|
    ensures forall i :: 0 <= i < |cells| && IsNa(cells[i]) ==> r[i].None?
    ensures forall i :: 0 <= i < |cells| && r[i].Some? ==> |r[i].value| <= MaxUrlLength && '#' !in r[i].value
  {
    seq(|cells|, i requires 0 <= i < |cells| =>
      if IsNa(cells[i]) then None else Canonicalize(Str(Show(cells[i]))))
  }

  /** `dropna().astype(str).map(canonicalize_url).dropna()`: the kept canonical
      URLs of a column, in row order. */
  function ColumnUrls(cells: seq<Value>): (r: seq<string>)
    requires forall i :: 0 <= i < |cells| ==> !cells[i].List?
    ensures |r| <= |cells|
  {
    Somes(CellUrls(cells))
  }

  /** Every URL the builder keeps is canonical: at most 3000 characters and no
      fragment. */
  lemma ColumnUrlsCanonical(cells: seq<Value>, k: nat)
    requires forall i :: 0 <= i < |cells| ==> !cells[i].List?
    requires k < |ColumnUrls(cells)|
    ensures |ColumnUrls(cells)[k]| <= MaxUrlLength && '#' !in ColumnUrls(cells)[k]
  {
    SomesFrom(CellUrls(cells), k);
  }

  predicate ScalarFile(f: CsvFile) {
    forall c :: c in f.cells ==> forall i :: 0 <= i < |f.cells[c]| ==> !f.cells[c][i].List?
  }

  /** The rows one file contributes: none without a URL column, else each kept
      URL with the file's label and name. */
  function FileRows(f: CsvFile): (r: seq<LabelledUrl>)
    requires ScalarFile(f)
    ensures FindUrlColumn(f.columns).None? ==> r == []
    ensures forall k :: 0 <= k < |r| ==> r[k].verdict == InferLabel(f.name) && r[k].source == f.name
    ensures FindUrlColumn(f.columns).Some? ==>
      var col := FindUrlColumn(f.columns).value;
      var urls := ColumnUrls(if col in f.cells then f.cells[col] else []);
      |r| == |urls| && forall k :: 0 <= k < |r| ==> r[k].url == urls[k]
  {
    match FindUrlColumn(f.columns)
    case None => []
    case Some(col) =>
      var urls := ColumnUrls(if col in f.cells then f.cells[col] else []);
      seq(|urls|, k requires 0 <= k < |urls| => LabelledUrl(urls[k], InferLabel(f.name), f.name))
  }

  // ------------------------------------------------------------ deduplication

  function Urls(rows: seq<LabelledUrl>): (s: set<string>)
    ensures forall i :: 0 <= i < |rows| ==> rows[i].url in s
  {
    set i | 0 <= i < |rows| :: rows[i].url
  }

  /** `drop_duplicates(subset=["url"])`: a row is kept exactly when no earlier row
      has its URL. */
  function Dedup(rows: seq<LabelledUrl>): (r: seq<LabelledUrl>)
    ensures |r| <= |rows|
    ensures r == [] <==> rows == []
    decreases |rows|
  {
    if rows == [] then []
    else
      var init := rows[..|rows| - 1];
      var last := rows[|rows| - 1];
      Dedup(init) + (if last.url in Urls(init) then [] else [last])
  }

  /** The URLs of a list with one more row. */
  lemma UrlsSnoc(rows: seq<LabelledUrl>, x: LabelledUrl)
    ensures Urls(rows + [x]) == Urls(rows) + {x.url}
  {
    var all := rows + [x];
    forall u | u in Urls(all) ensures u in Urls(rows) + {x.url} {
      var i :| 0 <= i < |all| && all[i].url == u;
      if i < |rows| { assert all[i] == rows[i]; }
    }
    assert all[|rows|] == x;
    forall u | u in Urls(rows) ensures u in Urls(all) {
      var i :| 0 <= i < |rows| && rows[i].url == u;
      assert all[i] == rows[i];
    }
  }

  /** Deduplication loses no URL. */
  lemma {:induction false} DedupCovers(rows: seq<LabelledUrl>)
    ensures Urls(Dedup(rows)) == Urls(rows)
    decreases |rows|
  {
    if rows != [] {
      var init := rows[..|rows| - 1];
      var last := rows[|rows| - 1];
      DedupCovers(init);
      assert rows == init + [last];
      UrlsSnoc(init, last);
      if last.url !in Urls(init) {
        assert Dedup(rows) == Dedup(init) + [last];
        UrlsSnoc(Dedup(init), last);
      } else {
        assert Dedup(rows) == Dedup(init);
      }
    }
  }

  /** Deduplication keeps only input rows. */
  lemma {:induction false} DedupKeepsInput(rows: seq<LabelledUrl>)
    ensures forall k :: 0 <= k < |Dedup(rows)| ==> Dedup(rows)[k] in rows
    decreases |rows|
  {
    if rows != [] {
      var init := rows[..|rows| - 1];
      DedupKeepsInput(init);
      var d := Dedup(init);
      var r := Dedup(rows);
      forall k | 0 <= k < |r| ensures r[k] in rows {
        if k < |d| {
          assert r[k] == d[k];
          assert d[k] in init;
        }
      }
    }
  }

  /** No two kept rows share a URL. */
  lemma {:induction false} DedupDistinct(rows: seq<LabelledUrl>)
    ensures forall i, j :: 0 <= i < j < |Dedup(rows)| ==> Dedup(rows)[i].url != Dedup(rows)[j].url
    decreases |rows|
  {
    if rows != [] {
      var init := rows[..|rows| - 1];
      var last := rows[|rows| - 1];
      DedupDistinct(init);
      DedupCovers(init);
      var d := Dedup(init);
      var r := Dedup(rows);
      if last.url !in Urls(init) {
        assert r == d + [last];
        forall i, j | 0 <= i < j < |r| ensures r[i].url != r[j].url {
          if j == |d| {
            assert r[i] == d[i];
            assert d[i].url in Urls(d);
          } else {
            assert r[i] == d[i] && r[j] == d[j];
          }
        }
      }
    }
  }

  /** The index of the first row carrying `u`. */
  function FirstIndex(rows: seq<LabelledUrl>, u: string): (i: nat)
    requires u in Urls(rows)
    ensures i < |rows| && rows[i].url == u
    ensures forall j :: 0 <= j < i ==> rows[j].url != u
    decreases |rows|
  {
    if rows[0].url == u then 0
    else
      assert u in Urls(rows[1..]) by {
        var i :| 0 <= i < |rows| && rows[i].url == u;
        assert rows[1..][i - 1] == rows[i];
      }
      var k := FirstIndex(rows[1..], u);
      assert forall j :: 1 <= j <= k ==> rows[j] == rows[1..][j - 1];
      k + 1
  }

  /** `x` is the first row of `rows` with its URL. */
  predicate FirstOf(rows: seq<LabelledUrl>, x: LabelledUrl) {
    x.url in Urls(rows) && x == rows[FirstIndex(rows, x.url)]
  }

  /** Appending a row leaves the first index of an already present URL alone,
      and makes the new row the first carrier of a URL not yet present. */
  lemma FirstIndexSnoc(rows: seq<LabelledUrl>, x: LabelledUrl, u: string)
    requires u in Urls(rows) || u == x.url
    ensures u in Urls(rows + [x])
    ensures u in Urls(rows) ==> FirstIndex(rows + [x], u) == FirstIndex(rows, u)
    ensures u !in Urls(rows) ==> FirstIndex(rows + [x], u) == |rows|
  {
    UrlsSnoc(rows, x);
    var all := rows + [x];
    var i := FirstIndex(all, u);
    assert forall j :: 0 <= j < |rows| ==> all[j] == rows[j];
    if u in Urls(rows) {
      var i0 := FirstIndex(rows, u);
      assert all[i0] == rows[i0];
    }
  }

  /** Deduplication keeps the FIRST row of each URL, as `drop_duplicates` does by
      default: a URL that appears in two files keeps its first file's label. */
  lemma {:induction false} DedupKeepsFirst(rows: seq<LabelledUrl>)
    ensures forall k :: 0 <= k < |Dedup(rows)| ==> FirstOf(rows, Dedup(rows)[k])
    decreases |rows|
  {
    if rows != [] {
      var init := rows[..|rows| - 1];
      var last := rows[|rows| - 1];
      assert rows == init + [last];
      DedupKeepsFirst(init);
      var d := Dedup(init);
      var r := Dedup(rows);
      forall k | 0 <= k < |r| ensures FirstOf(rows, r[k]) {
        if k < |d| {
          assert r[k] == d[k];
          FirstIndexSnoc(init, last, d[k].url);
          assert rows[FirstIndex(init, d[k].url)] == init[FirstIndex(init, d[k].url)];
        } else {
          assert r[k] == last && last.url !in Urls(init);
          FirstIndexSnoc(init, last, last.url);
        }
      }
    }
  }

  /** Both URLs occur in `rows`, the first one earlier than the second. */
  predicate Ordered(rows: seq<LabelledUrl>, x: LabelledUrl, y: LabelledUrl) {
    x.url in Urls(rows) && y.url in Urls(rows) && FirstIndex(rows, x.url) < FirstIndex(rows, y.url)
  }

  /** The kept rows stay in input order: their first positions increase. */
  lemma {:induction false} DedupInOrder(rows: seq<LabelledUrl>)
    ensures forall a, b :: 0 <= a < b < |Dedup(rows)| ==> Ordered(rows, Dedup(rows)[a], Dedup(rows)[b])
    decreases |rows|
  {
    if rows != [] {
      var init := rows[..|rows| - 1];
      var last := rows[|rows| - 1];
      assert rows == init + [last];
      DedupInOrder(init);
      DedupKeepsFirst(init);
      var d := Dedup(init);
      var r := Dedup(rows);
      forall a, b | 0 <= a < b < |r|
        ensures Ordered(rows, r[a], r[b])
      {
        assert r[a] == d[a] && FirstOf(init, d[a]);
        FirstIndexSnoc(init, last, d[a].url);
        if b < |d| {
          assert r[b] == d[b] && FirstOf(init, d[b]);
          FirstIndexSnoc(init, last, d[b].url);
        } else {
          assert r[b] == last && last.url !in Urls(init);
          FirstIndexSnoc(init, last, last.url);
        }
      }
    } else {
      assert Dedup(rows) == [];
    }
  }

  /** Rows whose URLs are already distinct pass unchanged, so deduplicating twice
      is the same as once. */
  lemma {:induction false} DedupNoOp(rows: seq<LabelledUrl>)
    requires forall i, j :: 0 <= i < j < |rows| ==> rows[i].url != rows[j].url
    ensures Dedup(rows) == rows
    decreases |rows|
  {
    if rows != [] {
      var init := rows[..|rows| - 1];
      var last := rows[|rows| - 1];
      DedupNoOp(init);
      forall i | 0 <= i < |init| ensures init[i].url != last.url {
        assert init[i] == rows[i];
      }
      assert last.url !in Urls(init);
      assert rows == init + [last];
    }
  }

  lemma DedupIdempotent(rows: seq<LabelledUrl>)
    ensures Dedup(Dedup(rows)) == Dedup(rows)
  {
    DedupDistinct(rows);
    DedupNoOp(Dedup(rows));
  }

  // ------------------------------------------------------------ balancing

  /** The class sizes after balancing, for the malicious and benign counts: with
      both classes present and the larger more than three times the smaller, the
      larger is cut to exactly three times the smaller. */
  function Balance(malicious: nat, benign: nat): (r: (nat, nat))
    ensures r.0 <= malicious && r.1 <= benign
    ensures malicious <= benign ==> r.0 == malicious
    ensures benign <= malicious ==> r.1 == benign
    ensures malicious > 0 && benign > 0 ==> r.0 <= 3 * r.1 && r.1 <= 3 * r.0
    ensures (malicious <= 3 * benign && benign <= 3 * malicious) || malicious == 0 || benign == 0 ==> r == (malicious, benign)
  {
    if malicious == 0 || benign == 0 then (malicious, benign)
    else
      var (major, minor) := if malicious >= benign then (malicious, benign) else (benign, malicious);
      if major > 3 * minor then
        if malicious >= benign then (3 * benign, benign) else (malicious, 3 * malicious)
      else (malicious, benign)
  }

  /** With both classes present each count is cut only as far as the bound needs:
      the result is the pair of minima. Balancing is then a no-op on its result. */
  lemma BalanceClosedForm(malicious: nat, benign: nat)
    requires malicious > 0 && benign > 0
    ensures Balance(malicious, benign) == (Min(malicious, 3 * benign), Min(benign, 3 * malicious))
    ensures Balance(Balance(malicious, benign).0, Balance(malicious, benign).1) == Balance(malicious, benign)
  {
  }

  function Min(a: nat, b: nat): nat { if a <= b then a else b }

  /** How many rows carry a label. */
  function CountLabel(rows: seq<LabelledUrl>, verdict: string): (n: nat)
    ensures n <= |rows|
    decreases |rows|
  {
    if rows == [] then 0
    else CountLabel(rows[..|rows| - 1], verdict) + (if rows[|rows| - 1].verdict == verdict then 1 else 0)
  }

  /** Rows labelled only malicious or benign are counted once each. */
  lemma {:induction false} CountsPartition(rows: seq<LabelledUrl>)
    requires forall k :: 0 <= k < |rows| ==> rows[k].verdict == "malicious" || rows[k].verdict == "benign"
    ensures CountLabel(rows, "malicious") + CountLabel(rows, "benign") == |rows|
    decreases |rows|
  {
    if rows != [] {
      CountsPartition(rows[..|rows| - 1]);
    }
  }

  /** Every file's rows, in file order, before deduplication. */
  function AllRows(files: seq<CsvFile>): (rows: seq<LabelledUrl>)
    requires forall i :: 0 <= i < |files| ==> ScalarFile(files[i])
    ensures forall k :: 0 <= k < |rows| ==> Labelled(rows[k])
  {
    Flatten(seq(|files|, i requires 0 <= i < |files| => FileRows(files[i])))
  }

  /** The combined dataset: each URL of any file exactly once, carried by its first
      row across the files in order, with that row's label. */
  function Combined(files: seq<CsvFile>): (r: seq<LabelledUrl>)
    requires forall i :: 0 <= i < |files| ==> ScalarFile(files[i])
    ensures forall k :: 0 <= k < |r| ==> r[k].verdict == "malicious" || r[k].verdict == "benign"
    ensures Urls(r) == Urls(AllRows(files))
    ensures forall k :: 0 <= k < |r| ==> FirstOf(AllRows(files), r[k])
    ensures forall i, j :: 0 <= i < j < |r| ==> r[i].url != r[j].url
    ensures forall a, b :: 0 <= a < b < |r| ==> Ordered(AllRows(files), r[a], r[b])
  {
    var rows := AllRows(files);
    DedupLabelled(rows);
    DedupCovers(rows);
    DedupKeepsFirst(rows);
    DedupInOrder(rows);
    DedupDistinct(rows);
    Dedup(rows)
  }

  /** Labelled either malicious or benign. */
  predicate Labelled(x: LabelledUrl) {
    x.verdict == "malicious" || x.verdict == "benign"
  }

  /** Deduplication keeps only rows of its input, so it keeps their labels. */
  lemma DedupLabelled(rows: seq<LabelledUrl>)
    requires forall k :: 0 <= k < |rows| ==> Labelled(rows[k])
    ensures forall k :: 0 <= k < |Dedup(rows)| ==> Labelled(Dedup(rows)[k])
  {
    DedupKeepsInput(rows);
  }

  /** The class sizes of the written dataset: every kept row counted once, and the
      larger class at most three times the smaller. */
  lemma BalancedSizes(files: seq<CsvFile>)
    requires forall i :: 0 <= i < |files| ==> ScalarFile(files[i])
    ensures var rows := Combined(files);
      var sizes := Balance(CountLabel(rows, "malicious"), CountLabel(rows, "benign"));
      && sizes.0 + sizes.1 <= |rows|
      && (sizes.0 == 0 || sizes.1 == 0 || (sizes.0 <= 3 * sizes.1 && sizes.1 <= 3 * sizes.0))
  {
    CountsPartition(Combined(files));
  }
}

=== FILE: detector.dfy ===
/** The stand-alone labeller of `detector.py`: five case-insensitive signatures
    tried in a fixed order over the lower-cased URL, the first that matches naming
    the attack, "Normal" when none does or when the input is not a string. */
module Detector {
  import opened Wrappers
  import opened Text
  import opened Schema
  import opened Signature

  /** The attacks the labeller can name, in the order their signatures are tried. */
  datatype Attack = SqlInjection | Xss | DirectoryTraversal | CommandInjection | Ssrf {

    /** The label returned for the attack. */
    function Name(): string {
      match this
      case SqlInjection => "SQL Injection"
      case Xss => "XSS"
      case DirectoryTraversal => "Directory Traversal"
      case CommandInjection => "Command Injection"
      case Ssrf => "SSRF"
    }
  }

  /** The order of the `PATTERNS` table. */
  const Order: seq<Attack> := [SqlInjection, Xss, DirectoryTraversal, CommandInjection, Ssrf]

  /** The literal alternatives of the SQL signature. */
  const SqlWords: seq<string> := ["union", "select", "sleep", "drop", "--"]

  /** The XSS signature's alternatives. */
  const XssWords: seq<string> := ["<script", "javascript:", "onerror=", "onload="]

  /** The traversal signature's alternatives: `../` and its percent-encoded form. */
  const TraversalWords: seq<string> := ["../", "%2e%2e%2f"]

  /** The commands the command-injection signature looks for after a separator. */
  const Commands: seq<string> := ["ls", "cat", "pwd", "whoami"]

  /** The SSRF signature's alternatives: the cloud metadata address and the word. */
  const SsrfWords: seq<string> := ["169.254.169.254", "metadata"]

  /** `union|select|sleep|drop|--|'\s*or`. */
  predicate SqlMatch(s: string)
    ensures SqlMatch(s) ==> |s| >= 2
  {
    ContainsAny(s, SqlWords) || exists i :: 0 <= i < |s| && s[i] == '\'' && SpacedAt(s, i + 1, "or")
  }

  /** A command separator `;`, `|` or `&&` occupies `s[i..e]`. */
  predicate SeparatorAt(s: string, i: int, e: int) {
    0 <= i < |s|
    && (((s[i] == ';' || s[i] == '|') && e == i + 1) || (s[i] == '&' && i + 1 < |s| && s[i + 1] == '&' && e == i + 2))
  }

  /** `s[e..j]` holds no line break: what `.*` can cover without DOTALL. */
  predicate OneLine(s: string, e: int, j: int) {
    0 <= e <= j <= |s| && forall k :: e <= k < j ==> s[k] != '\n'
  }

  /** One of the commands starts at `j`. */
  predicate CommandAt(s: string, j: int) {
    exists c :: 0 <= c < |Commands| && OccursAt(s, Commands[c], j)
  }

  /** `(;|&&|\|).*(ls|cat|pwd|whoami)`: a separator, then on the same line a
      command. */
  predicate CommandMatch(s: string)
    ensures CommandMatch(s) ==> ';' in s || '|' in s || '&' in s
  {
    exists i, e, j :: 0 <= i < e <= j < |s| && SeparatorAt(s, i, e) && OneLine(s, e, j) && CommandAt(s, j)
  }

  /** Whether the signature of `a` matches the lower-cased URL `s`. */
  predicate Matches(a: Attack, s: string) {
    match a
    case SqlInjection => SqlMatch(s)
    case Xss => ContainsAny(s, XssWords)
    case DirectoryTraversal => ContainsAny(s, TraversalWords)
    case CommandInjection => CommandMatch(s)
    case Ssrf => ContainsAny(s, SsrfWords)
  }

  /** The first attack of `attacks` whose signature matches `s`. */
  function FirstMatch(s: string, attacks: seq<Attack>): (r: Option<Attack>)
    ensures r.None? <==> forall k :: 0 <= k < |attacks| ==> !Matches(attacks[k], s)
    ensures r.Some? ==> exists k :: (0 <= k < |attacks| && attacks[k] == r.value
      && Matches(attacks[k], s) && forall m :: 0 <= m < k ==> !Matches(attacks[m], s))
  {
    if attacks == [] then None
    else if Matches(attacks[0], s) then Some(attacks[0])
    else
      var r := FirstMatch(s, attacks[1..]);
      assert forall k :: 0 < k < |attacks| ==> attacks[1..][k - 1] == attacks[k];
      if r.Some? then
        assert exists k :: (0 <= k < |attacks| && attacks[k] == r.value
          && Matches(attacks[k], s) && forall m :: 0 <= m < k ==> !Matches(attacks[m], s)) by {
          var k :| 0 <= k < |attacks[1..]| && attacks[1..][k] == r.value
            && Matches(attacks[1..][k], s) && forall m :: 0 <= m < k ==> !Matches(attacks[1..][m], s);
          assert attacks[k + 1] == r.value;
          forall m | 0 <= m < k + 1 ensures !Matches(attacks[m], s) {
            if m > 0 { assert attacks[m] == attacks[1..][m - 1]; }
          }
        }
        r
      else r
  }

  /** `detect_attack`: "Normal" for a non-string; otherwise the name of the first
      attack, in table order, whose signature matches the lower-cased URL, and
      "Normal" when none matches. */
  function DetectAttack(url: Value): (name: string)
    ensures !url.Str? ==> name == "Normal"
    ensures url.Str? && (forall k :: 0 <= k < |Order| ==> !Matches(Order[k], Lower(url.s))) ==> name == "Normal"
    ensures url.Str? && name != "Normal" ==> exists k :: (0 <= k < |Order| && name == Order[k].Name()
      && Matches(Order[k], Lower(url.s)) && forall m :: 0 <= m < k ==> !Matches(Order[m], Lower(url.s)))
  {
    match url
    case Str(s) =>
      (match FirstMatch(Lower(s), Order)
       case None => "Normal"
       case Some(a) => a.Name())
    case _ => "Normal"
  }

  /** No attack is called "Normal", and distinct attacks have distinct names, so the
      label identifies the attack. */
  lemma NamesDistinct(a: Attack, b: Attack)
    ensures a.Name() != "Normal"
    ensures a.Name() == b.Name() ==> a == b
  {
    assert a.Name()[0] != 'N';
    assert a.Name()[0] == b.Name()[0] && |a.Name()| == |b.Name()| ==> a == b;
  }

  /** The label is one of six: an attack name or "Normal", and "Normal" exactly when
      no signature matches a string input. */
  lemma SixLabels(url: Value)
    ensures DetectAttack(url) == "Normal" || exists a: Attack :: DetectAttack(url) == a.Name()
    ensures url.Str? ==> (DetectAttack(url) == "Normal" <==> forall k :: 0 <= k < |Order| ==> !Matches(Order[k], Lower(url.s)))
  {
    if url.Str? && DetectAttack(url) != "Normal" {
      var k :| 0 <= k < |Order| && DetectAttack(url) == Order[k].Name();
      NamesDistinct(Order[k], Order[k]);
    }
    if url.Str? && DetectAttack(url) == "Normal" {
      var r := FirstMatch(Lower(url.s), Order);
      if r.Some? {
        NamesDistinct(r.value, r.value);
      }
    }
  }

  /** A URL with both a traversal and an SQL comment is labelled SQL Injection: the
      SQL signature is tried first. */
  lemma TraversalWithCommentIsSql(url: string)
    requires Contains(Lower(url), "../") && Contains(Lower(url), "--")
    ensures Matches(DirectoryTraversal, Lower(url))
    ensures DetectAttack(Str(url)) == "SQL Injection"
  {
    assert SqlWords[4] == "--";
    assert TraversalWords[0] == "../";
  }

  /** A URL holding none of the three separator characters never matches the
      command-injection signature. */
  lemma NoSeparatorNoCommand(s: string)
    requires ';' !in s && '|' !in s && '&' !in s
    ensures !CommandMatch(s)
  {
    assert forall i, e :: !SeparatorAt(s, i, e) by {
      forall i, e ensures !SeparatorAt(s, i, e) {
        if 0 <= i && i + 2 <= |s| {
          assert s[i..i + 2][0] == s[i];
        }
      }
    }
  }

  /** A separator followed on the same line by a command matches, whatever lies
      between them. */
  lemma SeparatorThenCommand(a: string, sep: string, gap: string, c: nat, rest: string)
    requires sep == ";" || sep == "|" || sep == "&&"
    requires '\n' !in gap && c < |Commands|
    ensures CommandMatch(a + sep + gap + Commands[c] + rest)
  {
    var s := a + sep + gap + Commands[c] + rest;
    var i, e, j := |a|, |a| + |sep|, |a| + |sep| + |gap|;
    assert s[i..e] == sep;
    assert SeparatorAt(s, i, e);
    assert s[j..j + |Commands[c]|] == Commands[c];
    assert CommandAt(s, j);
    assert forall k :: e <= k < j ==> s[k] == gap[k - e];
    assert OneLine(s, e, j);
  }

  /** A line break between the only separator and the only command defeats the
      signature: `.` does not match a line break. */
  lemma LineBreakDefeatsCommand(a: string, b: string)
    requires ';' !in a && '|' !in a && '&' !in a
    requires ';' !in b && '|' !in b && '&' !in b
    ensures !CommandMatch(a + ";" + "\n" + b)
  {
    var s := a + ";" + "\n" + b;
    var n := |a|;
    assert forall k :: 0 <= k < n ==> s[k] == a[k];
    assert forall k :: n + 2 <= k < |s| ==> s[k] == b[k - n - 2];
    assert s[n] == ';' && s[n + 1] == '\n';
    assert forall i, e :: SeparatorAt(s, i, e) ==> i == n && e == n + 1 by {
      forall i, e | SeparatorAt(s, i, e) ensures i == n && e == n + 1 {
        if 0 <= i && i + 2 <= |s| {
          assert s[i..i + 2][0] == s[i];
        }
      }
    }
    assert !CommandAt(s, n + 1) by {
      forall c | 0 <= c < |Commands| ensures !OccursAt(s, Commands[c], n + 1) {
        if n + 1 + |Commands[c]| <= |s| {
          assert s[n + 1..n + 1 + |Commands[c]|][0] == s[n + 1];
        }
      }
    }
  }
}

=== FILE: explain.dfy ===
/** The explanation generator of `core/explain.py`: fixed sentences assembled
    from labels, rule ids, a probability and a risk assessment. Formatting a
    probability with two decimals is passed in as `fmt`. */
module Explain {
  import opened Wrappers
  import opened Text
  import opened Numeric
  import opened Schema
  import Rules

  // ---------------------------------------------------------------- the first maximal entry

  /** The position of the first entry with the largest key: what `max(d, key=...)`
      returns for a dict, and the head of a stable descending sort. */
  function FirstMax<T>(xs: seq<T>, key: T -> real): (i: nat)
    requires xs != []
    ensures i < |xs|
    ensures forall j :: 0 <= j < |xs| ==> key(xs[j]) <= key(xs[i])
    ensures forall j :: 0 <= j < i ==> key(xs[j]) < key(xs[i])
  {
    if |xs| == 1 then 0
    else
      var n := |xs| - 1;
      var k := FirstMax(xs[..n], key);
      assert forall j :: 0 <= j < n ==> xs[..n][j] == xs[j];
      if key(xs[n]) > key(xs[k]) then n else k
  }

  /** Only the first maximal entry satisfies both halves of `FirstMax`'s contract. */
  lemma FirstMaxUnique<T>(xs: seq<T>, key: T -> real, i: nat)
    requires i < |xs|
    requires forall j :: 0 <= j < |xs| ==> key(xs[j]) <= key(xs[i])
    requires forall j :: 0 <= j < i ==> key(xs[j]) < key(xs[i])
    ensures FirstMax(xs, key) == i
  {
    var m := FirstMax(xs, key);
    assert key(xs[m]) == key(xs[i]);
  }

  // ---------------------------------------------------------------- summarize

  const NoAttacks: string := "No attacks detected in this upload."

  /** `summarize`'s result: the `summary` text and the `top_ip`. */
  datatype Summary = Summary(summary: string, topIp: string)

  /** The sentence naming the address with the most attacks. */
  function TopIpSentence(topIp: string): (r: string)
    ensures r == "" <==> topIp == ""
    ensures topIp != "" ==> Contains(r, topIp) && EndsWith(r, ".")
    ensures topIp != "" ==> StartsWith(r, " Most activity observed from ")
  {
    if topIp != "" then
      ContainsSelf(topIp);
      ContainsInfix(" Most activity observed from ", topIp, ".", topIp);
      " Most activity observed from " + topIp + "."
    else ""
  }

  /** `summarize`, given the attack densities in dict order (empty when the
      correlations carry none): the fixed message without findings; otherwise the
      count of findings and, when there are densities, the first address with the
      largest one. */
  function Summarize(findings: seq<Finding>, density: seq<(string, nat)>): (r: Summary)
    ensures findings == [] ==> r == Summary(NoAttacks, "")
    ensures findings != [] && density == [] ==> r.topIp == ""
    ensures findings != [] && density != [] ==> exists i :: (0 <= i < |density| && r.topIp == density[i].0
      && (forall j :: 0 <= j < |density| ==> density[j].1 <= density[i].1)
      && forall j :: 0 <= j < i ==> density[j].1 < density[i].1)
    ensures findings != [] ==> r.summary == NatToString(|findings|) + " potential issues detected." + TopIpSentence(r.topIp)
  {
    if findings == [] then Summary(NoAttacks, "")
    else
      var topIp := if density == [] then "" else density[FirstMax(density, (p: (string, nat)) => p.1 as real)].0;
      Summary(NatToString(|findings|) + " potential issues detected." + TopIpSentence(topIp), topIp)
  }

  /** The summary tells an empty upload from a non-empty one: a count starts with a
      digit, the fixed message with a letter. */
  lemma SummaryDistinguishes(findings: seq<Finding>, density: seq<(string, nat)>)
    ensures Summarize(findings, density).summary == NoAttacks <==> findings == []
    ensures Summarize(findings, density).topIp != "" ==> findings != []
  {
    if findings != [] {
      var r := Summarize(findings, density);
      assert r.summary[0] == NatToString(|findings|)[0];
      assert NoAttacks[0] == 'N';
    }
  }

  // ---------------------------------------------------------------- explain_row

  /** `ml_label or "Normal"`. */
  function OrNormal(given: Option<string>): (r: string)
    ensures r != ""
    ensures given.Some? && given.value != "" ==> r == given.value
    ensures given.None? || given.value == "" ==> r == "Normal"
  {
    match given
    case Some(l) => if l != "" then l else "Normal"
    case None => "Normal"
  }

  /** The opening sentence of a row explanation. */
  function Opening(finalLabel: string): (r: string)
    ensures r == "No rule match; ML considered normal." <==> finalLabel == "Normal"
    ensures finalLabel != "Normal" ==> |r| == |finalLabel| + 12 && r[11..|r| - 1] == finalLabel
    ensures finalLabel != "Normal" ==> StartsWith(r, "Flagged as ") && EndsWith(r, ".")
  {
    if finalLabel != "Normal" then
      var r := "Flagged as " + finalLabel + ".";
      assert r[0] == 'F';
      r
    else "No rule match; ML considered normal."
  }

  /** The clause noting that the rules and the classifier disagree, if they do. */
  function Disagreement(finalLabel: string, mlLabel: string): (r: Option<string>)
    ensures r.None? <==> finalLabel == mlLabel || (mlLabel == "" && finalLabel != "Normal")
    ensures finalLabel != "Normal" && mlLabel == "Normal" ==> r == Some("ML disagrees (predicted Normal).")
    ensures finalLabel == "Normal" && mlLabel != "Normal" ==> r == Some("ML suspects " + mlLabel + ", needs review.")
    ensures finalLabel != "Normal" && mlLabel != "Normal" && r.Some? ==> r == Some("Rule/ML differ (ML: " + mlLabel + ").")
  {
    if finalLabel != "Normal" && mlLabel == "Normal" then Some("ML disagrees (predicted Normal).")
    else if finalLabel == "Normal" && mlLabel != "Normal" then Some("ML suspects " + mlLabel + ", needs review.")
    else if finalLabel != mlLabel && mlLabel != "" then Some("Rule/ML differ (ML: " + mlLabel + ").")
    else None
  }

  /** With a non-empty classifier label, exactly one disagreement clause is written
      when the labels differ, and none when they agree. */
  lemma DisagreementIff(finalLabel: string, mlLabel: string)
    requires mlLabel != ""
    ensures Disagreement(finalLabel, mlLabel).Some? <==> finalLabel != mlLabel
  {
  }

  /** An optional sentence as a list of zero or one sentences. */
  function Sentences(o: Option<string>): (r: seq<string>)
    ensures o.None? ==> r == []
    ensures o.Some? ==> r == [o.value]
  {
    match o
    case None => []
    case Some(x) => [x]
  }

  /** The sentence listing the rule hits. */
  function HitsSentence(hits: seq<string>): (r: string)
    ensures StartsWith(r, "Rule signatures hit: ") && EndsWith(r, ".")
    ensures forall i :: 0 <= i < |hits| ==> Contains(r, hits[i])
  {
    var r := "Rule signatures hit: " + Join(hits, ", ") + ".";
    forall i | 0 <= i < |hits| ensures Contains(r, hits[i]) {
      JoinContains(hits, ", ", i);
      ContainsInfix("Rule signatures hit: ", Join(hits, ", "), ".", hits[i]);
    }
    r
  }

  /** The sentence naming the most probable class and its probability. */
  function TopSentence(top: (string, real), fmt: real -> string): (r: string)
    ensures StartsWith(r, "ML top class: " + top.0 + " (") && EndsWith(r, ").")
    ensures Contains(r, fmt(top.1))
  {
    var r := "ML top class: " + top.0 + " (" + fmt(top.1) + ").";
    ContainsSelf(fmt(top.1));
    ContainsInfix("ML top class: " + top.0 + " (", fmt(top.1), ").", fmt(top.1));
    r
  }

  /** The most probable class: the first with the largest probability, which is
      what a stable descending sort puts first. */
  function TopClass(proba: seq<(string, real)>): (top: (string, real))
    requires proba != []
    ensures top in proba
    ensures forall j :: 0 <= j < |proba| ==> proba[j].1 <= top.1
    ensures exists i :: 0 <= i < |proba| && top == proba[i] && forall j :: 0 <= j < i ==> proba[j].1 < top.1
  {
    proba[FirstMax(proba, (p: (string, real)) => p.1)]
  }

  /** The sentences of `explain_row`: the opening, the rule hits when there are
      any, the most probable class when probabilities are given, and the
      disagreement clause. */
  function RowParts(finalLabel: string, ruleHits: Option<seq<string>>, mlLabel: Option<string>,
                    mlProba: seq<(string, real)>, fmt: real -> string): (parts: seq<string>)
    ensures |parts| == 1 + (if ruleHits.GetOr([]) != [] then 1 else 0) + (if mlProba != [] then 1 else 0)
      + (if finalLabel != OrNormal(mlLabel) then 1 else 0)
    ensures parts[0] == Opening(finalLabel)
    ensures ruleHits.GetOr([]) != [] ==> parts[1] == HitsSentence(ruleHits.GetOr([]))
    ensures finalLabel != OrNormal(mlLabel) ==> parts[|parts| - 1] == Disagreement(finalLabel, OrNormal(mlLabel)).value
    ensures mlProba != [] ==>
      parts[|parts| - 1 - (if finalLabel != OrNormal(mlLabel) then 1 else 0)] == TopSentence(TopClass(mlProba), fmt)
  {
    var hits := ruleHits.GetOr([]);
    var ml := OrNormal(mlLabel);
    DisagreementIff(finalLabel, ml);
    [Opening(finalLabel)]
    + (if hits != [] then [HitsSentence(hits)] else [])
    + (if mlProba != [] then [TopSentence(TopClass(mlProba), fmt)] else [])
    + Sentences(Disagreement(finalLabel, ml))
  }

  /** `explain_row`: the sentences joined by single spaces. */
  function ExplainRow(finalLabel: string, ruleHits: Option<seq<string>>, mlLabel: Option<string>,
                      mlProba: seq<(string, real)>, fmt: real -> string): (r: string)
    ensures StartsWith(r, Opening(finalLabel))
  {
    var parts := RowParts(finalLabel, ruleHits, mlLabel, mlProba, fmt);
    JoinStartsWithFirst(parts, " ");
    Join(parts, " ")
  }

  /** A join of non-empty lists starts with the first element. */
  lemma JoinStartsWithFirst(parts: seq<string>, sep: string)
    requires parts != []
    ensures StartsWith(Join(parts, sep), parts[0])
  {
    if |parts| > 1 {
      assert Join(parts, sep) == parts[0] + (sep + Join(parts[1..], sep));
    }
  }

  // ---------------------------------------------------------------- generate_why_summary

  /** `_RULE_MAP`: the phrase used for each known rule. */
  function Phrase(x: Rules.Rule): (r: string)
    ensures r != ""
  {
    match x
    case SqlInjection => "SQL injection style payloads"
    case XssPattern => "cross-site scripting indicators"
    case SuspiciousKeyword => "suspicious keywords"
    case IpBasedUrl => "direct IP-based access"
    case AbusedTld => "use of a high-risk top-level domain"
  }

  /** Distinct rules are named by distinct phrases. */
  lemma PhraseInjective(x: Rules.Rule, y: Rules.Rule)
    ensures Phrase(x) == Phrase(y) ==> x == y
  {
    if Phrase(x) == Phrase(y) {
      assert Phrase(x)[0] == Phrase(y)[0];
    }
  }

  /** How a rule id is named: its phrase when it is known; otherwise the id with
      underscores turned into spaces, in title case. */
  function Readable(id: string): (r: string)
    ensures Rules.RuleOf(id).Some? ==> r == Phrase(Rules.RuleOf(id).value)
    ensures Rules.RuleOf(id).None? ==> |r| == |id| && '_' !in r
  {
    match Rules.RuleOf(id)
    case Some(x) => Phrase(x)
    case None =>
      var u := ReplaceChar(id, '_', ' ');
      var t := Title(u);
      assert forall i :: 0 <= i < |t| ==> t[i] != '_' by {
        forall i | 0 <= i < |t| ensures t[i] != '_' {
          if IsLetter(u[i]) {
            if i == 0 || !IsLetter(u[i - 1]) {
              assert t[i] == UpperChar(u[i]);
            } else {
              assert t[i] == LowerChar(u[i]);
            }
          }
        }
      }
      t
  }

  /** Every known rule is named by its phrase. */
  lemma ReadableKnown(x: Rules.Rule)
    ensures Readable(x.Id()) == Phrase(x)
  {
    Rules.RuleOfId(x);
  }

  /** `A`, `A and B`, `A, B and C`: all but the last joined by commas, the last
      added with "and". */
  function Listing(names: seq<string>): (r: string)
    requires names != []
    ensures |names| == 1 ==> r == names[0]
    ensures |names| > 1 ==> StartsWith(r, names[0]) && EndsWith(r, " and " + names[|names| - 1])
  {
    if |names| > 1 then
      var j := Join(names[..|names| - 1], ", ");
      JoinStartsWithFirst(names[..|names| - 1], ", ");
      assert (j + " and " + names[|names| - 1])[..|names[0]|] == j[..|names[0]|];
      j + " and " + names[|names| - 1]
    else names[0]
  }

  /** The listings of one, two and three names. */
  lemma ListingShapes(a: string, b: string, c: string)
    ensures Listing([a]) == a
    ensures Listing([a, b]) == a + " and " + b
    ensures Listing([a, b, c]) == a + ", " + b + " and " + c
  {
    assert [a, b][..1] == [a];
    assert [a, b, c][..2] == [a, b];
    assert [a, b][1..] == [b];
    assert Join([a, b], ", ") == a + ", " + b;
  }

  /** The readable names of the first three rule ids. */
  function NamedRules(rules: seq<string>): (r: seq<string>)
    ensures |r| == if |rules| < 3 then |rules| else 3
    ensures forall i :: 0 <= i < |r| ==> r[i] == Readable(rules[i])
  {
    var first := if |rules| < 3 then rules else rules[..3];
    seq(|first|, i requires 0 <= i < |first| => Readable(first[i]))
  }

  const NoSignatures: string := "No explicit attack signatures were detected."

  /** The middle sentence: the named rules, or the fixed no-signature sentence. */
  function SignatureSentence(rules: seq<string>): (r: string)
    ensures rules == [] ==> r == NoSignatures
    ensures rules != [] ==> r == "It also matches known " + Listing(NamedRules(rules)) + "."
  {
    if rules == [] then NoSignatures
    else "It also matches known " + Listing(NamedRules(rules)) + "."
  }

  /** `int(round(p * 100))`: the probability as a whole percentage. */
  function Percent(p: real): (n: int)
    ensures -0.5 <= n as real - p * 100.0 <= 0.5
    ensures 0.0 <= p <= 1.0 ==> 0 <= n <= 100
  {
    var n := RoundHalfEven(p * 100.0);
    assert 0.0 <= p <= 1.0 ==> 0 <= n <= 100 by {
      if 0.0 <= p <= 1.0 {
        RoundMonotone(0.0, p * 100.0);
        RoundMonotone(p * 100.0, 100.0);
        RoundOfInt(0);
        RoundOfInt(100);
      }
    }
    n
  }

  /** The opening sentence: the classifier's label and its confidence. */
  function PredictionSentence(mlLabel: string, p: real): (r: string)
    ensures StartsWith(r, "The ML model predicts this URL as " + mlLabel + " with ")
    ensures EndsWith(r, IntToString(Percent(p)) + "% confidence.")
  {
    "The ML model predicts this URL as " + mlLabel + " with " + IntToString(Percent(p)) + "% confidence."
  }

  /** The closing sentence, worded the same for every level. */
  function ClosingSentence(score: int, level: string): (r: string)
    ensures StartsWith(r, "This results in a " + level + " risk score of " + IntToString(score))
    ensures EndsWith(r, ", indicating a strong likelihood of abuse.")
  {
    var p := "This results in a " + level + " risk score of " + IntToString(score);
    var t := ", indicating a strong likelihood of abuse.";
    var r := p + t;
    assert r[..|p|] == p && r[|r| - |t|..] == t;
    r
  }


  /** `generate_why_summary` (its `url` argument is not used): three sentences
      joined by single spaces. */
  function WhySummary(mlLabel: string, p: real, rules: seq<string>, score: int, level: string): (r: string)
    ensures StartsWith(r, PredictionSentence(mlLabel, p) + " ")
    ensures Contains(r, " " + SignatureSentence(rules) + " ")
    ensures EndsWith(r, " " + ClosingSentence(score, level))
  {
    var s1, s2, s3 := PredictionSentence(mlLabel, p), SignatureSentence(rules), ClosingSentence(score, level);
    ThreeSentences(s1, s2, s3);
    Join([s1, s2, s3], " ")
  }

  /** Three sentences joined by single spaces keep each sentence whole, in order. */
  lemma ThreeSentences(s1: string, s2: string, s3: string)
    ensures Join([s1, s2, s3], " ") == s1 + " " + s2 + " " + s3
    ensures StartsWith(Join([s1, s2, s3], " "), s1 + " ")
    ensures OccursAt(Join([s1, s2, s3], " "), " " + s2 + " ", |s1|)
    ensures EndsWith(Join([s1, s2, s3], " "), " " + s3)
  {
    var r := s1 + " " + s2 + " " + s3;
    assert [s1, s2, s3][1..] == [s2, s3];
    assert [s2, s3][1..] == [s3];
    assert Join([s2, s3], " ") == s2 + " " + s3;
    assert Join([s1, s2, s3], " ") == s1 + " " + (s2 + " " + s3);
    assert r[..|s1 + " "|] == s1 + " ";
    assert r[|s1|..|s1| + |" " + s2 + " "|] == " " + s2 + " ";
    assert r[|s1 + " " + s2|..] == " " + s3;
  }

  /** Rule ids after the third never change the summary. */
  lemma WhyOnlyFirstThree(mlLabel: string, p: real, rules: seq<string>, score: int, level: string)
    requires |rules| > 3
    ensures WhySummary(mlLabel, p, rules, score, level) == WhySummary(mlLabel, p, rules[..3], score, level)
  {
    assert rules[..3][..3] == rules[..3];
    assert NamedRules(rules) == NamedRules(rules[..3]);
  }

  /** Two rule ids are listed with "and" between their names. */
  lemma TwoNamed(x: string, y: string)
    ensures SignatureSentence([x, y]) == "It also matches known " + Readable(x) + " and " + Readable(y) + "."
  {
    var named := NamedRules([x, y]);
    assert named[0] == Readable(x) && named[1] == Readable(y);
    assert named[..1] == [Readable(x)];
    assert Listing(named) == Readable(x) + " and " + Readable(y);
  }

  /** Two known rules are named by their phrases joined with "and". */
  lemma WhyTwoKnownRules(a: Rules.Rule, b: Rules.Rule)
    ensures SignatureSentence([a.Id(), b.Id()]) == "It also matches known " + Phrase(a) + " and " + Phrase(b) + "."
  {
    TwoNamed(a.Id(), b.Id());
    ReadableKnown(a);
    ReadableKnown(b);
  }
}

=== FILE: featureextractor.dfy ===
/** The numeric URL features of `feature_extractor.py`: character counts, ratios,
    an address test and a TLD risk grade, in one fixed column order. The Shannon
    entropy column needs a base-2 logarithm and is passed in as `entropy`. */
module FeatureExtractor {
  import opened Wrappers
  import opened Text
  import opened Schema
  import opened Signature
  import Url
  import Rules

  // ---------------------------------------------------------------- parsing

  /** What `_safe_parse` hands to `urlparse`: a path-only URL is put after the
      placeholder base. */
  function ParseTarget(url: string): string {
    if StartsWith(url, "/") then Url.LocalBase + url else url
  }

  /** `_safe_parse`: nothing for a non-string or a URL `urlparse` rejects. */
  function SafeParse(url: Value): (r: Option<Url.ParseResult>)
    ensures !url.Str? ==> r.None?
    ensures url.Str? ==> (r.Some? <==> Url.UrlParse(ParseTarget(url.s)).Success?)
    ensures r.Some? ==> r.value == Url.UrlParse(ParseTarget(url.s)).value
  {
    match url
    case Str(s) =>
      (match Url.UrlParse(ParseTarget(s))
       case Success(p) => Some(p)
       case Failure(_) => None)
    case _ => None
  }

  /** A path-only URL always parses, under the placeholder host. */
  lemma PathOnlyParses(url: string)
    requires url != [] && url[0] == '/'
    ensures SafeParse(Str(url)).Some?
    ensures SafeParse(Str(url)).value.netloc == Url.LocalHost
  {
    assert StartsWith(url, "/");
    Url.ParseLocal(url);
  }

  // ---------------------------------------------------------------- counters

  /** How many characters of `s` satisfy `p`: `sum(p(ch) for ch in s)`. */
  function CountWhere(s: string, p: char -> bool): (n: nat)
    ensures n <= |s|
    ensures n == 0 <==> forall i :: 0 <= i < |s| ==> !p(s[i])
    ensures n == |s| <==> forall i :: 0 <= i < |s| ==> p(s[i])
  {
    if s == [] then 0
    else
      var rest := CountWhere(s[1..], p);
      assert forall i :: 0 < i < |s| ==> s[1..][i - 1] == s[i];
      (if p(s[0]) then 1 else 0) + rest
  }

  /** Characters counted by two predicates that never hold together are counted at
      most once in all. */
  lemma {:induction false} CountDisjoint(s: string, p: char -> bool, q: char -> bool)
    requires forall c :: !(p(c) && q(c))
    ensures CountWhere(s, p) + CountWhere(s, q) <= |s|
    decreases |s|
  {
    if s != [] {
      CountDisjoint(s[1..], p, q);
    }
  }

  /** Counting distributes over concatenation: the count of two pieces in a row is
      the sum of their counts. */
  lemma {:induction false} CountWhereAppend(a: string, b: string, p: char -> bool)
    ensures CountWhere(a + b, p) == CountWhere(a, p) + CountWhere(b, p)
    decreases |a|
  {
    if a != [] {
      assert (a + b)[1..] == a[1..] + b;
      CountWhereAppend(a[1..], b, p);
    } else {
      assert a + b == b;
    }
  }

  /** A single character counts one exactly when it satisfies the predicate. */
  lemma CountWhereSingle(c: char, p: char -> bool)
    ensures CountWhere([c], p) == if p(c) then 1 else 0
  {
    assert [c][1..] == [];
  }

  /** `_count_digits`. */
  function CountDigits(text: string): (n: nat)
    ensures n <= |text|
    ensures n == 0 <==> forall i :: 0 <= i < |text| ==> !IsDigit(text[i])
    ensures n == |text| <==> forall i :: 0 <= i < |text| ==> IsDigit(text[i])
  {
    CountWhere(text, IsDigit)
  }

  /** A character the pattern `[^a-zA-Z0-9]` matches. */
  predicate IsSpecial(c: char) { !IsAlnum(c) }

  /** `_count_special`: characters outside `[a-zA-Z0-9]`. */
  function CountSpecial(text: string): (n: nat)
    ensures n <= |text|
    ensures n == 0 <==> forall i :: 0 <= i < |text| ==> IsAlnum(text[i])
    ensures n == |text| <==> forall i :: 0 <= i < |text| ==> !IsAlnum(text[i])
  {
    CountWhere(text, IsSpecial)
  }

  /** The upper-case letter count, `sum(ch.isupper() for ch in url)`. */
  function CountUpper(text: string): (n: nat)
    ensures n <= |text|
    ensures n == 0 <==> forall i :: 0 <= i < |text| ==> !IsUpper(text[i])
    ensures n == |text| <==> forall i :: 0 <= i < |text| ==> IsUpper(text[i])
  {
    CountWhere(text, IsUpper)
  }

  /** Each counter adds up over the pieces of a text. */
  lemma CountersAppend(a: string, b: string)
    ensures CountDigits(a + b) == CountDigits(a) + CountDigits(b)
    ensures CountSpecial(a + b) == CountSpecial(a) + CountSpecial(b)
    ensures CountUpper(a + b) == CountUpper(a) + CountUpper(b)
  {
    CountWhereAppend(a, b, IsDigit);
    CountWhereAppend(a, b, IsSpecial);
    CountWhereAppend(a, b, IsUpper);
  }

  /** Each counter counts a single character once exactly when it is of its
      class: a digit, a character outside `[a-zA-Z0-9]`, an upper-case letter. */
  lemma CountersSingle(c: char)
    ensures CountDigits([c]) == if IsDigit(c) then 1 else 0
    ensures CountSpecial([c]) == if IsAlnum(c) then 0 else 1
    ensures CountUpper([c]) == if IsUpper(c) then 1 else 0
  {
    CountWhereSingle(c, IsDigit);
    CountWhereSingle(c, IsSpecial);
    CountWhereSingle(c, IsUpper);
  }

  /** Digits and special characters are disjoint classes. */
  lemma DigitsAndSpecials(text: string)
    ensures CountDigits(text) + CountSpecial(text) <= |text|
  {
    CountDisjoint(text, IsDigit, IsSpecial);
  }

  /** `_count_keywords`: how many entries of `keywords` occur in the lower-cased
      text, each counted once however often it occurs. */
  function CountKeywords(text: string, keywords: seq<string>): (n: nat)
    ensures n <= |keywords|
  {
    |Present(Lower(text), keywords)|
  }

  /** The keyword count is positive exactly when the rule engine's keyword rule
      fires on the same URL. */
  lemma KeywordCountMatchesRule(url: string)
    ensures CountKeywords(url, Rules.Keywords) <= 9
    ensures CountKeywords(url, Rules.Keywords) > 0 <==> ContainsAny(Lower(url), Rules.Keywords)
  {
    PresentIffAny(Lower(url), Rules.Keywords);
  }

  // ---------------------------------------------------------------- address and TLD

  /** `part.isdigit()`: a non-empty run of digits. */
  predicate DigitWord(p: string) {
    |p| > 0 && forall i :: 0 <= i < |p| ==> IsDigit(p[i])
  }

  /** A digit run whose value is at most 255. */
  predicate OctetWord(p: string) {
    DigitWord(p) && DigitsValue(p) <= 255
  }

  /** `_has_ip`: 1 for a non-empty domain of exactly four dotted parts, each a digit
      run with value at most 255; 0 otherwise. A port is not cut off. */
  function HasIp(domain: string): (r: nat)
    ensures r <= 1
    ensures r == 1 ==> domain != "" && |Split(domain, '.')| == 4
  {
    if domain == "" then 0
    else
      var parts := Split(domain, '.');
      if |parts| == 4 && OctetWord(parts[0]) && OctetWord(parts[1]) && OctetWord(parts[2]) && OctetWord(parts[3])
      then 1 else 0
  }

  /** `int()` reads a digit run as its decimal value. */
  lemma DigitWordInt(p: string)
    requires DigitWord(p)
    ensures PyInt(p) == Some(DigitsValue(p))
  {
    StripByNoOp(p, IsSpace);
    assert IsDigitGroups(p);
  }

  /** A domain `_has_ip` accepts holds no colon. */
  lemma HasIpNoColon(domain: string)
    requires HasIp(domain) == 1
    ensures ':' !in domain
  {
    var parts := Split(domain, '.');
    assert forall i :: 0 <= i < |parts| ==> DigitWord(parts[i]);
    assert forall i :: 0 <= i < |parts| ==> ':' !in parts[i];
    JoinSplit(domain, '.');
    NotInJoin(parts, ".", ':');
  }

  /** Whatever `_has_ip` accepts, the rule engine's address test accepts too. */
  lemma HasIpIsIpv4(domain: string)
    requires HasIp(domain) == 1
    ensures Rules.IsIpv4(domain)
  {
    HasIpNoColon(domain);
    FindAbsent(domain, ':');
    assert Rules.HostName(domain) == domain;
    var parts := Split(domain, '.');
    DigitWordInt(parts[0]);
    DigitWordInt(parts[1]);
    DigitWordInt(parts[2]);
    DigitWordInt(parts[3]);
  }

  /** With a port the two address tests disagree: the rule engine cuts the port
      off and sees an address, `_has_ip` does not. */
  lemma PortSplitsAddressTests(a: nat, b: nat, c: nat, d: nat, port: string)
    requires a <= 255 && b <= 255 && c <= 255 && d <= 255
    ensures Rules.IsIpv4(Rules.Dotted(a, b, c, d) + ":" + port)
    ensures HasIp(Rules.Dotted(a, b, c, d) + ":" + port) == 0
  {
    Rules.DottedIsIpv4(a, b, c, d, port);
    var h := Rules.Dotted(a, b, c, d) + ":" + port;
    assert h[|Rules.Dotted(a, b, c, d)|] == ':';
    if HasIp(h) == 1 {
      HasIpNoColon(h);
    }
  }

  /** `_tld_risk`: 3 for a TLD on the high-risk list, 2 for one on the medium-risk
      list, 1 otherwise and for an empty or dotless domain. The TLD is whatever
      follows the last dot, port included. */
  function TldRisk(domain: string): (r: nat)
    ensures 1 <= r <= 3
    ensures '.' !in domain ==> r == 1
  {
    if domain == "" || '.' !in domain then 1
    else
      var tld := Lower(AfterLast(domain, '.'));
      if tld in Rules.HighTlds then 3
      else if tld in Rules.MediumTlds then 2
      else 1
  }

  /** Without a port, the risk grade and the rule engine's TLD check agree: the
      grade is raised exactly for an abused TLD, to 3 exactly for a high-risk one. */
  lemma TldRiskAgreesWithRules(host: string)
    requires ':' !in host
    ensures TldRisk(host) > 1 <==> Rules.IsAbusedTld(Rules.Tld(host))
    ensures TldRisk(host) == 3 <==> Rules.Tld(host) in Rules.HighTlds
  {
    FindAbsent(host, ':');
    assert Rules.HostName(host) == host;
    assert "" !in Rules.HighTlds && "" !in Rules.MediumTlds;
  }

  /** With a port the grade never rises: the port stays in the TLD text, which is
      then on neither list. */
  lemma PortHidesTld(host: string, port: string)
    requires '.' !in port
    ensures TldRisk(host + ":" + port) == 1
  {
    var d := host + ":" + port;
    if '.' in d {
      var t := Lower(AfterLast(d, '.'));
      LastLabelHoldsPort(host, port);
      assert forall x :: x in Rules.HighTlds || x in Rules.MediumTlds ==> ':' !in x;
    }
  }

  /** The text after the last dot of `host:port` holds the colon, when the port has
      no dot. */
  lemma LastLabelHoldsPort(host: string, port: string)
    requires '.' !in port
    requires '.' in host + ":" + port
    ensures ':' in Lower(AfterLast(host + ":" + port, '.'))
  {
    var d := host + ":" + port;
    var t := AfterLast(d, '.');
    assert d[|d| - |t|..] == t;
    assert forall k :: |host| <= k < |d| ==> d[k] != '.';
    var k :| 0 <= k < |d| && d[k] == '.';
    assert |t| < |d|;
    var p := |d| - |t| - 1;
    assert d[p] == '.';
    assert p < |host|;
    assert t[|host| - p - 1] == d[|host|] == ':';
    assert Lower(t)[|host| - p - 1] == ':';
  }

  // ---------------------------------------------------------------- the numeric row

  /** The feature columns, in the order `extract_features` writes them. */
  const Columns: seq<string> := [
    "url_length", "domain_length", "path_length", "query_length", "num_digits",
    "num_special_chars", "num_subdomains", "digit_ratio", "symbol_ratio",
    "uppercase_ratio", "shannon_entropy", "suspicious_keyword_count",
    "has_ip_address", "tld_risk_score", "label"]

  /** The numeric columns: every column but the label. */
  const NumericColumns: seq<string> := Columns[..14]

  /** One row of `extract_features`. */
  datatype NumericRow = NumericRow(
    urlLength: nat, domainLength: nat, pathLength: nat, queryLength: nat,
    numDigits: nat, numSpecial: nat, numSubdomains: nat,
    digitRatio: real, symbolRatio: real, upperRatio: real, entropy: real,
    keywordCount: nat, hasIp: nat, tldRisk: nat,
    target: Value)
  {
    /** The numeric cells in `NumericColumns` order. */
    function Values(): (v: seq<real>)
      ensures |v| == |NumericColumns|
    {
      [urlLength as real, domainLength as real, pathLength as real, queryLength as real,
       numDigits as real, numSpecial as real, numSubdomains as real,
       digitRatio, symbolRatio, upperRatio, entropy,
       keywordCount as real, hasIp as real, tldRisk as real]
    }
  }

  /** The label is the last column and the only one left out of the numeric ones. */
  lemma LabelLast()
    ensures |Columns| == 15 && Columns[14] == "label"
    ensures "label" !in NumericColumns
    ensures Columns == NumericColumns + ["label"]
  {
  }

  /** `count / url_length`, or 0 for an empty URL. */
  function Ratio(count: nat, length: nat): (r: real)
    ensures count <= length ==> 0.0 <= r <= 1.0
    ensures length == 0 ==> r == 0.0
    ensures length > 0 ==> r * (length as real) == count as real
  {
    if length == 0 then 0.0 else count as real / length as real
  }

  /** `num_subdomains`: dots beyond the first, for a non-empty domain. */
  function Subdomains(domain: string): (n: nat)
    ensures n < |domain| || n == 0
    ensures '.' !in domain ==> n == 0
    ensures '.' in domain ==> n + 1 == CountChar(domain, '.')
  {
    if domain == "" then 0
    else
      var dots := CountChar(domain, '.');
      if dots >= 1 then dots - 1 else 0
  }

  /** A row of the input frame: its `url` and `label` cells, either possibly
      missing. A missing URL reads as the empty string, a missing label as None. */
  datatype SourceRow = SourceRow(url: Option<Value>, target: Option<Value>)

  /** The features of one row, or nothing when `_safe_parse` gives nothing. */
  function ExtractRow(row: SourceRow, entropy: string -> real): (r: Option<NumericRow>)
    ensures r.Some? <==> SafeParse(row.url.GetOr(Str(""))).Some?
    ensures r.Some? ==> var url := row.url.GetOr(Str("")).s; var f := r.value;
      && f.urlLength == |url|
      && f.numDigits + f.numSpecial <= f.urlLength
      && 0.0 <= f.digitRatio <= 1.0 && 0.0 <= f.symbolRatio <= 1.0 && 0.0 <= f.upperRatio <= 1.0
      && f.keywordCount <= |Rules.Keywords|
      && f.hasIp <= 1 && 1 <= f.tldRisk <= 3
      && f.target == row.target.GetOr(Null)
    ensures r.Some? ==> var url := row.url.GetOr(Str("")).s; var p := SafeParse(row.url.GetOr(Str(""))).value; var f := r.value;
      && f.pathLength == |p.path| && f.queryLength == |p.query|
      && f.numDigits == CountDigits(url) && f.numSpecial == CountSpecial(url)
      && f.digitRatio == Ratio(f.numDigits, f.urlLength)
      && f.symbolRatio == Ratio(f.numSpecial, f.urlLength)
      && f.upperRatio == Ratio(CountUpper(url), f.urlLength)
      && f.keywordCount == CountKeywords(url, Rules.Keywords)
      && f.entropy == entropy(url)
  {
    var cell := row.url.GetOr(Str(""));
    match SafeParse(cell)
    case None => None
    case Some(p) =>
      var url := cell.s;
      var n := |url|;
      DigitsAndSpecials(url);
      Some(NumericRow(
        n, |p.netloc|, |p.path|, |p.query|,
        CountDigits(url), CountSpecial(url), Subdomains(p.netloc),
        Ratio(CountDigits(url), n), Ratio(CountSpecial(url), n), Ratio(CountUpper(url), n), entropy(url),
        CountKeywords(url, Rules.Keywords), HasIp(p.netloc), TldRisk(p.netloc),
        row.target.GetOr(Null)))
  }

  /** A path-only URL is graded on the placeholder host: no address, no risky TLD,
      no subdomain. */
  lemma PathOnlyFeatures(url: string, target: Option<Value>, entropy: string -> real)
    requires url != [] && url[0] == '/'
    ensures ExtractRow(SourceRow(Some(Str(url)), target), entropy).Some?
    ensures var f := ExtractRow(SourceRow(Some(Str(url)), target), entropy).value;
      f.domainLength == 13 && f.hasIp == 0 && f.tldRisk == 1 && f.numSubdomains == 0
  {
    PathOnlyParses(url);
    HostFeatures(SourceRow(Some(Str(url)), target), entropy);
    LocalHostGrades();
  }

  /** The grades of the placeholder host. */
  lemma LocalHostGrades()
    ensures |Url.LocalHost| == 13
    ensures HasIp(Url.LocalHost) == 0
    ensures TldRisk(Url.LocalHost) == 1
    ensures Subdomains(Url.LocalHost) == 0
  {
    Rules.LocalHostShape();
    Rules.LetterEndNotIpv4(Url.LocalHost);
    if HasIp(Url.LocalHost) == 1 {
      HasIpIsIpv4(Url.LocalHost);
    }
    TldRiskAgreesWithRules(Url.LocalHost);
    Rules.LocalHostBenign();
    LocalHostDots();
  }

  /** The placeholder host has one dot. */
  lemma LocalHostDots()
    ensures CountChar(Url.LocalHost, '.') == 1
  {
    var h := Url.LocalHost;
    assert h == "example" + "." + "local";
    CountCharAppend("example", ".", '.');
    CountCharAppend("example" + ".", "local", '.');
  }

  /** The domain columns are graded on the parsed network location alone. */
  lemma HostFeatures(row: SourceRow, entropy: string -> real)
    requires ExtractRow(row, entropy).Some?
    ensures var netloc := SafeParse(row.url.GetOr(Str(""))).value.netloc; var f := ExtractRow(row, entropy).value;
      && f.domainLength == |netloc| && f.hasIp == HasIp(netloc)
      && f.tldRisk == TldRisk(netloc) && f.numSubdomains == Subdomains(netloc)
  {
  }

  /** Each row graded on its own, parse failures kept as `None`. */
  function Graded(rows: seq<SourceRow>, entropy: string -> real): (r: seq<Option<NumericRow>>)
    ensures |r| == |rows| && forall i :: 0 <= i < |rows| ==> r[i] == ExtractRow(rows[i], entropy)
  {
    seq(|rows|, i requires 0 <= i < |rows| => ExtractRow(rows[i], entropy))
  }

  /** `extract_features`: the rows that parse, in order; rows that do not parse
      are dropped. */
  function ExtractFeatures(rows: seq<SourceRow>, entropy: string -> real): (r: seq<NumericRow>)
    ensures |r| <= |rows|
    ensures (forall i :: 0 <= i < |rows| ==> ExtractRow(rows[i], entropy).Some?) ==>
      |r| == |rows| && forall i :: 0 <= i < |rows| ==> r[i] == ExtractRow(rows[i], entropy).value
    ensures (forall i :: 0 <= i < |rows| ==> ExtractRow(rows[i], entropy).None?) ==> r == []
  {
    Somes(Graded(rows, entropy))
  }

  /** A feature row is in the output exactly when some input row yields it. */
  lemma ExtractFeaturesMembers(rows: seq<SourceRow>, entropy: string -> real, f: NumericRow)
    ensures f in ExtractFeatures(rows, entropy) <==> exists i :: 0 <= i < |rows| && ExtractRow(rows[i], entropy) == Some(f)
  {
    var g := Graded(rows, entropy);
    SomesMembers(g, f);
    if Some(f) in g {
      var i :| 0 <= i < |g| && g[i] == Some(f);
      assert ExtractRow(rows[i], entropy) == Some(f);
    }
    if exists i :: 0 <= i < |rows| && ExtractRow(rows[i], entropy) == Some(f) {
      var i :| 0 <= i < |rows| && ExtractRow(rows[i], entropy) == Some(f);
      assert g[i] == Some(f);
    }
  }

  /** Rows are graded one after another: the features of two runs of rows are
      those of the first run followed by those of the second. */
  lemma ExtractFeaturesAppend(rows: seq<SourceRow>, more: seq<SourceRow>, entropy: string -> real)
    ensures ExtractFeatures(rows + more, entropy) == ExtractFeatures(rows, entropy) + ExtractFeatures(more, entropy)
  {
    assert Graded(rows + more, entropy) == Graded(rows, entropy) + Graded(more, entropy) by {
      forall i | 0 <= i < |rows + more|
        ensures Graded(rows + more, entropy)[i] == (Graded(rows, entropy) + Graded(more, entropy))[i]
      {
        if i >= |rows| { assert (rows + more)[i] == more[i - |rows|]; }
      }
    }
    SomesAppend(Graded(rows, entropy), Graded(more, entropy));
  }

  /** A single row gives its feature row when it parses, and nothing otherwise. */
  lemma ExtractFeaturesSingle(row: SourceRow, entropy: string -> real)
    ensures ExtractFeatures([row], entropy) == if ExtractRow(row, entropy).Some? then [ExtractRow(row, entropy).value] else []
  {
    assert Graded([row], entropy) == [ExtractRow(row, entropy)];
    SomesSingle(ExtractRow(row, entropy));
  }
}

=== FILE: features.dfy ===
/** The per-event feature rows of `core/features.py`: for each event the parsed
    path and query, the URL length, and four boolean signals read off the URL. */
module Features {
  import opened Wrappers
  import opened Text
  import opened Schema
  import opened Signature
  import Url
  import Detector

  /** One feature row, carrying its event. */
  datatype EventFeatures = EventFeatures(
    event: Event,
    path: string,
    query: string,
    urlLength: nat,
    hasQuery: bool,
    hasExtension: bool,
    containsSql: bool,
    containsTraversal: bool,
    statusCode: Option<int>,
    sourceIp: Option<string>)

  /** The tokens of the `contains_sql` signal. */
  const SqlTokens: seq<string> := ["union", "select", "--", "' or"]

  /** The tokens of the `contains_traversal` signal: both slash directions. */
  const TraversalTokens: seq<string> := ["../", "..\\"]

  /** `"." in path.split("/")[-1] if path else False`. */
  predicate HasExtension(path: string)
    ensures HasExtension(path) <==> path != "" && '.' in AfterLast(path, '/')
  {
    SplitLastIsAfterLast(path, '/');
    var segments := Split(path, '/');
    path != "" && '.' in segments[|segments| - 1]
  }

  /** A dot at `i` with no slash after it: the dot lies in the last segment. */
  predicate LastSegmentDot(path: string, i: int) {
    0 <= i < |path| && path[i] == '.' && forall j :: i < j < |path| ==> path[j] != '/'
  }

  /** The last segment of a path holds a dot exactly when some dot has no slash
      after it, and an empty path has none. */
  lemma HasExtensionIff(path: string)
    ensures HasExtension(path) <==> exists i :: LastSegmentDot(path, i)
  {
    SplitLastIsAfterLast(path, '/');
    AfterLastDot(path);
  }

  lemma AfterLastDot(path: string)
    ensures '.' in AfterLast(path, '/') <==> exists i :: LastSegmentDot(path, i)
  {
    var t := AfterLast(path, '/');
    var n := |path| - |t|;
    assert forall k :: 0 <= k < |t| ==> t[k] == path[n + k];
    if '.' in t {
      var k :| 0 <= k < |t| && t[k] == '.';
      assert LastSegmentDot(path, n + k);
    }
    if exists i :: LastSegmentDot(path, i) {
      var i :| LastSegmentDot(path, i);
      assert i >= n;
      assert t[i - n] == '.';
    }
  }

  /** The row of one event, or the parser's error. */
  function EventRow(e: Event): (r: Result<EventFeatures, string>)
    ensures r.Failure? <==> Url.UrlParse(e.url).Failure?
    ensures r.Success? ==> var p := Url.UrlParse(e.url).value; var f := r.value;
      && f.event == e && f.path == p.path && f.query == p.query
      && f.urlLength == |e.url| && (f.hasQuery <==> p.query != "")
      && (f.hasExtension <==> exists i :: LastSegmentDot(p.path, i))
      && (f.containsSql <==> ContainsAny(Lower(e.url), SqlTokens))
      && (f.containsTraversal <==> ContainsAny(Lower(e.url), TraversalTokens))
      && f.statusCode == e.statusCode && f.sourceIp == e.sourceIp
  {
    match Url.UrlParse(e.url)
    case Failure(err) => Failure(err)
    case Success(p) =>
      HasExtensionIff(p.path);
      var lowered := Lower(e.url);
      Success(EventFeatures(e, p.path, p.query, |e.url|, p.query != "", HasExtension(p.path),
        ContainsAny(lowered, SqlTokens), ContainsAny(lowered, TraversalTokens), e.statusCode, e.sourceIp))
  }

  /** `extract_features`: one row per event, in order, each carrying its event; a
      URL the parser rejects aborts the whole batch. */
  function ExtractFeatures(events: seq<Event>): (r: Result<seq<EventFeatures>, string>)
    ensures r.Success? <==> forall i :: 0 <= i < |events| ==> Url.UrlParse(events[i].url).Success?
    ensures r.Success? ==> |r.value| == |events|
    ensures r.Success? ==> forall i :: 0 <= i < |events| ==> r.value[i] == EventRow(events[i]).value && r.value[i].event == events[i]
  {
    MapAll(events, EventRow)
  }

  /** Every SQL token also matches the stand-alone labeller's SQL signature, so a
      row flagged `contains_sql` is one that labeller calls an injection attempt
      of some kind. */
  lemma SqlTokensMatchDetector(url: string)
    requires ContainsAny(Lower(url), SqlTokens)
    ensures Detector.Matches(Detector.SqlInjection, Lower(url))
  {
    var s := Lower(url);
    var k :| 0 <= k < |SqlTokens| && Contains(s, SqlTokens[k]);
    if k == 0 {
      assert Detector.SqlWords[0] == SqlTokens[0];
    } else if k == 1 {
      assert Detector.SqlWords[1] == SqlTokens[1];
    } else if k == 2 {
      assert Detector.SqlWords[4] == SqlTokens[2];
    } else {
      var i :| 0 <= i <= |s| - 4 && OccursAt(s, "' or", i);
      QuoteOr(s, i);
    }
  }

  /** A quote, a space and "or" is what `'\s*or` looks for. */
  lemma QuoteOr(s: string, i: nat)
    requires OccursAt(s, "' or", i)
    ensures Detector.SqlMatch(s)
  {
    assert s[i..i + 4][0] == s[i] == '\'';
    assert s[i + 1] == ' ' && s[i + 2] == 'o' && s[i + 3] == 'r' by {
      assert s[i..i + 4][1] == s[i + 1];
      assert s[i..i + 4][2] == s[i + 2];
      assert s[i..i + 4][3] == s[i + 3];
    }
    assert SpaceRun(s, i + 1, i + 2);
    assert s[i + 2..i + 4] == "or";
    assert OccursAt(s, "or", i + 2);
    assert SpacedAt(s, i + 1, "or");
  }

  /** The backslash form of traversal is flagged here but not by the stand-alone
      labeller, whose traversal signature knows only the forward slash. */
  lemma BackslashTraversal()
    ensures ContainsAny(Lower("..\\"), TraversalTokens)
    ensures !Detector.Matches(Detector.DirectoryTraversal, Lower("..\\"))
  {
    var s := Lower("..\\");
    assert s == "..\\";
    assert OccursAt(s, TraversalTokens[1], 0);
    NotContainedByChar(s, "../", 2);
    NotContainedByChar(s, "%2e%2e%2f", 0);
  }
}

=== FILE: ingest.dfy ===
/** The row-to-event mapping of `core/ingest.py`: each CSV record becomes one
    `Event`, with the known columns read into fields and every other column kept
    as metadata. Reading the CSV itself is not modelled; the clock and the
    date parser are parameters. */
module Ingest {
  import opened Wrappers
  import opened Text
  import opened Schema

  /** `SUPPORTED_COLUMNS`: the columns read into event fields. */
  const SupportedColumns: set<string> :=
    {"timestamp", "ts", "ip", "source_ip", "method", "url", "status_code", "user_agent", "referer", "request_id"}

  /** A CSV record: column name to cell. Cells are scalars. */
  type Record = map<string, Value>

  predicate ScalarCells(row: Record) {
    forall k :: k in row ==> !row[k].List?
  }

  /** `row.get(key)`: `None` for a missing column. */
  function Get(row: Record, key: string): (v: Value)
    ensures key !in row ==> v == Null
    ensures key in row ==> v == row[key]
  {
    if key in row then row[key] else Null
  }

  /** `int(x)` on a float truncates toward zero. */
  function Truncate(x: real): (n: int)
    ensures x >= 0.0 ==> n as real <= x < n as real + 1.0
    ensures x < 0.0 ==> n as real - 1.0 < x <= n as real
  {
    if x >= 0.0 then x.Floor else -((-x).Floor)
  }

  /** `_maybe_int`: `None` for a missing cell or one `int()` rejects. */
  function MaybeInt(v: Value): (r: Option<int>)
    ensures IsNa(v) ==> r.None?
    ensures v.Str? ==> r == PyInt(v.s)
    ensures v.Num? ==> r == Some(Truncate(v.x))
    ensures v.Bool? ==> r == Some(if v.b then 1 else 0)
    ensures v.List? ==> r.None?
  {
    match v
    case Null => None
    case NaN => None
    case Str(s) => PyInt(s)
    case Num(x, _) => Some(Truncate(x))
    case Bool(b) => Some(if b then 1 else 0)
    case List(_) => None
  }

  /** A status code written as digits reads back as its value; a word reads as
      nothing. */
  lemma StatusCodeText(n: nat)
    ensures MaybeInt(Str(NatToString(n))) == Some(n)
    ensures MaybeInt(Str("abc")) == None
  {
    IntToStringRoundTrip(n);
    assert IsLetter("abc"[0]);
    if PyInt("abc").Some? {
      PyIntNoLetters("abc", 0);
    }
  }

  /** `_maybe_str`: `None` for a missing cell; otherwise its text stripped, with
      blank read as `None`. */
  function MaybeStr(v: Value): (r: Option<string>)
    requires !v.List?
    ensures IsNa(v) ==> r.None?
    ensures !IsNa(v) ==> (r.None? <==> Strip(Show(v)) == "")
    ensures r.Some? ==> r.value == Strip(Show(v)) && r.value != ""
  {
    if IsNa(v) then None
    else
      var text := Strip(Show(v));
      if text == "" then None else Some(text)
  }

  /** The source address: the `ip` column when it has text, else `source_ip`
      when that has, else "unknown". */
  function SourceIp(row: Record): (ip: string)
    requires ScalarCells(row)
    ensures MaybeStr(Get(row, "ip")).Some? ==> ip == MaybeStr(Get(row, "ip")).value
    ensures MaybeStr(Get(row, "ip")).None? && MaybeStr(Get(row, "source_ip")).Some? ==> ip == MaybeStr(Get(row, "source_ip")).value
    ensures MaybeStr(Get(row, "ip")).None? && MaybeStr(Get(row, "source_ip")).None? ==> ip == "unknown"
    ensures ip != ""
  {
    match MaybeStr(Get(row, "ip"))
    case Some(s) => s
    case None => MaybeStr(Get(row, "source_ip")).GetOr("unknown")
  }

  /** `(_maybe_str(method) or "GET").upper()`. */
  function Method(row: Record): (m: string)
    requires ScalarCells(row)
    ensures MaybeStr(Get(row, "method")).None? ==> m == "GET"
    ensures MaybeStr(Get(row, "method")).Some? ==> m == Upper(MaybeStr(Get(row, "method")).value)
    ensures forall i :: 0 <= i < |m| ==> !IsLower(m[i])
  {
    Upper(MaybeStr(Get(row, "method")).GetOr("GET"))
  }

  /** `str(row.get("url", "") or "")`: the text of a truthy cell, else "". */
  function UrlCell(row: Record): (u: string)
    requires ScalarCells(row)
    ensures !Truthy(Get(row, "url")) ==> u == ""
    ensures Truthy(Get(row, "url")) ==> u == Show(Get(row, "url"))
  {
    var v := Get(row, "url");
    if Truthy(v) then Show(v) else ""
  }

  /** `row.get("timestamp", row.get("ts"))`: the `timestamp` column whenever it
      exists, even with a missing value. */
  function TimestampCell(row: Record): (v: Value)
    ensures "timestamp" in row ==> v == row["timestamp"]
    ensures "timestamp" !in row ==> v == Get(row, "ts")
  {
    if "timestamp" in row then row["timestamp"] else Get(row, "ts")
  }

  /** `_parse_timestamp`: the current time for a missing value or one the date
      parser rejects. */
  function ParseTimestamp(v: Value, now: Timestamp, toDatetime: Value -> Option<Timestamp>): (t: Timestamp)
    ensures IsNa(v) ==> t == now
    ensures !IsNa(v) ==> t == toDatetime(v).GetOr(now)
  {
    if IsNa(v) then now else toDatetime(v).GetOr(now)
  }

  /** The columns that are not read into fields. */
  function Extra(row: Record): (m: map<string, Value>)
    ensures m.Keys == row.Keys - SupportedColumns
    ensures forall k :: k in m ==> m[k] == row[k]
  {
    map k | k in row && k !in SupportedColumns :: row[k]
  }

  /** The event for one record. */
  function RowEvent(row: Record, now: Timestamp, toDatetime: Value -> Option<Timestamp>): (e: Event)
    requires ScalarCells(row)
    ensures e.url == UrlCell(row)
    ensures e.timestamp == Some(ParseTimestamp(TimestampCell(row), now, toDatetime))
    ensures e.statusCode == MaybeInt(Get(row, "status_code"))
    ensures e.sourceIp == Some(SourceIp(row))
    ensures e.userAgent == MaybeStr(Get(row, "user_agent"))
    ensures e.httpMethod == Some(Method(row))
    ensures e.referer == MaybeStr(Get(row, "referer"))
    ensures e.requestId == MaybeStr(Get(row, "request_id"))
    ensures e.metadata == Extra(row)
  {
    Event(
      UrlCell(row),
      Some(ParseTimestamp(TimestampCell(row), now, toDatetime)),
      MaybeInt(Get(row, "status_code")),
      Some(SourceIp(row)),
      MaybeStr(Get(row, "user_agent")),
      Some(Method(row)),
      MaybeStr(Get(row, "referer")),
      MaybeStr(Get(row, "request_id")),
      Extra(row))
  }

  /** The event loop of `load_csv`: one event per record, in record order. */
  function LoadRows(rows: seq<Record>, now: Timestamp, toDatetime: Value -> Option<Timestamp>): (r: seq<Event>)
    requires forall i :: 0 <= i < |rows| ==> ScalarCells(rows[i])
    ensures |r| == |rows|
    ensures forall i :: 0 <= i < |rows| ==> r[i] == RowEvent(rows[i], now, toDatetime)
  {
    seq(|rows|, i requires 0 <= i < |rows| => RowEvent(rows[i], now, toDatetime))
  }

  /** No metadata key shadows a field: metadata and the supported columns are
      disjoint, and together they account for every column of the record. */
  lemma MetadataPartition(row: Record, now: Timestamp, toDatetime: Value -> Option<Timestamp>)
    requires ScalarCells(row)
    ensures var e := RowEvent(row, now, toDatetime);
      && e.metadata.Keys !! SupportedColumns
      && e.metadata.Keys + (row.Keys * SupportedColumns) == row.Keys
  {
  }

  /** Every ingested event has a non-empty source address and an upper-case
      method, so the session key never falls back to "unknown" because of a
      blank address. */
  lemma IngestedAddress(row: Record, now: Timestamp, toDatetime: Value -> Option<Timestamp>)
    requires ScalarCells(row)
    ensures var e := RowEvent(row, now, toDatetime);
      && e.sourceIp.Some? && e.sourceIp.value != ""
      && IpKey(e.sourceIp) == e.sourceIp.value
  {
  }
}

=== FILE: logpipeline.dfy ===
/** The log-triage pipeline of the top-level `pipeline.py`: every row's URL is
    reduced to its path and query, labelled by the stand-alone signature
    labeller, optionally relabelled by a classifier, and given an outcome and a
    priority from the response status. The classifier is a parameter: its
    predictions, or nothing when loading or predicting raised. */
module LogPipeline {
  import opened Wrappers
  import opened Text
  import opened Schema
  import Url
  import Detector

  /** `preprocess_url`: "" for a non-string; otherwise the path, a `?` and the
      query of the twice-decoded, lower-cased, stripped URL. Fails when the
      parser rejects the URL. */
  function PreprocessUrl(url: Value): (r: Result<string, string>)
    ensures !url.Str? ==> r == Success("")
    ensures url.Str? ==> (r.Success? <==> Url.UrlParse(Decoded(url.s)).Success?)
    ensures r.Success? && url.Str? ==> var p := Url.UrlParse(Decoded(url.s)).value;
      && r.value == p.path + "?" + p.query
      && '?' !in p.path && '#' !in r.value
  {
    match url
    case Str(s) =>
      (match Url.UrlParse(Decoded(s))
       case Failure(e) => Failure(e)
       case Success(p) =>
         Url.ParsedDelimiters(Decoded(s));
         Success(p.path + "?" + p.query))
    case _ => Success("")
  }

  /** `unquote(unquote(url)).lower().strip()`. */
  function Decoded(s: string): (r: string)
    ensures NoUpper(r)
  {
    var r := Strip(Lower(Url.Unquote(Url.Unquote(s))));
    StripKeepsNoUpper(Lower(Url.Unquote(Url.Unquote(s))));
    r
  }

  /** No ASCII capital letter anywhere. */
  predicate NoUpper(s: string) {
    forall c :: c in s ==> !IsUpper(c)
  }

  lemma StripKeepsNoUpper(s: string)
    requires forall i :: 0 <= i < |s| ==> !IsUpper(s[i])
    ensures NoUpper(Strip(s))
  {
    StripByWindow(s, IsSpace);
    var a := LeadCount(s, IsSpace);
    var r := Strip(s);
    forall c | c in r ensures !IsUpper(c) {
      var k :| 0 <= k < |r| && r[k] == c;
      assert r[k] == s[a + k];
    }
  }

  /** The result always holds a question mark, and the first one ends the path:
      the scheme, the host and the fragment are gone. */
  lemma PreprocessShape(url: string)
    requires PreprocessUrl(Str(url)).Success?
    ensures var r := PreprocessUrl(Str(url)).value; var p := Url.UrlParse(Decoded(url)).value;
      && '?' in r && Find(r, '?') == |p.path| && r[..|p.path|] == p.path
  {
    var p := Url.UrlParse(Decoded(url)).value;
    FirstQuestionMark(p.path, p.query);
  }

  lemma FirstQuestionMark(path: string, query: string)
    requires '?' !in path
    ensures var r := path + "?" + query;
      '?' in r && Find(r, '?') == |path| && r[..|path|] == path
  {
    var r := path + "?" + query;
    assert r[|path|] == '?';
    assert r[..|path|] == path;
    forall i | 0 <= i < |path| ensures r[i] != '?' {
      assert r[i] == path[i] && path[i] in path;
    }
  }

  /** `Final_Attack`: the signature label unless it is "Normal", else the
      classifier's prediction. */
  function FinalAttack(rule: string, ml: string): (r: string)
    ensures rule != "Normal" ==> r == rule
    ensures rule == "Normal" ==> r == ml
    ensures r == "Normal" <==> rule == "Normal" && ml == "Normal"
  {
    if rule != "Normal" then rule else ml
  }

  /** `status_code in [200, 302]`: pandas compares by numeric value. */
  predicate Succeeded(status: Value) {
    status.Num? && (status.x == 200.0 || status.x == 302.0)
  }

  /** `outcome`. */
  function Outcome(attack: string, status: Value): (r: string)
    ensures r == "Likely Successful" <==> attack != "Normal" && Succeeded(status)
    ensures r == "Attempt" <==> attack != "Normal" && !Succeeded(status)
    ensures r == "Benign" <==> attack == "Normal"
  {
    if attack != "Normal" && Succeeded(status) then "Likely Successful"
    else if attack != "Normal" then "Attempt"
    else "Benign"
  }

  /** `priority`. */
  function Priority(outcome: string, attack: string): (r: string)
    ensures outcome == "Likely Successful" ==> r == "High"
    ensures outcome != "Likely Successful" && attack != "Normal" ==> r == "Medium"
    ensures outcome != "Likely Successful" && attack == "Normal" ==> r == "Low"
  {
    if outcome == "Likely Successful" then "High"
    else if attack != "Normal" then "Medium"
    else "Low"
  }

  /** Read together, outcome and priority agree: High exactly for a likely
      success, Low exactly for no attack, Medium for an attempt. */
  lemma PriorityTable(attack: string, status: Value)
    ensures var o := Outcome(attack, status); var pr := Priority(o, attack);
      && (pr == "High" <==> o == "Likely Successful")
      && (pr == "Low" <==> attack == "Normal")
      && (pr == "Medium" <==> o == "Attempt")
      && (pr == "Low" <==> o == "Benign")
  {
  }

  /** A row of the input frame: its `url` and `status_code` cells. */
  datatype LogRow = LogRow(url: Value, status: Value)

  /** An output row: the input row unchanged plus the five derived columns. */
  datatype Triaged = Triaged(
    row: LogRow,
    cleanUrl: string,
    ruleDetection: string,
    mlPrediction: string,
    finalAttack: string,
    outcome: string,
    priority: string)

  /** The classifier's column: its predictions when it produced one per row,
      "Normal" everywhere when it raised or gave a column of the wrong length
      (the assignment then raises inside the same `try`). */
  function MlColumn(n: nat, predictions: Option<seq<string>>): (r: seq<string>)
    ensures |r| == n
    ensures predictions.Some? && |predictions.value| == n ==> r == predictions.value
    ensures !(predictions.Some? && |predictions.value| == n) ==> forall i :: 0 <= i < n ==> r[i] == "Normal"
  {
    if predictions.Some? && |predictions.value| == n then predictions.value
    else seq(n, _ => "Normal")
  }

  /** The cleaned URLs of all rows, or the first parser failure. */
  function CleanColumn(rows: seq<LogRow>): (r: Result<seq<string>, string>)
    ensures r.Success? <==> forall i :: 0 <= i < |rows| ==> PreprocessUrl(rows[i].url).Success?
    ensures r.Success? ==> |r.value| == |rows|
    ensures r.Success? ==> forall i :: 0 <= i < |rows| ==> r.value[i] == PreprocessUrl(rows[i].url).value
  {
    MapAll(rows, (row: LogRow) => PreprocessUrl(row.url))
  }

  /** One output row from its parts. */
  function Triage(row: LogRow, clean: string, ml: string): (t: Triaged)
    ensures t.row == row && t.cleanUrl == clean && t.mlPrediction == ml
    ensures t.ruleDetection == Detector.DetectAttack(Str(clean))
    ensures t.finalAttack == FinalAttack(t.ruleDetection, ml)
    ensures t.outcome == Outcome(t.finalAttack, row.status)
    ensures t.priority == Priority(t.outcome, t.finalAttack)
  {
    var rule := Detector.DetectAttack(Str(clean));
    var final := FinalAttack(rule, ml);
    var outcome := Outcome(final, row.status);
    Triaged(row, clean, rule, ml, final, outcome, Priority(outcome, final))
  }

  /** `apply_pipeline`: one output row per input row, in order, each carrying its
      input row unchanged. */
  function ApplyPipeline(rows: seq<LogRow>, predictions: Option<seq<string>>): (r: Result<seq<Triaged>, string>)
    ensures r.Success? <==> CleanColumn(rows).Success?
    ensures r.Success? ==> |r.value| == |rows|
    ensures r.Success? ==> forall i :: 0 <= i < |rows| ==>
      r.value[i] == Triage(rows[i], CleanColumn(rows).value[i], MlColumn(|rows|, predictions)[i])
  {
    match CleanColumn(rows)
    case Failure(e) => Failure(e)
    case Success(clean) => Success(ZipWith(rows, ZipWith(clean, MlColumn(|rows|, predictions), (c: string, m: string) => (c, m)),
                                           (row: LogRow, cm: (string, string)) => Triage(row, cm.0, cm.1)))
  }

  /** When the classifier is unavailable every prediction is "Normal", so a row is
      an attack exactly when its signature label is one. */
  lemma NoModelRulesDecide(rows: seq<LogRow>, i: nat)
    requires ApplyPipeline(rows, None).Success? && i < |rows|
    ensures var t := ApplyPipeline(rows, None).value[i];
      && t.mlPrediction == "Normal" && t.finalAttack == t.ruleDetection
      && (t.priority == "Low" <==> t.ruleDetection == "Normal")
  {
    var t := ApplyPipeline(rows, None).value[i];
    PriorityTable(t.finalAttack, rows[i].status);
  }
}

=== FILE: ml.dfy ===
/** The glue around the URL classifier in `core/ml.py`: loading the model once,
    building the numeric part of its input, reading the malicious probability
    out of whatever the model returns, thresholding it, and attaching the
    results to events. The classifier, the TF-IDF vectoriser and the sigmoid stay
    opaque: they are parameters. */
module Ml {
  import opened Wrappers
  import opened Text
  import opened Schema
  import FeatureExtractor

  const MaliciousClass: string := "malicious"
  const BenignClass: string := "benign"

  /** What goes wrong: a missing model file, or an index the model's output does
      not have (`IndexError`/`ValueError`). */
  datatype MlError = FileNotFound | BadShape

  // ---------------------------------------------------------------- loading

  /** `_load_model_and_vectorizer`: the cached pair when there is one; otherwise
      the pair read from disk (`None` for a missing file), which becomes the
      cache. Returns the outcome and the new cache. */
  function Load<M, V>(cache: Option<(M, V)>, modelFile: Option<M>, vectorizerFile: Option<V>)
    : (r: (Result<(M, V), MlError>, Option<(M, V)>))
    ensures cache.Some? ==> r.0 == Success(cache.value) && r.1 == cache
    ensures cache.None? && (modelFile.None? || vectorizerFile.None?) ==> r.0 == Failure(FileNotFound) && r.1 == None
    ensures cache.None? && modelFile.Some? && vectorizerFile.Some? ==>
      r.0 == Success((modelFile.value, vectorizerFile.value))
    ensures r.0.Success? <==> r.1.Some?
    ensures r.0.Success? ==> r.1 == Some(r.0.value)
  {
    if cache.Some? then (Success(cache.value), cache)
    else if modelFile.None? || vectorizerFile.None? then (Failure(FileNotFound), None)
    else
      var pair := (modelFile.value, vectorizerFile.value);
      (Success(pair), Some(pair))
  }

  /** After one successful load every later load returns the same pair and keeps
      the cache, whatever is on disk by then. */
  lemma LoadOnce<M, V>(cache: Option<(M, V)>, m1: Option<M>, v1: Option<V>, m2: Option<M>, v2: Option<V>)
    requires Load(cache, m1, v1).0.Success?
    ensures var first := Load(cache, m1, v1);
      Load(first.1, m2, v2) == first
  {
  }

  // ---------------------------------------------------------------- the numeric matrix

  /** `[c for c in cols if c != "label"]`. */
  function DropLabel(cols: seq<string>): (r: seq<string>)
    ensures "label" !in r
    ensures forall c :: c in r <==> c in cols && c != "label"
  {
    if cols == [] then []
    else (if cols[0] == "label" then [] else [cols[0]]) + DropLabel(cols[1..])
  }

  /** `_numeric_columns`: the extractor's columns without the label are exactly
      the fourteen numeric ones, in order. */
  lemma {:induction false} NumericColumnsDerived()
    ensures DropLabel(FeatureExtractor.Columns) == FeatureExtractor.NumericColumns
  {
    var cols := FeatureExtractor.Columns;
    FeatureExtractor.LabelLast();
    DropLabelAppend(FeatureExtractor.NumericColumns, ["label"]);
    DropLabelNoOp(FeatureExtractor.NumericColumns);
    assert DropLabel(["label"]) == [];
  }

  lemma {:induction false} DropLabelAppend(a: seq<string>, b: seq<string>)
    ensures DropLabel(a + b) == DropLabel(a) + DropLabel(b)
  {
    if a != [] {
      assert (a + b)[0] == a[0] && (a + b)[1..] == a[1..] + b;
      DropLabelAppend(a[1..], b);
      var h := if a[0] == "label" then [] else [a[0]];
      assert DropLabel(a + b) == h + (DropLabel(a[1..]) + DropLabel(b));
    } else {
      assert a + b == b;
    }
  }

  lemma {:induction false} DropLabelNoOp(cols: seq<string>)
    requires "label" !in cols
    ensures DropLabel(cols) == cols
  {
    if cols != [] {
      assert cols[0] in cols;
      assert forall c :: c in cols[1..] ==> c in cols;
      DropLabelNoOp(cols[1..]);
    }
  }

  /** The numeric row of one URL: the extractor's cells in column order, or all
      zeros when the extractor gives no row (a non-string or unparsable URL). */
  function MatrixRow(url: Value, entropy: string -> real): (v: seq<real>)
    ensures |v| == |FeatureExtractor.NumericColumns|
    ensures var rows := FeatureExtractor.ExtractFeatures([FeatureExtractor.SourceRow(Some(url), Some(Null))], entropy);
      && (rows == [] ==> forall k :: 0 <= k < |v| ==> v[k] == 0.0)
      && (rows != [] ==> v == rows[0].Values())
  {
    var rows := FeatureExtractor.ExtractFeatures([FeatureExtractor.SourceRow(Some(url), Some(Null))], entropy);
    if rows == [] then seq(|FeatureExtractor.NumericColumns|, _ => 0.0)
    else rows[0].Values()
  }

  /** `_build_numeric_matrix`: one row per URL, in order. */
  function NumericMatrix(urls: seq<Value>, entropy: string -> real): (m: seq<seq<real>>)
    ensures |m| == |urls|
    ensures forall i :: 0 <= i < |urls| ==> m[i] == MatrixRow(urls[i], entropy)
  {
    seq(|urls|, i requires 0 <= i < |urls| => MatrixRow(urls[i], entropy))
  }

  /** A URL the extractor cannot read gets the zero row. */
  lemma NonStringZeroRow(url: Value, entropy: string -> real)
    requires !url.Str?
    ensures forall k :: 0 <= k < |MatrixRow(url, entropy)| ==> MatrixRow(url, entropy)[k] == 0.0
  {
    var row := FeatureExtractor.SourceRow(Some(url), Some(Null));
    assert FeatureExtractor.ExtractRow(row, entropy).None?;
    assert FeatureExtractor.ExtractFeatures([row], entropy) == [];
  }

  // ---------------------------------------------------------------- reading the model's output

  /** The scores of `decision_function`: one per sample, or one row per sample. */
  datatype Scores = Flat(values: seq<real>) | PerClass(rows: seq<seq<real>>)

  /** What the classifier offers, in the order `_malicious_probs` asks for it:
      class probabilities, decision scores, or only hard labels. */
  datatype ModelOutput =
    | Proba(classes: seq<string>, proba: seq<seq<real>>)
    | Decision(classes: seq<string>, scores: Scores)
    | Hard(predictions: seq<string>)

  /** `classes.index(x)`, or -1 when absent. */
  function IndexOf(xs: seq<string>, x: string): (i: int)
    ensures -1 <= i < |xs|
    ensures i < 0 <==> x !in xs
    ensures i >= 0 ==> xs[i] == x && forall j :: 0 <= j < i ==> xs[j] != x
  {
    if xs == [] then -1
    else if xs[0] == x then 0
    else
      var k := IndexOf(xs[1..], x);
      assert forall j :: 0 < j < |xs| ==> xs[j] == xs[1..][j - 1];
      if k < 0 then -1 else k + 1
  }

  /** The column the probability is read from: the "malicious" class when the
      model knows it, else the last one (Python index -1). */
  function ClassColumn(classes: seq<string>): (c: int)
    ensures MaliciousClass in classes ==> (0 <= c < |classes| && classes[c] == MaliciousClass
      && forall j :: 0 <= j < c ==> classes[j] != MaliciousClass)
    ensures MaliciousClass !in classes ==> c == -1
  {
    IndexOf(classes, MaliciousClass)
  }

  /** Python's `row[c]`, negative indices counting from the end. */
  function At(row: seq<real>, c: int): (r: Result<real, MlError>)
    ensures r.Success? <==> -|row| <= c < |row|
    ensures 0 <= c < |row| ==> r == Success(row[c])
    ensures -|row| <= c < 0 ==> r == Success(row[|row| + c])
    ensures r.Failure? ==> r.error == BadShape
  {
    if 0 <= c < |row| then Success(row[c])
    else if -|row| <= c < 0 then Success(row[|row| + c])
    else Failure(BadShape)
  }

  /** `matrix[:, c]`. */
  function ColumnOf(matrix: seq<seq<real>>, c: int): (r: Result<seq<real>, MlError>)
    ensures r.Success? <==> forall i :: 0 <= i < |matrix| ==> At(matrix[i], c).Success?
    ensures r.Success? ==> |r.value| == |matrix| && forall i :: 0 <= i < |matrix| ==> r.value[i] == At(matrix[i], c).value
    ensures r.Failure? ==> r.error == BadShape
  {
    MapAll(matrix, (row: seq<real>) => At(row, c))
  }

  /** The largest entry of a row; numpy refuses an empty one. */
  function MaxOf(row: seq<real>): (r: Result<real, MlError>)
    ensures r.Success? <==> row != []
    ensures r.Success? ==> r.value in row && forall k :: 0 <= k < |row| ==> row[k] <= r.value
    ensures r.Failure? ==> r.error == BadShape
  {
    if row == [] then Failure(BadShape)
    else if |row| == 1 then Success(row[0])
    else
      var m := MaxOf(row[1..]).value;
      assert forall k :: 1 <= k < |row| ==> row[k] == row[1..][k - 1];
      Success(if row[0] >= m then row[0] else m)
  }

  /** `scores.max(axis=1)`. */
  function RowMaxima(rows: seq<seq<real>>): (r: Result<seq<real>, MlError>)
    ensures r.Success? <==> forall i :: 0 <= i < |rows| ==> rows[i] != []
    ensures r.Success? ==> |r.value| == |rows| && forall i :: 0 <= i < |rows| ==> r.value[i] == MaxOf(rows[i]).value
    ensures r.Failure? ==> r.error == BadShape
  {
    MapAll(rows, MaxOf)
  }

  /** The per-sample decision score of the "malicious" class, or the largest one. */
  function DecisionScores(classes: seq<string>, scores: Scores): (r: Result<seq<real>, MlError>)
    ensures scores.Flat? ==> r == Success(scores.values)
    ensures scores.PerClass? && MaliciousClass in classes ==> r == ColumnOf(scores.rows, ClassColumn(classes))
    ensures scores.PerClass? && MaliciousClass !in classes ==> r == RowMaxima(scores.rows)
    ensures r.Failure? ==> r.error == BadShape
  {
    match scores
    case Flat(values) => Success(values)
    case PerClass(rows) =>
      if MaliciousClass in classes then ColumnOf(rows, ClassColumn(classes)) else RowMaxima(rows)
  }

  /** `1.0` for a hard "malicious" label, `0.0` for any other. */
  function HardProbability(p: string): (r: real)
    ensures r == 1.0 <==> p == MaliciousClass
    ensures r == 0.0 <==> p != MaliciousClass
  {
    if p == MaliciousClass then 1.0 else 0.0
  }

  /** `_malicious_probs`: the malicious probability of every sample. */
  function MaliciousProbs(out: ModelOutput, sigmoid: real -> real): (r: Result<seq<real>, MlError>)
    ensures out.Proba? ==> r == ColumnOf(out.proba, ClassColumn(out.classes))
    ensures out.Decision? ==> (r.Success? <==> DecisionScores(out.classes, out.scores).Success?)
    ensures out.Decision? && r.Success? ==> var s := DecisionScores(out.classes, out.scores).value;
      |r.value| == |s| && forall i :: 0 <= i < |s| ==> r.value[i] == sigmoid(s[i])
    ensures out.Hard? ==> r.Success? && |r.value| == |out.predictions|
    ensures out.Hard? ==> forall i :: 0 <= i < |out.predictions| ==> r.value[i] == HardProbability(out.predictions[i])
    ensures r.Failure? ==> r.error == BadShape
  {
    match out
    case Proba(classes, proba) => ColumnOf(proba, ClassColumn(classes))
    case Decision(classes, scores) =>
      (match DecisionScores(classes, scores)
       case Failure(e) => Failure(e)
       case Success(s) => Success(seq(|s|, i requires 0 <= i < |s| => sigmoid(s[i]))))
    case Hard(predictions) =>
      Success(seq(|predictions|, i requires 0 <= i < |predictions| => HardProbability(predictions[i])))
  }

  /** When the classes include "malicious", the probabilities are that class's
      column, not the last one. */
  lemma ProbaReadsMaliciousColumn(classes: seq<string>, proba: seq<seq<real>>, j: nat)
    requires j < |classes| && classes[j] == MaliciousClass
    requires forall k :: 0 <= k < j ==> classes[k] != MaliciousClass
    requires forall i :: 0 <= i < |proba| ==> |proba[i]| == |classes|
    ensures MaliciousProbs(Proba(classes, proba), x => x).Success?
    ensures forall i :: 0 <= i < |proba| ==> MaliciousProbs(Proba(classes, proba), x => x).value[i] == proba[i][j]
  {
    assert ClassColumn(classes) == j;
  }

  /** Without a "malicious" class the last column is read. */
  lemma ProbaReadsLastColumn(classes: seq<string>, proba: seq<seq<real>>)
    requires MaliciousClass !in classes
    requires forall i :: 0 <= i < |proba| ==> proba[i] != []
    ensures MaliciousProbs(Proba(classes, proba), x => x).Success?
    ensures forall i :: 0 <= i < |proba| ==> MaliciousProbs(Proba(classes, proba), x => x).value[i] == proba[i][|proba[i]| - 1]
  {
  }

  // ---------------------------------------------------------------- thresholding

  /** One result of `predict_urls`. */
  datatype Prediction = Prediction(url: Value, verdict: string, probability: real)

  /** "malicious" from probability one half up, "benign" below. */
  function LabelFor(p: real): (verdict: string)
    ensures verdict == MaliciousClass <==> p >= 0.5
    ensures verdict == BenignClass <==> p < 0.5
  {
    if p >= 0.5 then MaliciousClass else BenignClass
  }

  /** The threshold is monotone: a more probable sample is never labelled benign
      when a less probable one is labelled malicious. */
  lemma LabelMonotone(p: real, q: real)
    requires p <= q && LabelFor(p) == MaliciousClass
    ensures LabelFor(q) == MaliciousClass
  {
  }

  /** The loop of `predict_urls`: URLs zipped with their probabilities. */
  function Thresholded(urls: seq<Value>, probs: seq<real>): (r: seq<Prediction>)
    ensures |r| == if |urls| <= |probs| then |urls| else |probs|
    ensures forall i :: 0 <= i < |r| ==> (r[i].url == urls[i] && r[i].probability == probs[i]
      && (r[i].verdict == MaliciousClass <==> probs[i] >= 0.5)
      && (r[i].verdict == BenignClass <==> probs[i] < 0.5))
  {
    var n := if |urls| <= |probs| then |urls| else |probs|;
    seq(n, i requires 0 <= i < n => Prediction(urls[i], LabelFor(probs[i]), probs[i]))
  }

  /** A model with hard labels only: each URL is labelled malicious exactly when
      the model said so, with probability 1 or 0. */
  lemma HardLabelsKept(urls: seq<Value>, predictions: seq<string>, sigmoid: real -> real)
    requires |predictions| == |urls|
    ensures var r := Thresholded(urls, MaliciousProbs(Hard(predictions), sigmoid).value);
      |r| == |urls| && forall i :: 0 <= i < |urls| ==>
        (r[i].verdict == MaliciousClass <==> predictions[i] == MaliciousClass)
        && (r[i].probability == 1.0 || r[i].probability == 0.0)
  {
  }

  /** The opaque steps of inference: TF-IDF on the URL texts, stacking with the
      numeric matrix, and the classifier itself. */
  type Classifier<!M, !V> = (M, V, seq<seq<real>>, seq<Value>) -> ModelOutput

  /** `predict_urls`: load (or reuse) the model, build its input, read the
      probabilities and threshold them. Returns the outcome and the new cache. */
  function PredictUrls<M, V>(cache: Option<(M, V)>, modelFile: Option<M>, vectorizerFile: Option<V>,
                             urls: seq<Value>, classify: Classifier<M, V>, sigmoid: real -> real,
                             entropy: string -> real)
    : (r: (Result<seq<Prediction>, MlError>, Option<(M, V)>))
    ensures r.1 == Load(cache, modelFile, vectorizerFile).1
    ensures Load(cache, modelFile, vectorizerFile).0.Failure? ==> r.0 == Failure(FileNotFound)
    ensures r.0.Success? ==> |r.0.value| <= |urls|
    ensures r.0.Success? ==> forall i :: 0 <= i < |r.0.value| ==> (r.0.value[i].url == urls[i]
      && (r.0.value[i].verdict == MaliciousClass <==> r.0.value[i].probability >= 0.5)
      && (r.0.value[i].verdict == BenignClass <==> r.0.value[i].probability < 0.5))
    ensures Load(cache, modelFile, vectorizerFile).0.Success? ==>
      var loaded := Load(cache, modelFile, vectorizerFile).0.value;
      var probs := MaliciousProbs(classify(loaded.0, loaded.1, NumericMatrix(urls, entropy), urls), sigmoid);
      && (probs.Failure? ==> r.0 == Failure(probs.error))
      && (probs.Success? ==> (r.0.Success?
        && (|probs.value| >= |urls| ==> |r.0.value| == |urls|)
        && |r.0.value| <= |probs.value|
        && forall i :: 0 <= i < |r.0.value| ==> r.0.value[i].probability == probs.value[i]))
  {
    var (loaded, cache') := Load(cache, modelFile, vectorizerFile);
    match loaded
    case Failure(e) => (Failure(e), cache')
    case Success((model, vectorizer)) =>
      var out := classify(model, vectorizer, NumericMatrix(urls, entropy), urls);
      match MaliciousProbs(out, sigmoid)
      case Failure(e) => (Failure(e), cache')
      case Success(probs) => (Success(Thresholded(urls, probs)), cache')
  }

  // ---------------------------------------------------------------- ml_predict

  /** The URL classified for an event: the metadata's `clean_url`, else its
      `decoded_url`, else the event's own URL (the first truthy one). */
  function UrlFor(e: Event): (r: Value)
    ensures "clean_url" in e.metadata && Truthy(e.metadata["clean_url"]) ==> r == e.metadata["clean_url"]
    ensures (!("clean_url" in e.metadata && Truthy(e.metadata["clean_url"]))
      && "decoded_url" in e.metadata && Truthy(e.metadata["decoded_url"])) ==> r == e.metadata["decoded_url"]
    ensures (!("clean_url" in e.metadata && Truthy(e.metadata["clean_url"]))
      && !("decoded_url" in e.metadata && Truthy(e.metadata["decoded_url"]))) ==> r == Str(e.url)
  {
    match TruthyEntry(e.metadata, "clean_url")
    case Some(v) => v
    case None => TruthyEntry(e.metadata, "decoded_url").GetOr(Str(e.url))
  }

  /** The URLs `ml_predict` classifies, one per event and in event order. */
  function EventUrls(events: seq<Event>): (urls: seq<Value>)
    ensures |urls| == |events|
    ensures forall i :: 0 <= i < |events| ==> urls[i] == UrlFor(events[i])
  {
    seq(|events|, i requires 0 <= i < |events| => UrlFor(events[i]))
  }

  /** The cleaned URL wins over the event's own whenever it is present. */
  lemma CleanUrlWins(e: Event, clean: string)
    requires clean != ""
    ensures UrlFor(e.(metadata := e.metadata["clean_url" := Str(clean)])) == Str(clean)
  {
  }

  /** The entry for one event when the model is missing. */
  function FallbackEntry(e: Event): (m: MlEntry)
    ensures m.event == e && m.predicted == "Normal" && m.score == Some(0.05)
    ensures m.proba == [(MaliciousClass, 0.05), (BenignClass, 0.95)]
  {
    MlEntry(e, "Normal", Some(0.05), [(MaliciousClass, 0.05), (BenignClass, 0.95)], None)
  }

  /** The entry for one event from its prediction: benign probability is the
      complement of the malicious one. */
  function EntryFor(e: Event, p: Prediction): (m: MlEntry)
    ensures m.event == e && m.predicted == p.verdict && m.score == Some(p.probability)
    ensures |m.proba| == 2 && m.proba[0] == (MaliciousClass, p.probability)
    ensures m.proba[1].0 == BenignClass && m.proba[0].1 + m.proba[1].1 == 1.0
  {
    MlEntry(e, p.verdict, Some(p.probability), [(MaliciousClass, p.probability), (BenignClass, 1.0 - p.probability)], None)
  }

  /** `ml_predict` given the outcome of `predict_urls`: a missing model gives the
      fallback entry for every event; any other failure propagates; otherwise the
      events are zipped with their predictions. */
  function Entries(events: seq<Event>, preds: Result<seq<Prediction>, MlError>): (r: Result<seq<MlEntry>, MlError>)
    ensures preds == Failure(FileNotFound) ==> (r.Success? && |r.value| == |events|
      && forall i :: 0 <= i < |events| ==> r.value[i] == FallbackEntry(events[i]))
    ensures preds == Failure(BadShape) ==> r == Failure(BadShape)
    ensures preds.Success? ==> (r.Success?
      && |r.value| == (if |events| <= |preds.value| then |events| else |preds.value|)
      && forall i :: 0 <= i < |r.value| ==> r.value[i] == EntryFor(events[i], preds.value[i]))
  {
    match preds
    case Failure(FileNotFound) => Success(seq(|events|, i requires 0 <= i < |events| => FallbackEntry(events[i])))
    case Failure(e) => Failure(e)
    case Success(ps) =>
      var n := if |events| <= |ps| then |events| else |ps|;
      Success(seq(n, i requires 0 <= i < n => EntryFor(events[i], ps[i])))
  }

  /** `ml_predict`: pick each event's URL, predict, and attach the results. Without
      a model every event is reported "Normal" with malicious probability 0.05;
      with one, each entry carries its event and a verdict that agrees with its
      probability. */
  function MlPredict<M, V>(events: seq<Event>, cache: Option<(M, V)>, modelFile: Option<M>,
                           vectorizerFile: Option<V>, classify: Classifier<M, V>, sigmoid: real -> real,
                           entropy: string -> real)
    : (r: (Result<seq<MlEntry>, MlError>, Option<(M, V)>))
    ensures r.1 == Load(cache, modelFile, vectorizerFile).1
    ensures Load(cache, modelFile, vectorizerFile).0.Failure? ==> (r.0.Success? && |r.0.value| == |events|
      && forall i :: 0 <= i < |events| ==> r.0.value[i] == FallbackEntry(events[i]))
    ensures Load(cache, modelFile, vectorizerFile).0.Success? && r.0.Success? ==> (|r.0.value| <= |events|
      && forall i :: 0 <= i < |r.0.value| ==> (r.0.value[i].event == events[i] && r.0.value[i].score.Some?
        && (r.0.value[i].predicted == MaliciousClass <==> r.0.value[i].score.value >= 0.5)
        && (r.0.value[i].predicted == BenignClass <==> r.0.value[i].score.value < 0.5)))
    ensures Load(cache, modelFile, vectorizerFile).0.Success? ==>
      var loaded := Load(cache, modelFile, vectorizerFile).0.value;
      var urls := EventUrls(events);
      var probs := MaliciousProbs(classify(loaded.0, loaded.1, NumericMatrix(urls, entropy), urls), sigmoid);
      && (probs.Failure? ==> r.0 == Failure(probs.error))
      && (probs.Success? ==> (r.0.Success?
        && (|probs.value| >= |events| ==> |r.0.value| == |events|)
        && |r.0.value| <= |probs.value|
        && forall i :: 0 <= i < |r.0.value| ==> r.0.value[i].score == Some(probs.value[i])))
    ensures r.0 == Entries(events, PredictUrls(cache, modelFile, vectorizerFile, EventUrls(events), classify, sigmoid, entropy).0)
  {
    var urls := EventUrls(events);
    var predicted := PredictUrls(cache, modelFile, vectorizerFile, urls, classify, sigmoid, entropy);
    if predicted.0.Success? then
      EntriesAgree(events, predicted.0.value);
      (Entries(events, predicted.0), predicted.1)
    else (Entries(events, predicted.0), predicted.1)
  }

  /** Entries built from thresholded predictions carry their events and verdicts
      that agree with their scores. */
  lemma EntriesAgree(events: seq<Event>, ps: seq<Prediction>)
    requires forall i :: 0 <= i < |ps| ==>
      && (ps[i].verdict == MaliciousClass <==> ps[i].probability >= 0.5)
      && (ps[i].verdict == BenignClass <==> ps[i].probability < 0.5)
    ensures var r := Entries(events, Success(ps)).value;
      && |r| <= |events|
      && forall i :: 0 <= i < |r| ==> (r[i].event == events[i] && r[i].score.Some?
        && (r[i].predicted == MaliciousClass <==> r[i].score.value >= 0.5)
        && (r[i].predicted == BenignClass <==> r[i].score.value < 0.5))
  {
    var r := Entries(events, Success(ps)).value;
    forall i | 0 <= i < |r| ensures r[i] == EntryFor(events[i], ps[i]) {
    }
  }
}

=== FILE: normalize.dfy ===
/** Event normalisation of `core/normalize.py`: URLs are stripped, percent-decoded
    and made path-absolute, the client fields are stripped (blank becomes None),
    the method is lower-cased, and the decoded and cleaned URLs are recorded in
    the metadata. */
module Normalize {
  import opened Wrappers
  import opened Text
  import opened Schema
  import Url
  import Ml

  /** `(x or "").strip() or None`. */
  function StripOrNone(x: Option<string>): (r: Option<string>)
    ensures r.None? <==> Strip(x.GetOr("")) == ""
    ensures r.Some? ==> r.value == Strip(x.GetOr("")) && r.value != ""
  {
    var t := Strip(x.GetOr(""));
    if t == "" then None else Some(t)
  }

  /** A kept field has no surrounding whitespace, and normalising it again
      changes nothing. */
  lemma StripOrNoneIdempotent(x: Option<string>)
    ensures StripOrNone(StripOrNone(x)) == StripOrNone(x)
  {
    StripIdempotent(x.GetOr(""));
  }

  /** `unquote(url.strip())`: the `decoded_url` entry. */
  function DecodedUrl(url: string): (r: string)
    ensures |r| <= |Strip(url)|
  {
    Url.Unquote(Strip(url))
  }

  /** The cleaned URL: the decoded URL stripped, and given a leading `/` when it
      is non-empty, has no `://` and does not already start with `/`. */
  function CleanUrl(url: string): (r: string)
    ensures var d := Strip(DecodedUrl(url));
      && (d == "" ==> r == "")
      && (d != "" && !Contains(d, "://") && !StartsWith(d, "/") ==> r == "/" + d)
      && (d != "" && (Contains(d, "://") || StartsWith(d, "/")) ==> r == d)
  {
    var d := Strip(DecodedUrl(url));
    if d != "" && !Contains(d, "://") && !StartsWith(d, "/") then "/" + d else d
  }

  /** A non-empty cleaned URL is absolute: it carries a scheme separator or starts
      with a slash. Cleaning it again leaves it as it is when it holds no escape
      and no surrounding whitespace. */
  lemma CleanUrlAbsolute(url: string)
    ensures var r := CleanUrl(url); r == "" || Contains(r, "://") || StartsWith(r, "/")
  {
    var d := Strip(DecodedUrl(url));
    if d != "" && !Contains(d, "://") && !StartsWith(d, "/") {
      assert StartsWith("/" + d, "/");
    }
  }

  /** A cleaned URL with no escape left in it is a fixed point of cleaning. */
  lemma CleanUrlStable(url: string)
    requires '%' !in CleanUrl(url)
    ensures CleanUrl(CleanUrl(url)) == CleanUrl(url)
  {
    var r := CleanUrl(url);
    assert Strip(r) == r by {
      CleanUrlEdges(url);
      StripByNoOp(r, IsSpace);
    }
    assert Strip(DecodedUrl(r)) == r;
    CleanUrlAbsolute(url);
  }

  /** The ends of a cleaned URL are not whitespace. */
  lemma CleanUrlEdges(url: string)
    ensures var r := CleanUrl(url); r == "" || (!IsSpace(r[0]) && !IsSpace(r[|r| - 1]))
  {
    StripEdges(DecodedUrl(url));
    CleanUrlCases(url);
    SlashEdges(Strip(DecodedUrl(url)), CleanUrl(url));
  }

  /** The cleaned URL is the stripped decoded URL, with or without a slash put in
      front of it. */
  lemma CleanUrlCases(url: string)
    ensures var d := Strip(DecodedUrl(url));
      CleanUrl(url) == d || (d != "" && CleanUrl(url) == "/" + d)
  {
  }

  /** A slash in front keeps the last character, so whitespace-free ends stay so. */
  lemma SlashEdges(d: string, r: string)
    requires d == "" || (!IsSpace(d[0]) && !IsSpace(d[|d| - 1]))
    requires r == d || (d != "" && r == "/" + d)
    ensures r == "" || (!IsSpace(r[0]) && !IsSpace(r[|r| - 1]))
  {
    if r != d {
      assert r[|r| - 1] == d[|d| - 1];
    }
  }

  /** The ends of a stripped string are not whitespace. */
  lemma StripEdges(s: string)
    ensures var t := Strip(s); t == "" || (!IsSpace(t[0]) && !IsSpace(t[|t| - 1]))
  {
    StripByWindow(s, IsSpace);
    var a := LeadCount(s, IsSpace);
    var t := Strip(s);
    if t != "" {
      assert t[0] == s[a];
      assert s[a..][|s[a..]| - TrailCount(s[a..], IsSpace) - 1] == t[|t| - 1];
    }
  }

  /** `(method or "").strip().lower() or None`. */
  function NormalizeMethod(m: Option<string>): (r: Option<string>)
    ensures r.None? <==> Strip(m.GetOr("")) == ""
    ensures r.Some? ==> r.value == Lower(Strip(m.GetOr("")))
  {
    var t := Lower(Strip(m.GetOr("")));
    if t == "" then None else Some(t)
  }

  /** A copy of the metadata with the decoded and cleaned URLs recorded; every
      other entry is kept. */
  function WithUrls(m: map<string, Value>, decoded: string, clean: string): (r: map<string, Value>)
    ensures r.Keys == m.Keys + {"decoded_url", "clean_url"}
    ensures r["decoded_url"] == Str(decoded) && r["clean_url"] == Str(clean)
    ensures forall k :: k in m && k != "decoded_url" && k != "clean_url" ==> r[k] == m[k]
  {
    m["decoded_url" := Str(decoded)]["clean_url" := Str(clean)]
  }

  /** The normalised form of one event. */
  function NormalizeEvent(e: Event): (n: Event)
    ensures n.url == CleanUrl(e.url)
    ensures n.timestamp == e.timestamp && n.statusCode == e.statusCode
    ensures n.sourceIp == StripOrNone(e.sourceIp) && n.userAgent == StripOrNone(e.userAgent)
    ensures n.referer == StripOrNone(e.referer) && n.requestId == StripOrNone(e.requestId)
    ensures n.httpMethod == NormalizeMethod(e.httpMethod)
    ensures n.metadata == WithUrls(e.metadata, DecodedUrl(e.url), n.url)
  {
    var cleaned := CleanUrl(e.url);
    Event(
      cleaned,
      e.timestamp,
      e.statusCode,
      StripOrNone(e.sourceIp),
      StripOrNone(e.userAgent),
      NormalizeMethod(e.httpMethod),
      StripOrNone(e.referer),
      StripOrNone(e.requestId),
      WithUrls(e.metadata, DecodedUrl(e.url), cleaned))
  }

  /** `normalize_events`: one normalised event per input event, in order. */
  function NormalizeEvents(events: seq<Event>): (r: seq<Event>)
    ensures |r| == |events|
    ensures forall i :: 0 <= i < |events| ==> r[i] == NormalizeEvent(events[i])
  {
    seq(|events|, i requires 0 <= i < |events| => NormalizeEvent(events[i]))
  }

  /** After normalisation the classifier reads the cleaned URL whenever there is
      one. */
  lemma ClassifierReadsCleanUrl(e: Event)
    requires NormalizeEvent(e).url != ""
    ensures Ml.UrlFor(NormalizeEvent(e)) == Str(NormalizeEvent(e).url)
  {
  }

  /** A lower-cased method keeps no capital letters. */
  lemma MethodLowered(e: Event)
    requires NormalizeEvent(e).httpMethod.Some?
    ensures forall i :: 0 <= i < |NormalizeEvent(e).httpMethod.value| ==> !IsUpper(NormalizeEvent(e).httpMethod.value[i])
  {
  }
}

=== FILE: numeric.dfy ===
/** Python's `round()` on a float, taken on exact reals: to the nearest integer,
    ties to the even one. */
module Numeric {

  predicate IsEven(n: int) { n % 2 == 0 }

  /** Python's `round(x)`. */
  function RoundHalfEven(x: real): (r: int)
    ensures -0.5 <= r as real - x <= 0.5
    ensures r as real - x == 0.5 || x - r as real == 0.5 ==> IsEven(r)
  {
    var f := x.Floor;
    var d := x - f as real;
    if d < 0.5 then f
    else if d > 0.5 then f + 1
    else if IsEven(f) then f
    else f + 1
  }

  /** Any integer strictly closer than one half to `x` is its rounding. */
  lemma RoundNearest(x: real, n: int)
    requires -0.5 < n as real - x < 0.5
    ensures RoundHalfEven(x) == n
  {
  }

  /** Rounding never reverses an order. */
  lemma RoundMonotone(x: real, y: real)
    requires x <= y
    ensures RoundHalfEven(x) <= RoundHalfEven(y)
  {
  }

  /** An integer rounds to itself. */
  lemma RoundOfInt(n: int)
    ensures RoundHalfEven(n as real) == n
  {
  }

  function MinReal(a: real, b: real): (r: real)
    ensures r <= a && r <= b && (r == a || r == b)
  {
    if a <= b then a else b
  }

  function MaxReal(a: real, b: real): (r: real)
    ensures r >= a && r >= b && (r == a || r == b)
  {
    if a >= b then a else b
  }
}

=== FILE: rules.dfy ===
/** The rule engine of core/rules.py: fixed signatures over the lower-cased URL,
    and a check of the host for a raw IPv4 address or an abused top-level domain. */
module Rules {
  import opened Wrappers
  import opened Text
  import opened Numeric
  import opened Schema
  import opened Signature
  import Url

  const SqlRule: string := "SQL_INJECTION_PATTERN"
  const XssRule: string := "XSS_PATTERN"

  /** The five rules, in the order they are tried. */
  datatype Rule = SqlInjection | XssPattern | SuspiciousKeyword | IpBasedUrl | AbusedTld {

    /** The id the rule is reported under. */
    function Id(): string {
      match this
      case SqlInjection => SqlRule
      case XssPattern => XssRule
      case SuspiciousKeyword => "SUSPICIOUS_KEYWORD"
      case IpBasedUrl => "IP_BASED_URL"
      case AbusedTld => "ABUSED_TLD"
    }

    /** The position of the rule in the order they are tried. */
    function Rank(): nat {
      match this
      case SqlInjection => 0
      case XssPattern => 1
      case SuspiciousKeyword => 2
      case IpBasedUrl => 3
      case AbusedTld => 4
    }
  }

  /** Different rules are reported under different ids. */
  lemma IdInjective(a: Rule, b: Rule)
    ensures a.Id() == b.Id() <==> a == b
  {
    if a != b {
      assert a.Id()[0] != b.Id()[0] || a.Id()[1] != b.Id()[1];
    }
  }

  /** The rule reported under `id`, if any: the inverse of `Id`. */
  function RuleOf(id: string): (r: Option<Rule>)
    ensures r.Some? ==> r.value.Id() == id
    ensures r.None? ==> forall x: Rule :: x.Id() != id
  {
    if id == SqlInjection.Id() then Some(SqlInjection)
    else if id == XssPattern.Id() then Some(XssPattern)
    else if id == SuspiciousKeyword.Id() then Some(SuspiciousKeyword)
    else if id == IpBasedUrl.Id() then Some(IpBasedUrl)
    else if id == AbusedTld.Id() then Some(AbusedTld)
    else None
  }

  /** Reading back a rule's id gives the rule. */
  lemma RuleOfId(x: Rule)
    ensures RuleOf(x.Id()) == Some(x)
  {
    IdInjective(x, RuleOf(x.Id()).value);
  }

  const XssPatterns: seq<string> := ["<script", "javascript:", "onerror=", "onload=", "%3cscript%3e"]
  const Keywords: seq<string> := ["login", "verify", "update", "secure", "admin", "cmd", "wp", "shell", "exec"]
  const HighTlds: set<string> := {"tk", "ml", "ga", "cf"}
  const MediumTlds: set<string> := {"ru", "cn", "xyz"}

  // ---------------------------------------------------------------- SQL signature

  /** `\s*or\s*1=1` matches from index `e`. */
  predicate OrOneFrom(s: string, e: int) {
    exists j :: e <= j <= |s| && SpaceRun(s, e, j) && OccursAt(s, "or", j) && SpacedAt(s, j + 2, "1=1")
  }

  /** `('|%27)\s*or\s*1=1` matches at index `i`. */
  predicate QuoteOrOneAt(s: string, i: int) {
    || (OccursAt(s, "'", i) && OrOneFrom(s, i + 1))
    || (OccursAt(s, "%27", i) && OrOneFrom(s, i + 3))
  }

  /** `union\s+select` matches at index `i`. */
  predicate UnionSelectAt(s: string, i: int) {
    OccursAt(s, "union", i) && SpacedAt1(s, i + 5, "select")
  }

  /** Where the SQL-injection expression finds a match, alternative by alternative. */
  predicate SqlSignature(s: string) {
    || (exists i :: 0 <= i < |s| && QuoteOrOneAt(s, i))
    || Contains(s, "--")
    || (exists i :: 0 <= i < |s| && UnionSelectAt(s, i))
    || Contains(s, "%3d")
    || Contains(s, "%27")
  }

  /** The whitespace before a pattern that does not start with whitespace can only
      be the greedy run. */
  lemma SpacedUnique(s: string, i: nat, q: string, j: int)
    requires i <= |s| && |q| > 0 && !IsSpace(q[0])
    requires SpaceRun(s, i, j) && OccursAt(s, q, j)
    ensures j == SkipSpaces(s, i)
  {
    var g := SkipSpaces(s, i);
    assert s[j..j + |q|][0] == s[j];
    assert !IsSpace(s[j]);
    assert g < |s| ==> !IsSpace(s[g]);
  }

  /** `\s*or\s*1=1` from `e`, decided by skipping whitespace greedily. */
  function OrOneGreedy(s: string, e: nat): (r: bool)
    requires e <= |s|
    ensures r <==> OrOneFrom(s, e)
  {
    var g := SkipSpaces(s, e);
    if OccursAt(s, "or", g) then
      SpacedGreedy(s, g + 2, "1=1");
      assert OrOneFrom(s, e) ==> SpacedAt(s, g + 2, "1=1") by {
        if OrOneFrom(s, e) {
          var j :| e <= j <= |s| && SpaceRun(s, e, j) && OccursAt(s, "or", j) && SpacedAt(s, j + 2, "1=1");
          SpacedUnique(s, e, "or", j);
        }
      }
      OccursAt(s, "1=1", SkipSpaces(s, g + 2))
    else
      assert !OrOneFrom(s, e) by {
        if OrOneFrom(s, e) {
          var j :| e <= j <= |s| && SpaceRun(s, e, j) && OccursAt(s, "or", j) && SpacedAt(s, j + 2, "1=1");
          SpacedUnique(s, e, "or", j);
        }
      }
      false
  }

  function QuoteOrOneGreedy(s: string, i: nat): (r: bool)
    requires i <= |s|
    ensures r <==> QuoteOrOneAt(s, i)
  {
    || (OccursAt(s, "'", i) && OrOneGreedy(s, i + 1))
    || (OccursAt(s, "%27", i) && OrOneGreedy(s, i + 3))
  }

  function UnionSelectGreedy(s: string, i: nat): (r: bool)
    requires i <= |s|
    ensures r <==> UnionSelectAt(s, i)
  {
    if OccursAt(s, "union", i) then
      Spaced1Greedy(s, i + 5, "select");
      var g := SkipSpaces(s, i + 5);
      g > i + 5 && OccursAt(s, "select", g)
    else false
  }

  /** `SQL_PATTERN.search(s)`, decided position by position. */
  function SqlHit(s: string): (r: bool)
    ensures r <==> SqlSignature(s)
  {
    assert forall i :: 0 <= i < |s| ==> (QuoteOrOneGreedy(s, i) <==> QuoteOrOneAt(s, i));
    assert forall i :: 0 <= i < |s| ==> (UnionSelectGreedy(s, i) <==> UnionSelectAt(s, i));
    || (exists i :: 0 <= i < |s| && QuoteOrOneGreedy(s, i))
    || Contains(s, "--")
    || (exists i :: 0 <= i < |s| && UnionSelectGreedy(s, i))
    || Contains(s, "%3d")
    || Contains(s, "%27")
  }

  // ---------------------------------------------------------------- host checks

  /** The host with any `:port` suffix cut off. */
  function HostName(host: string): (r: string)
    ensures ':' !in r && StartsWith(host, r)
  {
    Before(host, ':')
  }

  /** A dotted part that `int()` accepts with a value in 0..255. */
  predicate IsOctet(p: string) {
    PyInt(p).Some? && 0 <= PyInt(p).value <= 255
  }

  /** `_is_ipv4`: a non-empty host whose name (port cut off) has exactly four dotted
      parts, each an octet. A part `int()` rejects makes the answer false. */
  predicate IsIpv4(host: string)
    ensures IsIpv4(host) ==> host != "" && '.' in HostName(host) && ':' !in HostName(host)
  {
    FindAbsent(HostName(host), '.');
    host != "" && Octets(Split(HostName(host), '.'))
  }

  /** Exactly four parts, each an octet. */
  predicate Octets(parts: seq<string>) {
    |parts| == 4 && IsOctet(parts[0]) && IsOctet(parts[1]) && IsOctet(parts[2]) && IsOctet(parts[3])
  }

  /** `_tld`: the label after the last dot of the host name, lower-cased; empty when
      the name has no dot. */
  function Tld(host: string): (r: string)
    ensures '.' !in r && ':' !in r
    ensures forall i :: 0 <= i < |r| ==> !IsUpper(r[i])
    ensures '.' !in HostName(host) ==> r == ""
    ensures '.' in HostName(host) ==> EndsWith(Lower(HostName(host)), "." + r)
  {
    var h := HostName(host);
    if '.' !in h then ""
    else
      LastLabel(h);
      Lower(AfterLast(h, '.'))
  }

  /** The lower-cased label after the last dot of a dotted name ends its lower-cased form. */
  lemma LastLabel(h: string)
    requires '.' in h && ':' !in h
    ensures ':' !in Lower(AfterLast(h, '.'))
    ensures EndsWith(Lower(h), "." + Lower(AfterLast(h, '.')))
  {
    var a := AfterLast(h, '.');
    var r := Lower(a);
    assert ':' !in r by {
      forall i | 0 <= i < |r| ensures r[i] != ':' {
        assert h[|h| - |a| + i] == a[i];
      }
    }
    assert h[|h| - |a|..] == a;
    assert |a| < |h|;
    var k := |h| - |a| - 1;
    assert h[k] == '.';
    assert Lower(h)[k..] == "." + r by {
      forall i | 0 <= i < |a| + 1 ensures Lower(h)[k..][i] == ("." + r)[i] {
        if i > 0 {
          assert h[|h| - |a|..][i - 1] == a[i - 1];
        }
      }
    }
  }

  /** Which of the two abused-TLD lists a TLD is on. */
  predicate IsAbusedTld(tld: string)
    ensures IsAbusedTld(tld) ==> (|tld| == 2 || |tld| == 3) && forall i :: 0 <= i < |tld| ==> IsLower(tld[i])
  {
    tld in HighTlds || tld in MediumTlds
  }

  // ---------------------------------------------------------------- detection

  /** The rules that fired for one URL, and one explanation per rule. */
  datatype Detection = Detection(rules: seq<Rule>, explanations: seq<string>) {

    /** `rules_triggered`: the ids of the fired rules. */
    function Ids(): (r: seq<string>)
      ensures |r| == |rules|
      ensures forall i :: 0 <= i < |rules| ==> r[i] == rules[i].Id()
    {
      seq(|rules|, i requires 0 <= i < |rules| => rules[i].Id())
    }
  }

  /** The explanation written for a fired rule; the TLD rule names the TLD and
      whether it is on the high-risk list. */
  function Explanation(rule: Rule, tld: string): string {
    match rule
    case SqlInjection => "SQLi indicators found (e.g., UNION/OR=1)."
    case XssPattern => "XSS indicators found (e.g., <script>, javascript:)."
    case SuspiciousKeyword => "Suspicious keywords present (login/verify/update/etc.)."
    case IpBasedUrl => "Domain is a raw IPv4 address."
    case AbusedTld => (if tld in HighTlds then "High-risk" else "Medium-risk") + " TLD detected: ." + tld
  }

  /** Rules listed in the fixed order: each at most once. */
  predicate InRuleOrder(rules: seq<Rule>) {
    forall i, j :: 0 <= i < j < |rules| ==> rules[i].Rank() < rules[j].Rank()
  }

  /** One explanation per rule, in the same order. */
  predicate Aligned(d: Detection, tld: string) {
    && |d.explanations| == |d.rules|
    && forall i :: 0 <= i < |d.rules| ==> d.explanations[i] == Explanation(d.rules[i], tld)
  }

  /** Appending `rule` and its explanation when `fired`. */
  function Fire(d: Detection, fired: bool, rule: Rule, tld: string): (r: Detection)
    ensures forall x :: x in r.rules <==> x in d.rules || (fired && x == rule)
    ensures Aligned(d, tld) ==> Aligned(r, tld)
    ensures InRuleOrder(d.rules) && (forall x :: x in d.rules ==> x.Rank() < rule.Rank()) ==> InRuleOrder(r.rules)
  {
    if fired then Detection(d.rules + [rule], d.explanations + [Explanation(rule, tld)]) else d
  }

  /** The outcome of each of the five checks. */
  datatype Checks = Checks(sql: bool, xss: bool, keyword: bool, ip: bool, abused: bool) {
    predicate Fired(rule: Rule) {
      match rule
      case SqlInjection => sql
      case XssPattern => xss
      case SuspiciousKeyword => keyword
      case IpBasedUrl => ip
      case AbusedTld => abused
    }
  }

  /** Ranks strictly increasing along `rs`. */
  predicate Ascending(rs: seq<Rule>) {
    forall i, j :: 0 <= i < j < |rs| ==> rs[i].Rank() < rs[j].Rank()
  }

  /** The checks of `rs` run in order, each appending its rule when it fired. */
  function Collect(rs: seq<Rule>, c: Checks, tld: string): (r: Detection)
    ensures forall x :: x in r.rules <==> x in rs && c.Fired(x)
    ensures Aligned(r, tld)
    ensures Ascending(rs) ==> InRuleOrder(r.rules)
    decreases |rs|
  {
    if rs == [] then Detection([], [])
    else
      var front := rs[..|rs| - 1];
      var last := rs[|rs| - 1];
      var d := Collect(front, c, tld);
      assert Ascending(rs) ==> Ascending(front) && forall x :: x in d.rules ==> x.Rank() < last.Rank() by {
        if Ascending(rs) {
          forall x | x in d.rules ensures x.Rank() < last.Rank() {
            var i :| 0 <= i < |front| && front[i] == x;
          }
        }
      }
      assert forall x :: x in rs <==> x in front || x == last;
      Fire(d, c.Fired(last), last, tld)
  }

  /** The five rules in the order they are tried. */
  const AllRules: seq<Rule> := [SqlInjection, XssPattern, SuspiciousKeyword, IpBasedUrl, AbusedTld]

  /** The five checks in order, each appending its rule when it fired. */
  function Assemble(c: Checks, tld: string): (r: Detection)
    ensures Aligned(r, tld)
    ensures InRuleOrder(r.rules)
    ensures forall x :: x in r.rules <==> c.Fired(x)
  {
    assert Ascending(AllRules);
    assert forall x: Rule :: x in AllRules by {
      forall x: Rule ensures x in AllRules {
        assert AllRules[x.Rank()] == x;
      }
    }
    Collect(AllRules, c, tld)
  }

  /** The body of `apply_rules_url` once the host is known: the signatures are read
      on `lower`, the host checks on `host`. */
  function Detect(lower: string, host: string): (r: Detection)
    ensures Aligned(r, Tld(host))
    ensures InRuleOrder(r.rules)
    ensures SqlInjection in r.rules <==> SqlSignature(lower)
    ensures XssPattern in r.rules <==> ContainsAny(lower, XssPatterns)
    ensures SuspiciousKeyword in r.rules <==> ContainsAny(lower, Keywords)
    ensures IpBasedUrl in r.rules <==> IsIpv4(host)
    ensures AbusedTld in r.rules <==> IsAbusedTld(Tld(host))
  {
    var tld := Tld(host);
    Assemble(Checks(SqlHit(lower), ContainsAny(lower, XssPatterns), ContainsAny(lower, Keywords), IsIpv4(host), IsAbusedTld(tld)), tld)
  }

  /** Rules in the fixed order are distinct, so at most five fire (the keyword rule
      included, however many keywords match). */
  lemma RuleOrderBounds(rules: seq<Rule>)
    requires InRuleOrder(rules)
    ensures |rules| <= 5
    ensures forall i, j :: 0 <= i < j < |rules| ==> rules[i] != rules[j]
  {
    if |rules| > 0 {
      RankAtLeastIndex(rules, |rules| - 1);
    }
  }

  lemma {:induction false} RankAtLeastIndex(rules: seq<Rule>, i: nat)
    requires InRuleOrder(rules) && i < |rules|
    ensures rules[i].Rank() >= i
  {
    if i > 0 {
      RankAtLeastIndex(rules, i - 1);
    }
  }

  /** Every abused TLD starts with a letter. */
  lemma AbusedStartsWithLetter(t: string)
    requires IsAbusedTld(t)
    ensures |t| > 0 && IsLetter(t[0])
  {
  }

  /** A host that is a raw IPv4 address never also fires the abused-TLD rule: its
      last label is a number. */
  lemma IpExcludesTld(host: string)
    requires IsIpv4(host)
    ensures !IsAbusedTld(Tld(host))
  {
    var h := HostName(host);
    var parts := Split(h, '.');
    assert '.' in h by {
      FindAbsent(h, '.');
    }
    SplitLastIsAfterLast(h, '.');
    var last := parts[3];
    assert last == AfterLast(h, '.');
    var t := Tld(host);
    assert t == Lower(last);
    forall i | 0 <= i < |t| ensures !IsLetter(t[i]) {
      PyIntNoLetters(last, i);
    }
    if IsAbusedTld(t) {
      AbusedStartsWithLetter(t);
    }
  }

  /** A dotted quad written out in decimal. */
  function Dotted(a: nat, b: nat, c: nat, d: nat): string {
    Join([NatToString(a), NatToString(b), NatToString(c), NatToString(d)], ".")
  }

  /** Every dotted quad of octets is recognised, with or without a port. */
  lemma DottedIsIpv4(a: nat, b: nat, c: nat, d: nat, port: string)
    requires a <= 255 && b <= 255 && c <= 255 && d <= 255
    ensures IsIpv4(Dotted(a, b, c, d))
    ensures IsIpv4(Dotted(a, b, c, d) + ":" + port)
  {
    var h := Dotted(a, b, c, d);
    DottedParts(a, b, c, d);
    FindAbsent(h, ':');
    assert HostName(h) == h;
    BeforeSeparator(h, ':', port);
    assert HostName(h + ":" + port) == h;
  }

  /** The decimal text of an octet is an octet part and holds no separator. */
  lemma OctetText(n: nat)
    requires n <= 255
    ensures '.' !in NatToString(n) && ':' !in NatToString(n)
    ensures IsOctet(NatToString(n))
  {
    IntToStringRoundTrip(n);
  }

  /** The parts of a dotted quad are its octets, and it holds no colon. */
  lemma DottedParts(a: nat, b: nat, c: nat, d: nat)
    requires a <= 255 && b <= 255 && c <= 255 && d <= 255
    ensures ':' !in Dotted(a, b, c, d) && Dotted(a, b, c, d) != ""
    ensures Octets(Split(Dotted(a, b, c, d), '.'))
  {
    OctetText(a);
    OctetText(b);
    OctetText(c);
    OctetText(d);
    var parts := [NatToString(a), NatToString(b), NatToString(c), NatToString(d)];
    QuadSplit(parts);
  }

  /** Joining four parts free of dots and colons with dots gives a colon-free text
      that splits back into those parts. */
  lemma QuadSplit(parts: seq<string>)
    requires |parts| == 4
    requires '.' !in parts[0] && '.' !in parts[1] && '.' !in parts[2] && '.' !in parts[3]
    requires ':' !in parts[0] && ':' !in parts[1] && ':' !in parts[2] && ':' !in parts[3]
    ensures ':' !in Join(parts, ".") && Join(parts, ".") != ""
    ensures Split(Join(parts, "."), '.') == parts
  {
    assert forall i :: 0 <= i < |parts| ==> '.' !in parts[i] && ':' !in parts[i];
    SplitJoin(parts, '.');
    NotInJoin(parts, ".", ':');
  }

  // ---------------------------------------------------------------- apply_rules_url

  /** What is parsed for a URL: the URL itself when it has `://`, else the URL put
      after the path-only base. */
  function RuleTarget(url: string): string {
    if Contains(url, "://") then url else Url.LocalBase + url
  }

  /** `apply_rules_url`: the signatures are read on the lower-cased URL and the host
      checks on the parsed netloc; the call raises exactly when `urlparse` does. */
  function ApplyRulesUrl(url: string): (r: Result<Detection, string>)
    ensures r.Failure? <==> Url.UrlParse(RuleTarget(url)).Failure?
    ensures r.Success? ==> r.value == Detect(Lower(url), Url.UrlParse(RuleTarget(url)).value.netloc)
  {
    match Url.UrlParse(RuleTarget(url))
    case Failure(e) => Failure(e)
    case Success(p) => Success(Detect(Lower(url), p.netloc))
  }

  /** A name without a port whose last character is a letter is not an address. */
  lemma LetterEndNotIpv4(h: string)
    requires h != [] && ':' !in h && IsLetter(h[|h| - 1])
    ensures !IsIpv4(h)
  {
    FindAbsent(h, ':');
    assert HostName(h) == h;
    var last := AfterLast(h, '.');
    assert |last| >= 1 && last[|last| - 1] == h[|h| - 1] by {
      assert h[|h| - |last|..] == last;
    }
    SplitLastIsAfterLast(h, '.');
    if IsIpv4(h) {
      PyIntNoLetters(last, |last| - 1);
    }
  }

  /** Abused TLDs are two or three characters long. */
  lemma AbusedLength(t: string)
    requires IsAbusedTld(t)
    ensures |t| == 2 || |t| == 3
  {
  }

  /** A lower-case name without a port and without a dot in the last three positions
      before its end has no abused TLD. */
  lemma NoDotNearEndNotAbused(h: string)
    requires |h| >= 4 && ':' !in h && h[|h| - 3] != '.' && h[|h| - 4] != '.'
    requires forall i :: 0 <= i < |h| ==> !IsUpper(h[i])
    ensures !IsAbusedTld(Tld(h))
  {
    FindAbsent(h, ':');
    assert HostName(h) == h;
    var t := Tld(h);
    if IsAbusedTld(t) {
      AbusedStartsWithLetter(t);
      AbusedLength(t);
      LowerOfLowered(h);
    }
  }

  /** The characters of the placeholder host that the host checks depend on. */
  lemma LocalHostShape()
    ensures |Url.LocalHost| == 13 && ':' !in Url.LocalHost
    ensures IsLetter(Url.LocalHost[12]) && Url.LocalHost[10] != '.' && Url.LocalHost[9] != '.'
    ensures forall i :: 0 <= i < |Url.LocalHost| ==> !IsUpper(Url.LocalHost[i])
  {
  }

  /** The placeholder host is neither an address nor on an abused-TLD list. */
  lemma LocalHostBenign()
    ensures !IsIpv4(Url.LocalHost)
    ensures !IsAbusedTld(Tld(Url.LocalHost))
  {
    LocalHostShape();
    LetterEndNotIpv4(Url.LocalHost);
    NoDotNearEndNotAbused(Url.LocalHost);
  }

  /** A path-only URL (leading `/`, no `://`) is parsed under the placeholder host,
      so neither host rule can fire for it. */
  lemma PathOnlyNoHostRules(url: string)
    requires url != [] && url[0] == '/' && !Contains(url, "://")
    ensures ApplyRulesUrl(url).Success?
    ensures IpBasedUrl !in ApplyRulesUrl(url).value.rules
    ensures AbusedTld !in ApplyRulesUrl(url).value.rules
  {
    Url.SplitLocal(url);
    LocalHostBenign();
  }

  // ---------------------------------------------------------------- per-event rules

  /** The URL the rules read for an event: a truthy `clean_url` metadata entry,
      else the event's own URL. A truthy entry that is not a string makes the
      string operations raise. */
  function RuleUrl(e: Event): (r: Result<string, string>)
    ensures "clean_url" in e.metadata && Truthy(e.metadata["clean_url"]) && e.metadata["clean_url"].Str? ==> r == Success(e.metadata["clean_url"].s)
    ensures !("clean_url" in e.metadata && Truthy(e.metadata["clean_url"])) ==> r == Success(e.url)
    ensures r.Failure? <==> "clean_url" in e.metadata && Truthy(e.metadata["clean_url"]) && !e.metadata["clean_url"].Str?
  {
    match TruthyEntry(e.metadata, "clean_url")
    case None => Success(e.url)
    case Some(v) => if v.Str? then Success(v.s) else Failure("TypeError: URL is not a string")
  }

  /** The confidence given to an event with `n >= 1` rule hits: 0.6, plus 0.05 per
      further hit, capped at 0.95. */
  function HitConfidence(n: nat): (c: real)
    requires n >= 1
    ensures c <= 0.95
    ensures n <= 8 ==> c == 0.6 + 0.05 * (n - 1) as real
    ensures n >= 8 ==> c == 0.95
  {
    MinReal(0.6 + 0.05 * (n - 1) as real, 0.95)
  }

  /** One URL fires at most five rules, so its confidence stays in [0.6, 0.8]: the
      cap is never reached. */
  lemma HitConfidenceRange(d: Detection)
    requires InRuleOrder(d.rules) && d.rules != []
    ensures 0.6 <= HitConfidence(|d.rules|) <= 0.8
  {
    RuleOrderBounds(d.rules);
  }

  /** The label `rule_detect` gives: "Normal" without hits, "SQL Injection" when the
      SQL rule hit, else the id of the first rule that hit. */
  function RuleLabel(rules: seq<Rule>): (name: string)
    ensures rules == [] ==> name == "Normal"
    ensures SqlInjection in rules ==> name == "SQL Injection"
    ensures rules != [] && SqlInjection !in rules ==> name == rules[0].Id()
  {
    if rules == [] then "Normal"
    else if SqlInjection in rules then "SQL Injection"
    else rules[0].Id()
  }

  /** Neither fixed label is a rule id, so the label tells the three cases apart. */
  lemma RuleLabelCases(rules: seq<Rule>)
    ensures RuleLabel(rules) == "Normal" <==> rules == []
    ensures RuleLabel(rules) == "SQL Injection" <==> SqlInjection in rules
  {
    if rules != [] && SqlInjection !in rules {
      var x := rules[0];
      assert x.Id() != "Normal" && x.Id() != "SQL Injection" by {
        assert x.Id()[1] != "Normal"[1] && x.Id()[1] != "SQL Injection"[1];
      }
    }
  }

  /** One entry of `rule_detect`'s result. */
  datatype Verdict = Verdict(event: Event, verdict: string, hits: seq<string>, confidence: real)

  /** `rule_detect` for one event. */
  function VerdictOf(e: Event): (r: Result<Verdict, string>)
    ensures r.Failure? <==> RuleUrl(e).Failure? || ApplyRulesUrl(RuleUrl(e).value).Failure?
    ensures r.Success? ==> var d := ApplyRulesUrl(RuleUrl(e).value).value;
      && r.value.event == e
      && r.value.hits == d.Ids()
      && r.value.verdict == RuleLabel(d.rules)
      && r.value.confidence == (if d.rules == [] then 0.05 else HitConfidence(|d.rules|))
  {
    match RuleUrl(e)
    case Failure(err) => Failure(err)
    case Success(url) =>
      match ApplyRulesUrl(url)
      case Failure(err) => Failure(err)
      case Success(d) =>
        Success(Verdict(e, RuleLabel(d.rules), d.Ids(), if d.rules == [] then 0.05 else HitConfidence(|d.rules|)))
  }

  /** `rule_detect`: one verdict per event, in order; the first event whose URL
      cannot be parsed aborts the whole call. */
  function RuleDetect(events: seq<Event>): (r: Result<seq<Verdict>, string>)
    ensures r.Success? <==> forall i :: 0 <= i < |events| ==> VerdictOf(events[i]).Success?
    ensures r.Success? ==> |r.value| == |events|
    ensures r.Success? ==> forall i :: 0 <= i < |events| ==> r.value[i] == VerdictOf(events[i]).value
  {
    MapAll(events, VerdictOf)
  }

  // ---------------------------------------------------------------- findings from feature rows

  /** `severity_map`, with its default for an unknown id. */
  function Severity(rule: Rule): (r: string)
    ensures r == "high" <==> rule == SqlInjection
    ensures r == "medium" <==> rule == XssPattern || rule == IpBasedUrl
    ensures r == "low" <==> rule == SuspiciousKeyword || rule == AbusedTld
  {
    match rule
    case SqlInjection => "high"
    case XssPattern => "medium"
    case SuspiciousKeyword => "low"
    case IpBasedUrl => "medium"
    case AbusedTld => "low"
  }

  /** `attack_map`. */
  function AttackType(rule: Rule): (r: string)
    ensures r == "SQL Injection" <==> rule == SqlInjection
    ensures r == "XSS" <==> rule == XssPattern
    ensures r == "Suspicious" <==> rule != SqlInjection && rule != XssPattern
  {
    match rule
    case SqlInjection => "SQL Injection"
    case XssPattern => "XSS"
    case _ => "Suspicious"
  }

  /** The details attached to a rule finding: the rule id and every explanation of
      the URL. */
  function RuleDetails(rule: Rule, explanations: seq<string>): map<string, Value> {
    map["rule" := Str(rule.Id()), "explanations" := List(seq(|explanations|, i requires 0 <= i < |explanations| => Str(explanations[i])))]
  }

  /** One finding per fired rule, all sharing the event and the confidence. */
  function EventFindings(e: Event, d: Detection): (r: seq<Finding>)
    ensures |r| == |d.rules|
    ensures forall i :: 0 <= i < |r| ==> r[i].event == e && r[i].details == RuleDetails(d.rules[i], d.explanations)
    ensures forall i :: 0 <= i < |r| ==> r[i].severity == Severity(d.rules[i]) && r[i].attackType == AttackType(d.rules[i])
    ensures forall i :: 0 <= i < |r| ==> r[i].confidence == HitConfidence(|d.rules|)
  {
    seq(|d.rules|, i requires 0 <= i < |d.rules| =>
      Finding(AttackType(d.rules[i]), Severity(d.rules[i]), HitConfidence(|d.rules|), e, RuleDetails(d.rules[i], d.explanations)))
  }

  /** A row handed to the legacy feature-row entry point: a dictionary holding an
      `event` key (whose value may be `None`), a dictionary without one, or
      something that is not a dictionary. */
  datatype FeatureRow = Row(event: Option<Event>) | NoEventKey | NotDict

  /** The findings of one feature row: none when no rule fires. Reading the row
      raises when it is not a dictionary or has no `event`, reading the event's
      metadata raises when the event is `None`, and so do the URL lookup and
      parse. */
  function RowFindings(row: FeatureRow): (r: Result<seq<Finding>, string>)
    ensures !(row.Row? && row.event.Some?) ==> r.Failure?
    ensures row.Row? && row.event.None? ==> r == Failure(NoneEventError)
    ensures row.Row? && row.event.Some? ==> var e := row.event.value;
      && (r.Success? <==> RuleUrl(e).Success? && ApplyRulesUrl(RuleUrl(e).value).Success?)
      && (r.Success? ==> r.value == EventFindings(e, ApplyRulesUrl(RuleUrl(e).value).value))
  {
    match row
    case NotDict => Failure("TypeError: row is not a dictionary")
    case NoEventKey => Failure("KeyError: 'event'")
    case Row(None) => Failure(NoneEventError)
    case Row(Some(e)) =>
      match RuleUrl(e)
      case Failure(err) => Failure(err)
      case Success(url) =>
        match ApplyRulesUrl(url)
        case Failure(err) => Failure(err)
        case Success(d) => Success(EventFindings(e, d))
  }

  /** What reading `metadata` from a `None` event raises. */
  const NoneEventError: string := "AttributeError: 'NoneType' object has no attribute 'metadata'"

  /** `_apply_rules_features` (and its alias `apply_rules_legacy`): every row's
      findings, row after row; the first row that raises aborts the call. */
  function ApplyRulesFeatures(rows: seq<FeatureRow>): (r: Result<seq<Finding>, string>)
    ensures r.Success? <==> AllSucceed(rows, RowFindings)
    ensures r.Success? ==> r.value == Flatten(Values(rows, RowFindings))
    ensures r.Success? ==> forall i, j :: 0 <= i < |rows| && 0 <= j < |RowFindings(rows[i]).value| ==> RowFindings(rows[i]).value[j] in r.value
    ensures r.Success? ==> forall k :: 0 <= k < |r.value| ==> exists i :: 0 <= i < |rows| && r.value[k] in RowFindings(rows[i]).value
  {
    match MapAll(rows, RowFindings)
    case Failure(err) => Failure(err)
    case Success(perRow) =>
      assert perRow == Values(rows, RowFindings);
      Success(Flatten(perRow))
  }

  /** A single row gives exactly that row's findings, or its exception. */
  lemma ApplyRulesFeaturesSingle(row: FeatureRow)
    ensures ApplyRulesFeatures([row]) == RowFindings(row)
  {
    MapAllSingle(row, RowFindings);
    if RowFindings(row).Success? {
      FlattenSingle([RowFindings(row).value]);
    }
  }

  /** Findings are appended row after row, and within a row hit after hit: the
      findings of two runs of rows are those of the first run followed by those
      of the second. */
  lemma ApplyRulesFeaturesAppend(rows: seq<FeatureRow>, more: seq<FeatureRow>)
    requires ApplyRulesFeatures(rows).Success? && ApplyRulesFeatures(more).Success?
    ensures ApplyRulesFeatures(rows + more) == Success(ApplyRulesFeatures(rows).value + ApplyRulesFeatures(more).value)
  {
    ValuesAppend(rows, more, RowFindings);
    FlattenAppend(Values(rows, RowFindings), Values(more, RowFindings));
  }

  /** The findings of one detection agree with the verdict built from it: none
      exactly when the label is "Normal", one per hit in hit order, each carrying
      the hit's id and the verdict's confidence. */
  lemma FindingsMatchHits(e: Event, d: Detection)
    ensures var fs := EventFindings(e, d);
      && (fs == [] <==> RuleLabel(d.rules) == "Normal")
      && |fs| == |d.Ids()|
      && (forall i :: 0 <= i < |fs| ==> fs[i].details["rule"] == Str(d.Ids()[i]))
      && (forall i :: 0 <= i < |fs| ==> fs[i].confidence == (if d.rules == [] then 0.05 else HitConfidence(|d.rules|)))
  {
    RuleLabelCases(d.rules);
  }

  /** A row yields findings exactly when `rule_detect` labels its event other than
      "Normal", one finding per hit, each carrying the confidence of the verdict. */
  lemma FindingsMatchVerdict(e: Event)
    requires VerdictOf(e).Success?
    ensures RowFindings(Row(Some(e))).Success?
    ensures var fs := RowFindings(Row(Some(e))).value; var v := VerdictOf(e).value;
      && (fs == [] <==> v.verdict == "Normal")
      && |fs| == |v.hits|
      && forall i :: 0 <= i < |fs| ==> fs[i].confidence == v.confidence
  {
    var d := ApplyRulesUrl(RuleUrl(e).value).value;
    FindingsMatchHits(e, d);
  }

  /** What `apply_rules` may be called with: a URL string, a list of rows, or
      anything else. */
  datatype RulesArg = TextArg(text: string) | RowsArg(rows: seq<FeatureRow>) | OtherArg

  /** What `apply_rules` returns: a detection for a URL, a list of findings
      otherwise. */
  datatype RulesOutput = UrlDetection(detection: Detection) | RowFindingsOut(findings: seq<Finding>)

  /** `apply_rules`: a URL string goes to the URL rules; a list whose first row is a
      dictionary with an `event` key goes to the feature-row rules, even when that
      key holds `None` (which then raises); anything else gets an empty list. Only
      the first row is inspected before dispatching. */
  function ApplyRules(arg: RulesArg): (r: Result<RulesOutput, string>)
    ensures arg.TextArg? ==> (r.Success? <==> ApplyRulesUrl(arg.text).Success?)
    ensures arg.TextArg? && r.Success? ==> r.value == UrlDetection(ApplyRulesUrl(arg.text).value)
    ensures arg.RowsArg? && arg.rows != [] && arg.rows[0].Row? ==>
      (r.Success? <==> ApplyRulesFeatures(arg.rows).Success?)
      && (r.Success? ==> r.value == RowFindingsOut(ApplyRulesFeatures(arg.rows).value))
    ensures arg.RowsArg? && arg.rows != [] && arg.rows[0] == Row(None) ==> r == Failure(NoneEventError)
    ensures !arg.TextArg? && !(arg.RowsArg? && arg.rows != [] && arg.rows[0].Row?) ==>
      r == Success(RowFindingsOut([]))
  {
    match arg
    case TextArg(t) =>
      (match ApplyRulesUrl(t)
       case Failure(err) => Failure(err)
       case Success(d) => Success(UrlDetection(d)))
    case RowsArg(rows) =>
      if rows != [] && rows[0].Row? then
        match ApplyRulesFeatures(rows)
        case Failure(err) => Failure(err)
        case Success(fs) => Success(RowFindingsOut(fs))
      else Success(RowFindingsOut([]))
    case OtherArg => Success(RowFindingsOut([]))
  }
}

=== FILE: schema.dfy ===
/** The records the engine passes around: a normalised request `Event`, a detection
    `Finding`, and the loosely typed values held in their metadata and details
    mappings. */
module Schema {
  import opened Wrappers
  import opened Text

  /** A dynamically typed Python value as it appears in a metadata cell or a
      details entry: `None`, a float NaN, a string, a number (with the text
      Python's `str()` gives for it), a boolean, or a list. */
  datatype Value =
    | Null
    | NaN
    | Str(s: string)
    | Num(x: real, shown: string)
    | Bool(b: bool)
    | List(items: seq<Value>)

  /** Python truthiness; NaN is truthy. */
  predicate Truthy(v: Value) {
    match v
    case Null => false
    case NaN => true
    case Str(s) => s != ""
    case Num(x, _) => x != 0.0
    case Bool(b) => b
    case List(items) => items != []
  }

  /** `pd.isna`: `None` and NaN are missing values. */
  predicate IsNa(v: Value) {
    v.Null? || v.NaN?
  }

  /** Python's `str(v)` for a value that is not a list. */
  function Show(v: Value): (r: string)
    requires !v.List?
    ensures v.Str? ==> r == v.s
  {
    match v
    case Null => "None"
    case NaN => "nan"
    case Str(s) => s
    case Num(_, shown) => shown
    case Bool(b) => if b then "True" else "False"
  }

  /** Seconds since the epoch: the `datetime` itself is not modelled. */
  type Timestamp = int

  /** A normalised request/response event. */
  datatype Event = Event(
    url: string,
    timestamp: Option<Timestamp>,
    statusCode: Option<int>,
    sourceIp: Option<string>,
    userAgent: Option<string>,
    httpMethod: Option<string>,
    referer: Option<string>,
    requestId: Option<string>,
    metadata: map<string, Value>)

  /** `Event(url=...)`: only the URL is required; every other field takes its default. */
  function NewEvent(url: string): (e: Event)
    ensures e.url == url && e.metadata == map[]
    ensures e.timestamp == None && e.statusCode == None && e.sourceIp == None && e.userAgent == None
    ensures e.httpMethod == None && e.referer == None && e.requestId == None
  {
    Event(url, None, None, None, None, None, None, None, map[])
  }

  /** A detection outcome attached to an event. */
  datatype Finding = Finding(
    attackType: string,
    severity: string,
    confidence: real,
    event: Event,
    details: map<string, Value>)

  /** `Finding(...)` with its details left to the default. */
  function NewFinding(attackType: string, severity: string, confidence: real, event: Event): (f: Finding)
    ensures f.details == map[]
    ensures f.attackType == attackType && f.severity == severity
    ensures f.confidence == confidence && f.event == event
  {
    Finding(attackType, severity, confidence, event, map[])
  }

  /** One entry of the classifier's per-event output: the event, the predicted label (`predicted`),
      the malicious probability as `score`, the class probabilities, and an optional
      severity. `score` and `severity` may be absent from such an entry. */
  datatype MlEntry = MlEntry(
    event: Event,
    predicted: string,
    score: Option<real>,
    proba: seq<(string, real)>,
    severity: Option<string>)

  /** `details.get(key)` read as a truthy value, or absent. */
  function TruthyEntry(m: map<string, Value>, key: string): (r: Option<Value>)
    ensures r.Some? <==> key in m && Truthy(m[key])
    ensures r.Some? ==> r.value == m[key]
  {
    if key in m && Truthy(m[key]) then Some(m[key]) else None
  }

  /** `Finding.short_reason()`: the details' `reason` when it is truthy, else the attack type. */
  function ShortReason(f: Finding): (r: Value)
    ensures "reason" in f.details && Truthy(f.details["reason"]) ==> r == f.details["reason"]
    ensures !("reason" in f.details && Truthy(f.details["reason"])) ==> r == Str(f.attackType)
  {
    TruthyEntry(f.details, "reason").GetOr(Str(f.attackType))
  }

  /** A short reason is never an empty string unless the attack type is. */
  lemma ShortReasonNonEmpty(f: Finding)
    requires f.attackType != ""
    ensures Truthy(ShortReason(f))
  {
  }

  /** `x or "unknown"` on an optional source address: the key sessions are grouped by. */
  function IpKey(ip: Option<string>): (r: string)
    ensures r != ""
    ensures r == "unknown" <==> ip.None? || ip.value == "" || ip.value == "unknown"
  {
    if ip.Some? && ip.value != "" then ip.value else "unknown"
  }
}

=== FILE: score.dfy ===
/** Risk scoring: the unified 0..100 risk score of one URL, and the ranking of rule
    and classifier findings by severity weight and confidence. */
module Score {
  import opened Wrappers
  import opened Text
  import opened Numeric
  import opened Schema
  import opened Correlate
  import Rules

  // ---------------------------------------------------------------- severity weights

  /** `SEVERITY_WEIGHT.get(severity.lower(), 0)`: critical 3, high 2, medium 1,
      low and anything unknown 0. */
  function SeverityWeight(severity: string): (w: nat)
    ensures w <= 3
    ensures w == 3 <==> Lower(severity) == "critical"
    ensures w == 2 <==> Lower(severity) == "high"
    ensures w == 1 <==> Lower(severity) == "medium"
  {
    var key := Lower(severity);
    if key == "critical" then 3
    else if key == "high" then 2
    else if key == "medium" then 1
    else 0
  }

  /** `_weight`. */
  function Weight(f: Finding): (w: nat)
    ensures w <= 3
    ensures w == 0 <==> Lower(f.severity) != "critical" && Lower(f.severity) != "high" && Lower(f.severity) != "medium"
  {
    SeverityWeight(f.severity)
  }

  /** Severities that differ only in letter case weigh the same. */
  lemma WeightIgnoresCase(a: string, b: string)
    requires Lower(a) == Lower(b)
    ensures SeverityWeight(a) == SeverityWeight(b)
  {
  }

  /** The weights of the severities the engine produces, in any letter case. */
  lemma KnownWeights()
    ensures SeverityWeight("Critical") == 3 && SeverityWeight("HIGH") == 2
    ensures SeverityWeight("medium") == 1 && SeverityWeight("low") == 0
    ensures SeverityWeight("") == 0
  {
  }

  // ---------------------------------------------------------------- unified risk

  datatype Level = Low | Medium | High

  function LevelName(l: Level): string {
    match l
    case Low => "Low"
    case Medium => "Medium"
    case High => "High"
  }

  /** The result of `compute_risk`: `risk_score` and `risk_level`. */
  datatype Risk = Risk(score: int, level: Level)

  /** The 15-point bonus applies: an injection rule is among the hits. */
  predicate HasBonus(rules: seq<string>) {
    exists i :: 0 <= i < |rules| && (rules[i] == Rules.SqlRule || rules[i] == Rules.XssRule)
  }

  /** `base + additions + bonus` before clamping. */
  function Points(mlProb: real, rules: seq<string>): real {
    60.0 * mlProb + 5.0 * |rules| as real + (if HasBonus(rules) then 15.0 else 0.0)
  }

  /** The score clamped to [0, 100], not yet rounded. */
  function Clamped(mlProb: real, rules: seq<string>): (c: real)
    ensures 0.0 <= c <= 100.0
    ensures 0.0 <= Points(mlProb, rules) <= 100.0 ==> c == Points(mlProb, rules)
  {
    MinReal(100.0, MaxReal(0.0, Points(mlProb, rules)))
  }

  /** The level of an unrounded score. */
  function LevelOf(score: real): (l: Level)
    ensures l == High <==> score >= 70.0
    ensures l == Medium <==> 40.0 <= score < 70.0
    ensures l == Low <==> score < 40.0
  {
    if score >= 70.0 then High else if score >= 40.0 then Medium else Low
  }

  /** `compute_risk`: the score is the clamped sum rounded to an integer in 0..100,
      and the level is read off the clamped sum before rounding. */
  function ComputeRisk(mlProb: real, rules: seq<string>): (r: Risk)
    ensures 0 <= r.score <= 100
    ensures -0.5 <= r.score as real - Clamped(mlProb, rules) <= 0.5
    ensures r.level == High <==> Clamped(mlProb, rules) >= 70.0
    ensures r.level == Medium <==> 40.0 <= Clamped(mlProb, rules) < 70.0
    ensures r.level == Low <==> Clamped(mlProb, rules) < 40.0
  {
    var c := Clamped(mlProb, rules);
    Risk(RoundHalfEven(c), LevelOf(c))
  }

  /** Each further rule adds exactly five points, plus the bonus when it is the
      first injection rule. */
  lemma AddRulePoints(mlProb: real, rules: seq<string>, rule: string)
    ensures Points(mlProb, rules + [rule]) ==
      Points(mlProb, rules) + 5.0 + (if !HasBonus(rules) && HasBonus(rules + [rule]) then 15.0 else 0.0)
  {
    var rs := rules + [rule];
    if HasBonus(rules) {
      var i :| 0 <= i < |rules| && (rules[i] == Rules.SqlRule || rules[i] == Rules.XssRule);
      assert rs[i] == rules[i];
    }
  }

  /** The number of injection rules (SQL or XSS) among the hits. */
  function InjectionCount(rules: seq<string>): (n: nat)
    ensures n <= |rules|
  {
    if rules == [] then 0
    else (if rules[0] == Rules.SqlRule || rules[0] == Rules.XssRule then 1 else 0) + InjectionCount(rules[1..])
  }

  /** The bonus is counted once however many injection rules fire, SQL and XSS
      alike: the points above the base and the per-rule additions are 15 exactly
      when at least one injection rule is among the hits, and 0 otherwise. */
  lemma {:induction false} BonusOnce(mlProb: real, rules: seq<string>)
    ensures HasBonus(rules) <==> InjectionCount(rules) >= 1
    ensures Points(mlProb, rules) - 60.0 * mlProb - 5.0 * |rules| as real == if InjectionCount(rules) >= 1 then 15.0 else 0.0
  {
    if rules != [] {
      BonusOnce(mlProb, rules[1..]);
      var tail := rules[1..];
      if HasBonus(tail) {
        var i :| 0 <= i < |tail| && (tail[i] == Rules.SqlRule || tail[i] == Rules.XssRule);
        assert rules[i + 1] == tail[i];
      }
      if HasBonus(rules) {
        var i :| 0 <= i < |rules| && (rules[i] == Rules.SqlRule || rules[i] == Rules.XssRule);
        if i > 0 { assert tail[i - 1] == rules[i]; }
      }
    }
  }

  /** Without an injection rule there is no bonus. */
  lemma NoBonus(mlProb: real, rules: seq<string>)
    requires forall i :: 0 <= i < |rules| ==> rules[i] != Rules.SqlRule && rules[i] != Rules.XssRule
    ensures Points(mlProb, rules) == 60.0 * mlProb + 5.0 * |rules| as real
  {
  }

  /** Adding a rule never lowers the score or the level. */
  lemma AddRuleMonotone(mlProb: real, rules: seq<string>, rule: string)
    ensures ComputeRisk(mlProb, rules).score <= ComputeRisk(mlProb, rules + [rule]).score
    ensures Clamped(mlProb, rules) <= Clamped(mlProb, rules + [rule])
  {
    AddRulePoints(mlProb, rules, rule);
    RoundMonotone(Clamped(mlProb, rules), Clamped(mlProb, rules + [rule]));
  }

  /** A higher classifier probability never lowers the score. */
  lemma ProbMonotone(p: real, q: real, rules: seq<string>)
    requires p <= q
    ensures Clamped(p, rules) <= Clamped(q, rules)
    ensures ComputeRisk(p, rules).score <= ComputeRisk(q, rules).score
  {
    RoundMonotone(Clamped(p, rules), Clamped(q, rules));
  }

  /** The level is not recomputed from the rounded score: a sum of 69.85 rounds to
      70 yet stays "Medium". */
  lemma SeventyCanBeMedium()
    ensures ComputeRisk(0.7475, [Rules.SqlRule, "SUSPICIOUS_KEYWORD"]) == Risk(70, Medium)
  {
    var rules := [Rules.SqlRule, "SUSPICIOUS_KEYWORD"];
    assert HasBonus(rules) by { assert rules[0] == Rules.SqlRule; }
    assert Clamped(0.7475, rules) == 69.85;
    RoundNearest(69.85, 70);
  }

  /** The two scenarios of the pipeline smoke script with the classifier unavailable
      (probability 0.05): no rules give 3, Low; the SQL rule alone gives 23, Low. */
  lemma SmokeScenarioRisks()
    ensures ComputeRisk(0.05, []) == Risk(3, Low)
    ensures ComputeRisk(0.05, [Rules.SqlRule]) == Risk(23, Low)
  {
    assert Clamped(0.05, []) == 3.0;
    RoundNearest(3.0, 3);
    var rules := [Rules.SqlRule];
    assert HasBonus(rules) by { assert rules[0] == Rules.SqlRule; }
    assert Clamped(0.05, rules) == 23.0;
    RoundNearest(23.0, 23);
  }

  /** `compute_batch_risk`: `compute_risk` over the zipped inputs, as long as the
      shorter of the two. */
  function ComputeBatchRisk(mlProbs: seq<real>, rulesList: seq<seq<string>>): (r: seq<Risk>)
    ensures |r| == if |mlProbs| <= |rulesList| then |mlProbs| else |rulesList|
    ensures forall i :: 0 <= i < |r| ==> r[i] == ComputeRisk(mlProbs[i], rulesList[i])
  {
    var n := if |mlProbs| <= |rulesList| then |mlProbs| else |rulesList|;
    seq(n, i requires 0 <= i < n => ComputeRisk(mlProbs[i], rulesList[i]))
  }

  /** Every batch score is a valid risk score. */
  lemma BatchScoresInRange(mlProbs: seq<real>, rulesList: seq<seq<string>>, i: nat)
    requires i < |ComputeBatchRisk(mlProbs, rulesList)|
    ensures 0 <= ComputeBatchRisk(mlProbs, rulesList)[i].score <= 100
  {
  }

  // ---------------------------------------------------------------- correlation boost

  /** The sum of a counter's counts. */
  function SumCounts(cs: Counts): nat {
    if cs == [] then 0 else cs[0].1 + SumCounts(cs[1..])
  }

  /** The report flags `ip` as multi-stage. */
  predicate Flagged(c: Correlation, ip: string) {
    ip in c.multiStage && c.multiStage[ip]
  }

  /** The report lists no repeated label for `ip`. */
  predicate NoRepeats(c: Correlation, ip: string) {
    ip !in c.repeated || c.repeated[ip] == []
  }

  /** `_ip_risk_boost`: nothing without an address or a correlation report; 0.3 for
      a multi-stage address, plus a tenth per repeated occurrence capped at 0.4. */
  function IpRiskBoost(ip: Option<string>, corr: Option<Correlation>): (r: real)
    ensures 0.0 <= r <= 0.7
    ensures ip.None? || ip.value == "" || corr.None? ==> r == 0.0
    ensures ip.Some? && ip.value != "" && corr.Some? && Flagged(corr.value, ip.value) ==> r >= 0.3
    ensures ip.Some? && corr.Some? && !Flagged(corr.value, ip.value) ==> r <= 0.4
    ensures ip.Some? && corr.Some? && !Flagged(corr.value, ip.value) && NoRepeats(corr.value, ip.value)
      ==> r == 0.0
  {
    if ip.None? || ip.value == "" || corr.None? then 0.0
    else
      var c := corr.value;
      var multi := if ip.value in c.multiStage && c.multiStage[ip.value] then 0.3 else 0.0;
      var reps := if ip.value in c.repeated then c.repeated[ip.value] else [];
      multi + (if reps != [] then MinReal(0.4, 0.1 * SumCounts(reps) as real) else 0.0)
  }

  /** The repeated-label count of `ip` in the report: 0 when it has none. */
  function RepeatTotal(c: Correlation, ip: string): nat {
    if ip in c.repeated then SumCounts(c.repeated[ip]) else 0
  }

  /** A multi-stage flag adds exactly 0.3 to what the same report gives with the
      flag cleared. */
  lemma FlagAddsThreeTenths(ip: string, c: Correlation)
    requires ip != "" && Flagged(c, ip)
    ensures IpRiskBoost(Some(ip), Some(c))
      == 0.3 + IpRiskBoost(Some(ip), Some(c.(multiStage := c.multiStage[ip := false])))
  {
  }

  /** Without the flag the boost is a tenth per repeated occurrence of the
      address's labels, up to four occurrences, and 0.4 beyond that. */
  lemma RepeatBoostValue(ip: string, c: Correlation)
    requires ip != "" && !Flagged(c, ip)
    ensures var s := RepeatTotal(c, ip);
      IpRiskBoost(Some(ip), Some(c)) == if s <= 4 then 0.1 * s as real else 0.4
  {
  }

  /** Repeated labels are counted at least twice each, so an address with any
      repeated label earns at least 0.2. */
  lemma RepeatedBoost(ip: string, c: Correlation)
    requires ip != "" && ip in c.repeated && c.repeated[ip] != []
    requires forall p :: p in c.repeated[ip] ==> p.1 > 1
    ensures IpRiskBoost(Some(ip), Some(c)) >= 0.2
  {
    var reps := c.repeated[ip];
    assert reps[0] in reps;
  }

  // ---------------------------------------------------------------- ranking

  /** An ML result is turned into a finding when its label is non-empty and not "Normal". */
  predicate Promoted(m: MlEntry) {
    m.predicted != "" && m.predicted != "Normal"
  }

  /** The finding made from a promoted ML result: its label, its severity or "medium",
      its score (0.5 when absent) plus the address's correlation boost. */
  function MlFinding(m: MlEntry, corr: Option<Correlation>): (f: Finding)
    ensures f.attackType == m.predicted && f.event == m.event
    ensures f.details == map["source" := Str("ml")]
    ensures m.severity.Some? && m.severity.value != "" ==> f.severity == m.severity.value
    ensures m.severity.None? || m.severity.value == "" ==> f.severity == "medium"
    ensures f.confidence == m.score.GetOr(0.5) + IpRiskBoost(m.event.sourceIp, corr)
    ensures m.score.GetOr(0.5) <= f.confidence <= m.score.GetOr(0.5) + 0.7
  {
    var severity := if m.severity.Some? && m.severity.value != "" then m.severity.value else "medium";
    Finding(m.predicted, severity, m.score.GetOr(0.5) + IpRiskBoost(m.event.sourceIp, corr), m.event,
      map["source" := Str("ml")])
  }

  /** The findings made from the ML results, in result order. */
  function MlFindings(ml: seq<MlEntry>, corr: Option<Correlation>): (r: seq<Finding>)
    ensures |r| <= |ml|
    ensures forall f :: f in r ==> exists m :: m in ml && Promoted(m) && f == MlFinding(m, corr)
    ensures forall m :: m in ml && Promoted(m) ==> MlFinding(m, corr) in r
  {
    if ml == [] then []
    else
      var rest := MlFindings(ml[1..], corr);
      assert forall m :: m in ml[1..] ==> m in ml;
      assert forall m :: m in ml ==> m == ml[0] || m in ml[1..];
      if Promoted(ml[0]) then [MlFinding(ml[0], corr)] + rest else rest
  }

  /** The ML findings of two runs of results are those of the first run followed
      by those of the second: each result contributes its own finding in place. */
  lemma {:induction false} MlFindingsAppend(a: seq<MlEntry>, b: seq<MlEntry>, corr: Option<Correlation>)
    ensures MlFindings(a + b, corr) == MlFindings(a, corr) + MlFindings(b, corr)
    decreases |a|
  {
    if a == [] {
      assert a + b == b;
    } else {
      assert (a + b)[0] == a[0] && (a + b)[1..] == a[1..] + b;
      MlFindingsAppend(a[1..], b, corr);
    }
  }

  /** One result gives exactly one finding when it is promoted, and none otherwise. */
  lemma MlFindingsSingle(m: MlEntry, corr: Option<Correlation>)
    ensures MlFindings([m], corr) == if Promoted(m) then [MlFinding(m, corr)] else []
  {
    assert [m][1..] == [];
  }

  /** The number of ML findings is the number of promoted results. */
  function PromotedCount(ml: seq<MlEntry>): (n: nat)
    ensures n <= |ml|
  {
    if ml == [] then 0 else (if Promoted(ml[0]) then 1 else 0) + PromotedCount(ml[1..])
  }

  lemma {:induction false} MlFindingsCount(ml: seq<MlEntry>, corr: Option<Correlation>)
    ensures |MlFindings(ml, corr)| == PromotedCount(ml)
  {
    if ml != [] {
      MlFindingsCount(ml[1..], corr);
    }
  }

  /** `a` sorts at or before `b` under `key=(_weight, confidence), reverse=True`. */
  predicate RanksAbove(a: Finding, b: Finding) {
    Weight(a) > Weight(b) || (Weight(a) == Weight(b) && a.confidence >= b.confidence)
  }

  /** Equal sort keys. */
  predicate SameKey(a: Finding, b: Finding) {
    Weight(a) == Weight(b) && a.confidence == b.confidence
  }

  predicate SortedDesc(s: seq<Finding>) {
    forall i, j :: 0 <= i < j < |s| ==> RanksAbove(s[i], s[j])
  }

  /** Insert `x` after every element ranking at or above it: a later element with
      an equal key stays behind the earlier ones, as in Python's stable sort. */
  function Insert(x: Finding, s: seq<Finding>): (r: seq<Finding>)
    ensures |r| == |s| + 1
  {
    if s == [] then [x]
    else if !RanksAbove(s[0], x) then [x] + s
    else [s[0]] + Insert(x, s[1..])
  }

  /** Insertion adds `x` and loses nothing. */
  lemma {:induction false} InsertPerm(x: Finding, s: seq<Finding>)
    ensures multiset(Insert(x, s)) == multiset(s) + multiset{x}
  {
    if s != [] && RanksAbove(s[0], x) {
      InsertPerm(x, s[1..]);
      assert s == [s[0]] + s[1..];
    }
  }

  /** Inserting into a sorted sequence keeps it sorted. */
  lemma {:induction false} InsertSorted(x: Finding, s: seq<Finding>)
    requires SortedDesc(s)
    ensures SortedDesc(Insert(x, s))
  {
    if s != [] && RanksAbove(s[0], x) {
      var rest := Insert(x, s[1..]);
      InsertSorted(x, s[1..]);
      InsertPerm(x, s[1..]);
      forall y | y in rest ensures RanksAbove(s[0], y) {
        assert y in multiset(rest);
        if y != x {
          assert y in multiset(s[1..]);
          var j :| 0 <= j < |s[1..]| && s[1..][j] == y;
          assert s[j + 1] == y;
        }
      }
      var r := [s[0]] + rest;
      forall i, j | 0 <= i < j < |r| ensures RanksAbove(r[i], r[j]) {
        assert r[j] == rest[j - 1];
        if i > 0 { assert r[i] == rest[i - 1]; }
      }
    } else if s != [] {
      forall j | 0 <= j < |s| ensures RanksAbove(x, s[j]) {
        assert RanksAbove(s[0], s[j]) || j == 0;
      }
    }
  }

  /** `sorted(..., reverse=True)` by insertion, element by element in input order. */
  function SortFindings(s: seq<Finding>): (r: seq<Finding>)
    ensures |r| == |s|
  {
    if s == [] then []
    else
      var n := |s| - 1;
      Insert(s[n], SortFindings(s[..n]))
  }

  /** The sort is a permutation. */
  lemma {:induction false} SortPerm(s: seq<Finding>)
    ensures multiset(SortFindings(s)) == multiset(s)
  {
    if s != [] {
      var n := |s| - 1;
      SortPerm(s[..n]);
      InsertPerm(s[n], SortFindings(s[..n]));
      assert s == s[..n] + [s[n]];
    }
  }

  lemma {:induction false} SortSorted(s: seq<Finding>)
    ensures SortedDesc(SortFindings(s))
  {
    if s != [] {
      var n := |s| - 1;
      SortSorted(s[..n]);
      InsertSorted(s[n], SortFindings(s[..n]));
    }
  }

  /** The elements of `s` whose sort key equals that of `k`, in order. */
  function KeyRun(s: seq<Finding>, k: Finding): (r: seq<Finding>)
    ensures |r| <= |s|
  {
    if s == [] then [] else (if SameKey(s[0], k) then [s[0]] else []) + KeyRun(s[1..], k)
  }

  lemma {:induction false} KeyRunAppend(a: seq<Finding>, b: seq<Finding>, k: Finding)
    ensures KeyRun(a + b, k) == KeyRun(a, k) + KeyRun(b, k)
  {
    if a == [] {
      assert a + b == b;
    } else {
      assert a + b == [a[0]] + (a[1..] + b) && a == [a[0]] + a[1..];
      KeyRunCons(a[0], a[1..] + b, k);
      KeyRunCons(a[0], a[1..], k);
      KeyRunAppend(a[1..], b, k);
    }
  }

  /** Elements ranking strictly below `k` contribute nothing to its run. */
  lemma {:induction false} KeyRunBelow(s: seq<Finding>, k: Finding)
    requires forall j :: 0 <= j < |s| ==> !RanksAbove(s[j], k)
    ensures KeyRun(s, k) == []
  {
    if s != [] {
      assert forall j :: 0 <= j < |s[1..]| ==> s[1..][j] == s[j + 1];
      KeyRunBelow(s[1..], k);
    }
  }

  /** The run of a one-element sequence. */
  lemma KeyRunSingle(x: Finding, k: Finding)
    ensures KeyRun([x], k) == if SameKey(x, k) then [x] else []
  {
    assert [x][1..] == [];
  }

  /** The run of a sequence with a known first element. */
  lemma KeyRunCons(x: Finding, s: seq<Finding>, k: Finding)
    ensures KeyRun([x] + s, k) == (if SameKey(x, k) then [x] else []) + KeyRun(s, k)
  {
    assert ([x] + s)[1..] == s;
  }

  lemma SortedTail(s: seq<Finding>)
    requires SortedDesc(s) && s != []
    ensures SortedDesc(s[1..])
  {
    forall i, j | 0 <= i < j < |s[1..]| ensures RanksAbove(s[1..][i], s[1..][j]) {
      assert s[1..][i] == s[i + 1] && s[1..][j] == s[j + 1];
    }
  }

  /** When `x` goes first, every element ranks below it, so its run gains only `x`. */
  lemma InsertFrontStable(x: Finding, s: seq<Finding>, k: Finding)
    requires SortedDesc(s) && s != [] && !RanksAbove(s[0], x)
    ensures KeyRun(Insert(x, s), k) == KeyRun(s, k) + (if SameKey(x, k) then [x] else [])
  {
    assert Insert(x, s) == [x] + s;
    KeyRunCons(x, s, k);
    if SameKey(x, k) {
      assert KeyRun(s, k) == [] by {
        forall j | 0 <= j < |s| ensures !RanksAbove(s[j], k) {
          assert j == 0 || RanksAbove(s[0], s[j]);
        }
        KeyRunBelow(s, k);
      }
    }
  }

  /** Inserting `x` adds it at the end of its own key's run and moves nothing else
      within a run. */
  lemma {:induction false} InsertStable(x: Finding, s: seq<Finding>, k: Finding)
    requires SortedDesc(s)
    ensures KeyRun(Insert(x, s), k) == KeyRun(s, k) + (if SameKey(x, k) then [x] else [])
  {
    var tail: seq<Finding> := if SameKey(x, k) then [x] else [];
    if s == [] {
      KeyRunSingle(x, k);
    } else if !RanksAbove(s[0], x) {
      InsertFrontStable(x, s, k);
    } else {
      var head: seq<Finding> := if SameKey(s[0], k) then [s[0]] else [];
      var ins := Insert(x, s[1..]);
      assert Insert(x, s) == [s[0]] + ins;
      assert KeyRun(ins, k) == KeyRun(s[1..], k) + tail by {
        SortedTail(s);
        InsertStable(x, s[1..], k);
      }
      assert KeyRun([s[0]] + ins, k) == head + KeyRun(ins, k) by {
        KeyRunCons(s[0], ins, k);
      }
      assert KeyRun(s, k) == head + KeyRun(s[1..], k) by {
        assert s == [s[0]] + s[1..];
        KeyRunCons(s[0], s[1..], k);
      }
      assert head + (KeyRun(s[1..], k) + tail) == (head + KeyRun(s[1..], k)) + tail;
    }
  }

  /** The sort is stable: findings with equal keys keep their input order. */
  lemma {:induction false} SortStable(s: seq<Finding>, k: Finding)
    ensures KeyRun(SortFindings(s), k) == KeyRun(s, k)
  {
    if s != [] {
      var n := |s| - 1;
      var sorted := SortFindings(s[..n]);
      var tail: seq<Finding> := if SameKey(s[n], k) then [s[n]] else [];
      assert SortFindings(s) == Insert(s[n], sorted);
      assert KeyRun(Insert(s[n], sorted), k) == KeyRun(sorted, k) + tail by {
        SortSorted(s[..n]);
        InsertStable(s[n], sorted, k);
      }
      assert KeyRun(sorted, k) == KeyRun(s[..n], k) by {
        SortStable(s[..n], k);
      }
      assert KeyRun(s, k) == KeyRun(s[..n], k) + tail by {
        assert s == s[..n] + [s[n]];
        KeyRunAppend(s[..n], [s[n]], k);
        KeyRunSingle(s[n], k);
      }
    }
  }

  /** `rank`: every input finding and one finding per promoted ML result, ordered by
      descending (severity weight, confidence). */
  function Rank(findings: seq<Finding>, ml: seq<MlEntry>, corr: Option<Correlation>): (r: seq<Finding>)
    ensures SortedDesc(r)
    ensures multiset(r) == multiset(findings + MlFindings(ml, corr))
    ensures forall k :: KeyRun(r, k) == KeyRun(findings + MlFindings(ml, corr), k)
    ensures |r| == |findings| + PromotedCount(ml)
  {
    var merged := findings + MlFindings(ml, corr);
    MlFindingsCount(ml, corr);
    SortSorted(merged);
    SortPerm(merged);
    forall k ensures KeyRun(SortFindings(merged), k) == KeyRun(merged, k) {
      SortStable(merged, k);
    }
    SortFindings(merged)
  }
}

=== FILE: signature.dfy ===
/** Building blocks for reading the engine's small regular expressions as explicit
    substring predicates. Each regex is stated as what a match means (an
    existential over the positions of its pieces), next to a decision procedure
    that skips whitespace greedily; lemmas connect the two. */
module Signature {
  import opened Text

  /** `s[i..j]` is a run of whitespace (Python's `\s*`). */
  predicate SpaceRun(s: string, i: int, j: int) {
    0 <= i <= j <= |s| && forall k :: i <= k < j ==> IsSpace(s[k])
  }

  /** `\s*q` matches starting at `i`. */
  predicate SpacedAt(s: string, i: int, q: string) {
    exists j :: i <= j <= |s| && SpaceRun(s, i, j) && OccursAt(s, q, j)
  }

  /** `\s+q` matches starting at `i`. */
  predicate SpacedAt1(s: string, i: int, q: string) {
    exists j :: i < j <= |s| && SpaceRun(s, i, j) && OccursAt(s, q, j)
  }

  /** The end of the longest whitespace run starting at `i`. */
  function SkipSpaces(s: string, i: nat): (j: nat)
    requires i <= |s|
    ensures SpaceRun(s, i, j)
    ensures j < |s| ==> !IsSpace(s[j])
  {
    var n := LeadCount(s[i..], IsSpace);
    assert forall k :: i <= k < i + n ==> IsSpace(s[k]) by {
      forall k | i <= k < i + n ensures IsSpace(s[k]) {
        assert s[i..][k - i] == s[k];
      }
    }
    assert i + n < |s| ==> s[i..][n] == s[i + n];
    i + n
  }

  /** Any whitespace run from `i` stops where the pattern starts, when the pattern
      does not start with whitespace: the greedy run is the only candidate. */
  lemma SpacedGreedy(s: string, i: nat, q: string)
    requires i <= |s|
    requires |q| > 0 && !IsSpace(q[0])
    ensures SpacedAt(s, i, q) <==> OccursAt(s, q, SkipSpaces(s, i))
  {
    var g := SkipSpaces(s, i);
    if SpacedAt(s, i, q) {
      var j :| i <= j <= |s| && SpaceRun(s, i, j) && OccursAt(s, q, j);
      assert s[j..j + |q|][0] == s[j];
      assert !IsSpace(s[j]);
      assert g < |s| ==> !IsSpace(s[g]);
      assert j == g;
    }
    if OccursAt(s, q, g) {
      assert SpaceRun(s, i, g);
    }
  }

  /** The same for `\s+`: the greedy run must be non-empty. */
  lemma Spaced1Greedy(s: string, i: nat, q: string)
    requires i <= |s|
    requires |q| > 0 && !IsSpace(q[0])
    ensures SpacedAt1(s, i, q) <==> SkipSpaces(s, i) > i && OccursAt(s, q, SkipSpaces(s, i))
  {
    var g := SkipSpaces(s, i);
    if SpacedAt1(s, i, q) {
      var j :| i < j <= |s| && SpaceRun(s, i, j) && OccursAt(s, q, j);
      assert SpacedAt(s, i, q);
      SpacedGreedy(s, i, q);
      assert s[j..j + |q|][0] == s[j];
      assert g < |s| ==> !IsSpace(s[g]);
      assert j == g;
    }
    if g > i && OccursAt(s, q, g) {
      assert SpaceRun(s, i, g);
    }
  }

  /** Some pattern of `ps` occurs in `s` (a regex alternation of literals, or
      Python's `any(p in s for p in ps)`). */
  predicate ContainsAny(s: string, ps: seq<string>) {
    exists k :: 0 <= k < |ps| && Contains(s, ps[k])
  }

  /** The entries of `ps` that occur in `s`, in the order of `ps`: a filter, so an
      entry listed twice is kept twice. */
  function Present(s: string, ps: seq<string>): (r: seq<string>)
    ensures |r| <= |ps|
    ensures forall p :: p in r <==> p in ps && Contains(s, p)
  {
    if ps == [] then []
    else (if Contains(s, ps[0]) then [ps[0]] else []) + Present(s, ps[1..])
  }

  /** Filtering two pattern lists in a row gives the present patterns of the
      first followed by those of the second. */
  lemma {:induction false} PresentAppend(s: string, ps: seq<string>, qs: seq<string>)
    ensures Present(s, ps + qs) == Present(s, ps) + Present(s, qs)
    decreases |ps|
  {
    if ps != [] {
      assert (ps + qs)[1..] == ps[1..] + qs;
      PresentAppend(s, ps[1..], qs);
    } else {
      assert ps + qs == qs;
    }
  }

  /** A single pattern is kept exactly when it occurs. */
  lemma PresentSingle(s: string, p: string)
    ensures Present(s, [p]) == if Contains(s, p) then [p] else []
  {
    assert [p][1..] == [];
  }

  /** `ContainsAny` holds exactly when some pattern is present. */
  lemma PresentIffAny(s: string, ps: seq<string>)
    ensures Present(s, ps) != [] <==> ContainsAny(s, ps)
  {
    if ContainsAny(s, ps) {
      var k :| 0 <= k < |ps| && Contains(s, ps[k]);
      assert ps[k] in Present(s, ps);
    }
    if Present(s, ps) != [] {
      var p := Present(s, ps)[0];
      assert p in Present(s, ps);
      var k :| 0 <= k < |ps| && ps[k] == p;
    }
  }
}

=== FILE: store.dfy ===
/** The in-memory session store: events grouped by source address, with the
    groups kept in the order their address was first seen (a Python dict). */
module Store {
  import opened Wrappers
  import opened Schema

  /** `order` lists the addresses in insertion order; `sessions` maps each to its events. */
  datatype SessionStore = SessionStore(order: seq<string>, sessions: map<string, seq<Event>>) {

    /** The dict invariant: every key listed once, and exactly the keys of the map. */
    ghost predicate Valid() {
      && Distinct(order)
      && (forall k :: k in sessions <==> k in order)
    }
  }

  /** No key listed twice. */
  predicate Distinct(s: seq<string>) {
    forall i, j :: 0 <= i < j < |s| ==> s[i] != s[j]
  }

  /** A list without repeats has as many entries as the set of its entries. */
  lemma {:induction false} DistinctCard(s: seq<string>, keys: set<string>)
    requires Distinct(s)
    requires forall k :: k in keys <==> k in s
    ensures |keys| == |s|
    decreases |s|
  {
    if s != [] {
      var last := s[|s| - 1];
      var init := s[..|s| - 1];
      assert s == init + [last];
      assert last !in init by {
        forall i | 0 <= i < |init| ensures init[i] != last {
          assert s[i] == init[i];
        }
      }
      forall k ensures k in keys - {last} <==> k in init {
        if k in init {
          var i :| 0 <= i < |init| && init[i] == k;
          assert s[i] == k;
        }
      }
      DistinctCard(init, keys - {last});
    }
  }

  /** Under the dict invariant the store holds one session per listed address. */
  lemma SessionCount(st: SessionStore)
    requires st.Valid()
    ensures |st.sessions.Keys| == |st.order|
  {
    DistinctCard(st.order, st.sessions.Keys);
  }

  /** `SessionStore()`. */
  function EmptyStore(): (st: SessionStore)
    ensures st.Valid() && st.order == [] && st.sessions == map[]
  {
    SessionStore([], map[])
  }

  /** `add_event`: append to the list of the event's address, `"unknown"` when it has none. */
  function AddEvent(st: SessionStore, e: Event): (r: SessionStore)
    ensures var k := IpKey(e.sourceIp);
      && k in r.sessions
      && r.sessions[k] == GetEvents(st, k) + [e]
      && r.order == (if k in st.sessions then st.order else st.order + [k])
  {
    var k := IpKey(e.sourceIp);
    if k in st.sessions then
      SessionStore(st.order, st.sessions[k := st.sessions[k] + [e]])
    else
      SessionStore(st.order + [k], st.sessions[k := [e]])
  }

  /** `add_event` keeps the dict invariant. */
  lemma AddEventValid(st: SessionStore, e: Event)
    requires st.Valid()
    ensures AddEvent(st, e).Valid()
  {
  }

  /** `add_event` appends to its own address only: every other address keeps its events. */
  lemma AddEventGet(st: SessionStore, e: Event, k: string)
    ensures GetEvents(AddEvent(st, e), k) == GetEvents(st, k) + (if IpKey(e.sourceIp) == k then [e] else [])
  {
  }

  /** `get_events`: the events of `ip`, or none for an address never seen. */
  function GetEvents(st: SessionStore, ip: string): (r: seq<Event>)
    ensures ip in st.sessions ==> r == st.sessions[ip]
    ensures ip !in st.sessions ==> r == []
  {
    if ip in st.sessions then st.sessions[ip] else []
  }

  /** `iter_sessions`: each address once, in insertion order, with its events. */
  function IterSessions(st: SessionStore): (r: seq<(string, seq<Event>)>)
    ensures |r| == |st.order|
    ensures forall i :: 0 <= i < |r| ==> r[i].0 == st.order[i] && r[i].1 == GetEvents(st, st.order[i])
  {
    seq(|st.order|, i requires 0 <= i < |st.order| => (st.order[i], GetEvents(st, st.order[i])))
  }

  /** `clear()`: forget every address. */
  function ClearAll(st: SessionStore): (r: SessionStore)
    ensures r.Valid() && r.order == [] && r.sessions == map[]
  {
    EmptyStore()
  }

  /** `clear(ip)`: forget one address; nothing happens when it is absent. */
  function ClearIp(st: SessionStore, ip: string): (r: SessionStore)
    ensures st.Valid() ==> r.Valid()
    ensures ip !in r.sessions
    ensures forall other :: other != ip ==> GetEvents(r, other) == GetEvents(st, other)
    ensures ip !in st.sessions ==> r == st
  {
    if ip !in st.sessions then st
    else SessionStore(Without(st.order, ip), st.sessions - {ip})
  }

  /** The keys of `order` other than `x`, in the same order. */
  function Without(order: seq<string>, x: string): (r: seq<string>)
    ensures forall k :: k in r <==> k in order && k != x
    ensures Distinct(order) ==> Distinct(r)
  {
    if order == [] then []
    else if order[0] == x then Without(order[1..], x)
    else
      var rest := Without(order[1..], x);
      assert Distinct(order) ==> order[0] !in order[1..] by {
        if Distinct(order) {
          forall j | 0 <= j < |order[1..]| ensures order[1..][j] != order[0] {
            assert order[1..][j] == order[j + 1];
          }
        }
      }
      [order[0]] + rest
  }

  function IndexOf(s: seq<string>, x: string): (i: nat)
    requires x in s
    ensures i < |s| && s[i] == x
    ensures forall j :: 0 <= j < i ==> s[j] != x
  {
    if s[0] == x then 0 else 1 + IndexOf(s[1..], x)
  }

  /** The total of the lengths of the lists of `keys`. */
  function SumLens<T>(keys: seq<string>, sessions: map<string, seq<T>>): nat {
    if keys == [] then 0
    else |if keys[0] in sessions then sessions[keys[0]] else []| + SumLens(keys[1..], sessions)
  }

  /** `len(store)`: the number of events held, over all addresses. */
  function Len(st: SessionStore): (n: nat)
    ensures st.order == [] ==> n == 0
    ensures forall i :: 0 <= i < |st.order| && st.order[i] in st.sessions ==> |st.sessions[st.order[i]]| <= n
  {
    forall i | 0 <= i < |st.order| && st.order[i] in st.sessions
      ensures |st.sessions[st.order[i]]| <= SumLens(st.order, st.sessions)
    {
      SumLensAtLeast(st.order, st.sessions, i);
    }
    SumLens(st.order, st.sessions)
  }

  /** Each listed key's list counts towards the total. */
  lemma {:induction false} SumLensAtLeast<T>(keys: seq<string>, m: map<string, seq<T>>, i: nat)
    requires i < |keys| && keys[i] in m
    ensures |m[keys[i]]| <= SumLens(keys, m)
  {
    if i > 0 {
      SumLensAtLeast(keys[1..], m, i - 1);
    }
  }

  lemma {:induction false} SumLensAppend<T>(a: seq<string>, b: seq<string>, m: map<string, seq<T>>)
    ensures SumLens(a + b, m) == SumLens(a, m) + SumLens(b, m)
  {
    if a != [] {
      assert (a + b)[1..] == a[1..] + b;
      SumLensAppend(a[1..], b, m);
    } else {
      assert a + b == b;
    }
  }

  /** Changing the list of a key not among `keys` leaves their total alone. */
  lemma {:induction false} SumLensOther<T>(keys: seq<string>, m: map<string, seq<T>>, k: string, v: seq<T>)
    requires k !in keys
    ensures SumLens(keys, m[k := v]) == SumLens(keys, m)
  {
    if keys != [] {
      SumLensOther(keys[1..], m, k, v);
    }
  }

  /** Changing the list of a key listed once changes the total by the change in its length. */
  lemma {:induction false} SumLensUpdate<T>(keys: seq<string>, m: map<string, seq<T>>, k: string, v: seq<T>)
    requires k in m
    requires exists i :: 0 <= i < |keys| && keys[i] == k
    requires Distinct(keys)
    ensures SumLens(keys, m[k := v]) + |m[k]| == SumLens(keys, m) + |v|
  {
    if keys[0] == k {
      assert k !in keys[1..] by {
        forall j | 0 <= j < |keys[1..]| ensures keys[1..][j] != k {
          assert keys[1..][j] == keys[j + 1];
        }
      }
      SumLensOther(keys[1..], m, k, v);
    } else {
      var i :| 0 <= i < |keys| && keys[i] == k;
      assert keys[1..][i - 1] == k;
      SumLensUpdate(keys[1..], m, k, v);
    }
  }

  /** `add_event` grows the store by exactly one event. */
  lemma AddEventLen(st: SessionStore, e: Event)
    requires st.Valid()
    ensures Len(AddEvent(st, e)) == Len(st) + 1
  {
    var k := IpKey(e.sourceIp);
    if k in st.sessions {
      var i :| 0 <= i < |st.order| && st.order[i] == k;
      SumLensUpdate(st.order, st.sessions, k, st.sessions[k] + [e]);
    } else {
      SumLensAppend(st.order, [k], st.sessions[k := [e]]);
      SumLensOther(st.order, st.sessions, k, [e]);
    }
  }

  /** `clear(ip)` removes exactly that address's events from the count. */
  lemma ClearIpLen(st: SessionStore, ip: string)
    requires st.Valid()
    ensures Len(ClearIp(st, ip)) + |GetEvents(st, ip)| == Len(st)
  {
    if ip in st.sessions {
      SumLensWithout(st.order, st.sessions, ip);
    }
  }

  /** Dropping a key from both the list and the map takes its list out of the total. */
  lemma {:induction false} SumLensWithout<T>(keys: seq<string>, m: map<string, seq<T>>, k: string)
    requires Distinct(keys)
    ensures SumLens(Without(keys, k), m - {k}) + (if k in keys && k in m then |m[k]| else 0) == SumLens(keys, m)
  {
    if keys != [] {
      assert Distinct(keys[1..]) by {
        forall i, j | 0 <= i < j < |keys[1..]| ensures keys[1..][i] != keys[1..][j] {
          assert keys[1..][i] == keys[i + 1] && keys[1..][j] == keys[j + 1];
        }
      }
      SumLensWithout(keys[1..], m, k);
      if keys[0] == k {
        assert k !in keys[1..] by {
          forall j | 0 <= j < |keys[1..]| ensures keys[1..][j] != k {
            assert keys[1..][j] == keys[j + 1];
          }
        }
      } else {
        assert k in keys <==> k in keys[1..];
      }
    }
  }

  /** The events of `es` filed under address `k`, in order. */
  function EventsFor(es: seq<Event>, k: string): (r: seq<Event>)
    ensures |r| <= |es|
  {
    if es == [] then []
    else (if IpKey(es[0].sourceIp) == k then [es[0]] else []) + EventsFor(es[1..], k)
  }

  /** `for event in events: store.add_event(event)`. */
  function AddAll(st: SessionStore, es: seq<Event>): SessionStore
    decreases |es|
  {
    if es == [] then st else AddAll(AddEvent(st, es[0]), es[1..])
  }

  lemma {:induction false} AddAllValid(st: SessionStore, es: seq<Event>)
    requires st.Valid()
    ensures AddAll(st, es).Valid()
    decreases |es|
  {
    if es != [] {
      AddEventValid(st, es[0]);
      AddAllValid(AddEvent(st, es[0]), es[1..]);
    }
  }

  /** After a batch, each address holds its earlier events followed by its events
      from the batch, in batch order. */
  lemma {:induction false} AddAllGet(st: SessionStore, es: seq<Event>, k: string)
    ensures GetEvents(AddAll(st, es), k) == GetEvents(st, k) + EventsFor(es, k)
    decreases |es|
  {
    if es == [] {
      assert GetEvents(st, k) + [] == GetEvents(st, k);
    } else {
      var st1 := AddEvent(st, es[0]);
      AddAllGet(st1, es[1..], k);
      AddEventGet(st, es[0], k);
      Regroup(GetEvents(st, k), if IpKey(es[0].sourceIp) == k then [es[0]] else [], EventsFor(es[1..], k));
    }
  }

  lemma Regroup<T>(a: seq<T>, b: seq<T>, c: seq<T>)
    ensures (a + b) + c == a + (b + c)
  {
  }

  /** Adding a batch grows the store by the batch's length. */
  lemma {:induction false} AddAllLen(st: SessionStore, es: seq<Event>)
    requires st.Valid()
    ensures Len(AddAll(st, es)) == Len(st) + |es|
    decreases |es|
  {
    if es != [] {
      AddEventLen(st, es[0]);
      AddEventValid(st, es[0]);
      AddAllLen(AddEvent(st, es[0]), es[1..]);
    }
  }

  /** An empty store holds nothing; `clear()` therefore resets the count. */
  lemma ClearAllLen(st: SessionStore)
    ensures Len(ClearAll(st)) == 0
  {
  }
}

=== FILE: text.dfy ===
/** The string operations of Python's `str` that the engine relies on, stated on
    `seq<char>`. Case folding covers ASCII letters only; `strip()` and the regex
    class `\s` use Python's own whitespace set. */
module Text {
  import opened Wrappers

  /** The characters for which Python's `str.isspace()` holds: what `strip()`
      removes and what the regular-expression class `\s` matches. */
  predicate IsSpace(c: char) {
    || c == ' ' || '\t' <= c <= '\r' || '\U{1c}' <= c <= '\U{1f}'
    || c == '\U{85}' || c == '\U{a0}' || c == '\U{1680}' || '\U{2000}' <= c <= '\U{200a}'
    || c == '\U{2028}' || c == '\U{2029}' || c == '\U{202f}' || c == '\U{205f}' || c == '\U{3000}'
  }

  predicate IsDigit(c: char) { '0' <= c <= '9' }
  predicate IsUpper(c: char) { 'A' <= c <= 'Z' }
  predicate IsLower(c: char) { 'a' <= c <= 'z' }
  predicate IsLetter(c: char) { IsUpper(c) || IsLower(c) }
  predicate IsAlnum(c: char) { IsLetter(c) || IsDigit(c) }

  function LowerChar(c: char): char {
    if IsUpper(c) then (c as int - 'A' as int + 'a' as int) as char else c
  }

  function UpperChar(c: char): char {
    if IsLower(c) then (c as int - 'a' as int + 'A' as int) as char else c
  }

  /** `str.lower()` on the ASCII letters. */
  function Lower(s: string): (r: string)
    ensures |r| == |s|
    ensures forall i :: 0 <= i < |s| ==> r[i] == LowerChar(s[i])
  {
    seq(|s|, i requires 0 <= i < |s| => LowerChar(s[i]))
  }

  /** `str.upper()` on the ASCII letters. */
  function Upper(s: string): (r: string)
    ensures |r| == |s|
    ensures forall i :: 0 <= i < |s| ==> r[i] == UpperChar(s[i])
  {
    seq(|s|, i requires 0 <= i < |s| => UpperChar(s[i]))
  }

  /** `str.replace(a, b)` for single characters. */
  function ReplaceChar(s: string, a: char, b: char): (r: string)
    ensures |r| == |s|
    ensures forall i :: 0 <= i < |s| ==> r[i] == (if s[i] == a then b else s[i])
  {
    seq(|s|, i requires 0 <= i < |s| => if s[i] == a then b else s[i])
  }

  lemma LowerConcat(a: string, b: string)
    ensures Lower(a + b) == Lower(a) + Lower(b)
  {
  }

  lemma LowerIdempotent(s: string)
    ensures Lower(Lower(s)) == Lower(s)
  {
  }

  /** A string with no upper-case ASCII letter is its own lower-case form. */
  lemma LowerOfLowered(s: string)
    requires forall c :: c in s ==> !IsUpper(c)
    ensures Lower(s) == s
  {
    assert forall i :: 0 <= i < |s| ==> s[i] in s;
  }

  // ---------------------------------------------------------------- stripping

  /** How many leading characters `str.lstrip()` removes: the longest prefix of
      characters for which `drop` holds. */
  function LeadCount(s: string, drop: char -> bool): (n: nat)
    ensures n <= |s|
    ensures forall i :: 0 <= i < n ==> drop(s[i])
    ensures n < |s| ==> !drop(s[n])
  {
    if s != [] && drop(s[0]) then 1 + LeadCount(s[1..], drop) else 0
  }

  /** How many trailing characters `str.rstrip()` removes. */
  function TrailCount(s: string, drop: char -> bool): (n: nat)
    ensures n <= |s|
    ensures forall i :: |s| - n <= i < |s| ==> drop(s[i])
    ensures n < |s| ==> !drop(s[|s| - n - 1])
  {
    if s != [] && drop(s[|s| - 1]) then 1 + TrailCount(s[..|s| - 1], drop) else 0
  }

  /** `str.strip()`: the window of `s` left once both ends are dropped. */
  function StripBy(s: string, drop: char -> bool): string {
    var a := LeadCount(s, drop);
    s[a..|s| - TrailCount(s[a..], drop)]
  }

  /** Python's `s.strip()`. */
  function Strip(s: string): string {
    StripBy(s, IsSpace)
  }

  /** Python's `s.strip(c)` for a single character `c`. */
  function StripChar(s: string, c: char): string {
    StripBy(s, x => x == c)
  }

  /** What `StripBy` keeps: a window of `s` whose two ends are kept characters,
      with only dropped characters outside it. */
  lemma StripByWindow(s: string, drop: char -> bool)
    ensures var a := LeadCount(s, drop); var r := StripBy(s, drop);
      && a + |r| <= |s| && r == s[a..a + |r|]
      && (forall i :: 0 <= i < a ==> drop(s[i]))
      && (forall i :: a + |r| <= i < |s| ==> drop(s[i]))
      && (r == [] || (!drop(r[0]) && !drop(r[|r| - 1])))
  {
    var a := LeadCount(s, drop);
    var t := s[a..];
    var m := TrailCount(t, drop);
    var r := StripBy(s, drop);
    assert r == t[..|t| - m];
    forall i | a + |r| <= i < |s|
      ensures drop(s[i])
    {
      assert s[i] == t[i - a];
    }
  }

  /** Stripping a string whose two ends are already kept changes nothing. */
  lemma StripByNoOp(s: string, drop: char -> bool)
    requires s == [] || (!drop(s[0]) && !drop(s[|s| - 1]))
    ensures StripBy(s, drop) == s
  {
  }

  lemma StripIdempotent(s: string)
    ensures Strip(Strip(s)) == Strip(s)
  {
    StripByWindow(s, IsSpace);
    StripByNoOp(Strip(s), IsSpace);
  }

  /** Stripping yields the empty string exactly when everything is whitespace. */
  lemma StripEmpty(s: string)
    ensures Strip(s) == [] <==> forall i :: 0 <= i < |s| ==> IsSpace(s[i])
  {
    StripByWindow(s, IsSpace);
  }

  /** Every character of `s` is either kept by `Strip` or whitespace. */
  lemma StripKeeps(s: string, i: nat)
    requires i < |s|
    ensures IsSpace(s[i]) || s[i] in Strip(s)
  {
    StripByWindow(s, IsSpace);
    var t := Strip(s);
    var a := LeadCount(s, IsSpace);
    if a <= i < a + |t| {
      assert t[i - a] == s[i];
    }
  }

  // ---------------------------------------------------------------- searching

  predicate StartsWith(s: string, p: string) {
    |p| <= |s| && s[..|p|] == p
  }

  predicate EndsWith(s: string, p: string) {
    |p| <= |s| && s[|s| - |p|..] == p
  }

  /** `p` occurs in `s` starting at index `i`. */
  predicate OccursAt(s: string, p: string, i: int) {
    0 <= i && i + |p| <= |s| && s[i..i + |p|] == p
  }

  /** Python's `p in s` for strings. */
  predicate Contains(s: string, p: string) {
    exists i :: 0 <= i <= |s| - |p| && OccursAt(s, p, i)
  }

  /** A pattern one of whose characters never appears in `s` cannot occur in `s`. */
  lemma NotContainedByChar(s: string, p: string, k: nat)
    requires k < |p| && p[k] !in s
    ensures !Contains(s, p)
  {
    forall i | 0 <= i <= |s| - |p|
      ensures !OccursAt(s, p, i)
    {
      assert s[i + k] in s;
      assert s[i..i + |p|][k] == s[i + k];
    }
  }

  /** An occurrence inside a part is an occurrence in the whole. */
  lemma ContainsInfix(a: string, b: string, c: string, p: string)
    requires Contains(b, p)
    ensures Contains(a + b + c, p)
  {
    var i :| 0 <= i <= |b| - |p| && OccursAt(b, p, i);
    assert (a + b + c)[|a| + i..|a| + i + |p|] == b[i..i + |p|];
    assert OccursAt(a + b + c, p, |a| + i);
  }

  lemma ContainsSelf(p: string)
    ensures Contains(p, p)
  {
    assert OccursAt(p, p, 0);
  }

  /** Python's `str.find(c)` for one character: the first index, or -1. */
  function Find(s: string, c: char): (r: int)
    ensures -1 <= r < |s|
    ensures r >= 0 ==> s[r] == c
    ensures forall i :: 0 <= i < |s| && (r < 0 || i < r) ==> s[i] != c
  {
    if s == [] then -1
    else if s[0] == c then 0
    else
      var k := Find(s[1..], c);
      if k < 0 then -1 else k + 1
  }

  lemma FindAbsent(s: string, c: char)
    ensures Find(s, c) == -1 <==> c !in s
  {
    if Find(s, c) >= 0 { assert s[Find(s, c)] in s; }
  }

  /** Python's `str.rfind(c)` for one character: the last index, or -1. */
  function FindLast(s: string, c: char): (r: int)
    ensures -1 <= r < |s|
    ensures r >= 0 ==> s[r] == c
    ensures forall i :: r < i < |s| ==> s[i] != c
  {
    if s == [] then -1
    else if s[|s| - 1] == c then |s| - 1
    else FindLast(s[..|s| - 1], c)
  }

  /** The last occurrence is the one with nothing equal to `c` after it. */
  lemma FindLastUnique(s: string, c: char, j: int)
    requires 0 <= j < |s| && s[j] == c
    requires forall i :: j < i < |s| ==> s[i] != c
    ensures FindLast(s, c) == j
  {
  }

  /** The first index at which a character of `chars` occurs, or `|s|` when none does. */
  function FirstOf(s: string, chars: set<char>): (r: nat)
    ensures r <= |s|
    ensures forall i :: 0 <= i < r ==> s[i] !in chars
    ensures r < |s| ==> s[r] in chars
  {
    if s == [] || s[0] in chars then 0 else 1 + FirstOf(s[1..], chars)
  }

  // ---------------------------------------------------------------- split / join

  /** Python's `sep.join(parts)`. */
  function Join(parts: seq<string>, sep: string): string {
    if |parts| == 0 then ""
    else if |parts| == 1 then parts[0]
    else parts[0] + sep + Join(parts[1..], sep)
  }

  /** Every part occurs in the join of the parts. */
  lemma {:induction false} JoinContains(parts: seq<string>, sep: string, i: nat)
    requires i < |parts|
    ensures Contains(Join(parts, sep), parts[i])
    decreases |parts|
  {
    if |parts| == 1 {
      ContainsSelf(parts[0]);
    } else {
      var rest := Join(parts[1..], sep);
      assert Join(parts, sep) == parts[0] + sep + rest;
      if i == 0 {
        ContainsSelf(parts[0]);
        ContainsInfix("", parts[0], sep + rest, parts[0]);
        assert "" + parts[0] + (sep + rest) == parts[0] + sep + rest;
      } else {
        JoinContains(parts[1..], sep, i - 1);
        ContainsInfix(parts[0] + sep, rest, "", parts[i]);
        assert parts[0] + sep + rest + "" == parts[0] + sep + rest;
      }
    }
  }

  /** Python's `s.split(c)`: at least one part and no part holding the separator. */
  function Split(s: string, c: char): (r: seq<string>)
    ensures |r| >= 1
    ensures forall i :: 0 <= i < |r| ==> c !in r[i]
    decreases |s|
  {
    var k := Find(s, c);
    if k < 0 then
      FindAbsent(s, c);
      [s]
    else
      assert forall j :: 0 <= j < k ==> s[..k][j] == s[j];
      [s[..k]] + Split(s[k + 1..], c)
  }

  /** Joining the parts of a split with the separator gives the string back. */
  lemma {:induction false} JoinSplit(s: string, c: char)
    ensures Join(Split(s, c), [c]) == s
    decreases |s|
  {
    var k := Find(s, c);
    if k >= 0 {
      JoinSplit(s[k + 1..], c);
      assert s == s[..k] + [c] + s[k + 1..];
    }
  }

  /** A character in no part and not in the separator is not in the join. */
  lemma {:induction false} NotInJoin(parts: seq<string>, sep: string, c: char)
    requires forall i :: 0 <= i < |parts| ==> c !in parts[i]
    requires c !in sep
    ensures c !in Join(parts, sep)
    decreases |parts|
  {
    if |parts| > 1 {
      NotInJoin(parts[1..], sep, c);
    }
  }

  /** Splitting a join of separator-free parts gives the parts back. */
  lemma {:induction false} SplitJoin(parts: seq<string>, c: char)
    requires |parts| >= 1
    requires forall i :: 0 <= i < |parts| ==> c !in parts[i]
    ensures Split(Join(parts, [c]), c) == parts
    decreases |parts|
  {
    if |parts| == 1 {
      FindAbsent(parts[0], c);
    } else {
      var tail := parts[1..];
      assert Join(parts, [c]) == parts[0] + [c] + Join(tail, [c]);
      assert c !in parts[0];
      SplitCons(parts[0], c, Join(tail, [c]));
      SplitJoin(tail, c);
      assert parts == [parts[0]] + tail;
    }
  }

  /** A separator-free prefix followed by the separator is split off as the first
      part. */
  lemma SplitCons(p: string, c: char, rest: string)
    requires c !in p
    ensures Split(p + [c] + rest, c) == [p] + Split(rest, c)
  {
    var s := p + [c] + rest;
    assert s[|p|] == c;
    forall i | 0 <= i < |p|
      ensures s[i] != c
    {
      assert s[i] == p[i];
      assert p[i] in p;
    }
    assert Find(s, c) == |p|;
    assert s[..|p|] == p;
    assert s[|p| + 1..] == rest;
  }

  /** The part before the first `c` (Python's `s.split(c)[0]`). */
  function Before(s: string, c: char): (r: string)
    ensures c !in r && StartsWith(s, r)
    ensures r == Split(s, c)[0]
  {
    var k := Find(s, c);
    if k < 0 then s else s[..k]
  }

  /** Whatever follows the first `c`, the part before it is the same. */
  lemma BeforeSeparator(a: string, c: char, rest: string)
    requires c !in a
    ensures Before(a + [c] + rest, c) == a
  {
    var s := a + [c] + rest;
    assert s[|a|] == c;
    forall i | 0 <= i < |a| ensures s[i] != c {
      assert s[i] == a[i];
    }
    assert s[..|a|] == a;
  }

  /** The part after the last `c` (Python's `s.rsplit(c, 1)[-1]`). */
  function AfterLast(s: string, c: char): (r: string)
    ensures EndsWith(s, r)
    ensures forall i :: 0 <= i < |r| ==> r[i] != c
    ensures |r| < |s| ==> s[|s| - |r| - 1] == c
  {
    var k := FindLast(s, c);
    if k < 0 then s else s[k + 1..]
  }

  lemma FindLastAbsent(s: string, c: char)
    ensures FindLast(s, c) == -1 <==> c !in s
  {
    if FindLast(s, c) >= 0 { assert s[FindLast(s, c)] in s; }
  }

  /** What follows the last `c` is unchanged by cutting `s` after an earlier `c`. */
  lemma AfterLastOfSuffix(s: string, c: char, k: nat)
    requires k < |s| && s[k] == c
    ensures AfterLast(s, c) == AfterLast(s[k + 1..], c)
  {
    var t := s[k + 1..];
    var m := FindLast(t, c);
    if m < 0 {
      forall i | k < i < |s| ensures s[i] != c { assert s[i] == t[i - k - 1]; }
      FindLastUnique(s, c, k);
    } else {
      forall i | k + 1 + m < i < |s| ensures s[i] != c { assert s[i] == t[i - k - 1]; }
      FindLastUnique(s, c, k + 1 + m);
      assert s[k + m + 2..] == t[m + 1..];
    }
  }

  lemma SplitLastNoSeparator(s: string, c: char)
    requires Find(s, c) < 0
    ensures Split(s, c)[|Split(s, c)| - 1] == AfterLast(s, c)
  {
    FindAbsent(s, c);
    FindLastAbsent(s, c);
  }

  /** With a separator present, the last part of the split is the last part of
      the split of what follows the first separator. */
  lemma SplitLastOfTail(s: string, c: char)
    requires Find(s, c) >= 0
    ensures var t := s[Find(s, c) + 1..];
      Split(s, c)[|Split(s, c)| - 1] == Split(t, c)[|Split(t, c)| - 1]
  {
    var k := Find(s, c);
    assert Split(s, c) == [s[..k]] + Split(s[k + 1..], c);
  }

  /** The last part of `s.split(c)` is what follows the last `c`. */
  lemma {:induction false} SplitLastIsAfterLast(s: string, c: char)
    ensures Split(s, c)[|Split(s, c)| - 1] == AfterLast(s, c)
    decreases |s|
  {
    var k := Find(s, c);
    if k >= 0 {
      var t := s[k + 1..];
      var parts, rest := Split(s, c), Split(t, c);
      SplitLastOfTail(s, c);
      assert parts[|parts| - 1] == rest[|rest| - 1];
      SplitLastIsAfterLast(t, c);
      assert rest[|rest| - 1] == AfterLast(t, c);
      AfterLastOfSuffix(s, c, k);
    } else {
      SplitLastNoSeparator(s, c);
    }
  }

  /** Python's `s.count(c)` for one character. */
  function CountChar(s: string, c: char): (r: nat)
    ensures r <= |s|
    ensures r == 0 <==> c !in s
  {
    if s == [] then 0 else (if s[0] == c then 1 else 0) + CountChar(s[1..], c)
  }

  /** Counting distributes over concatenation. */
  lemma {:induction false} CountCharAppend(a: string, b: string, c: char)
    ensures CountChar(a + b, c) == CountChar(a, c) + CountChar(b, c)
    decreases |a|
  {
    if a != [] {
      assert (a + b)[1..] == a[1..] + b;
      CountCharAppend(a[1..], b, c);
    } else {
      assert a + b == b;
    }
  }

  // ---------------------------------------------------------------- integers

  /** A decimal digit string as Python's `int()` accepts it: digits, with single
      underscores allowed between two digits. */
  predicate IsDigitGroups(s: string) {
    && |s| > 0
    && IsDigit(s[0]) && IsDigit(s[|s| - 1])
    && (forall i :: 0 <= i < |s| ==> IsDigit(s[i]) || s[i] == '_')
    && (forall i :: 0 <= i < |s| - 1 ==> !(s[i] == '_' && s[i + 1] == '_'))
  }

  function DigitValue(c: char): nat
    requires IsDigit(c)
  {
    c as int - '0' as int
  }

  /** The value of a digit string, underscores skipped. */
  function DigitsValue(s: string): nat
    requires forall i :: 0 <= i < |s| ==> IsDigit(s[i]) || s[i] == '_'
  {
    if s == [] then 0
    else if s[|s| - 1] == '_' then DigitsValue(s[..|s| - 1])
    else 10 * DigitsValue(s[..|s| - 1]) + DigitValue(s[|s| - 1])
  }

  /** Python's `int(text)` on a string: surrounding whitespace allowed, an optional
      sign, then digit groups; `None` where Python raises `ValueError`. */
  function PyInt(text: string): (r: Option<int>)
    ensures r.Some? ==> |Strip(text)| > 0
  {
    SignedValue(Strip(text))
  }

  /** `int()` on an already stripped string. */
  function SignedValue(t: string): (r: Option<int>)
    ensures r.Some? ==> |t| > 0
  {
    if |t| > 0 && (t[0] == '+' || t[0] == '-') then
      var body := t[1..];
      if IsDigitGroups(body) then
        Some(if t[0] == '-' then -(DigitsValue(body) as int) else DigitsValue(body))
      else None
    else if IsDigitGroups(t) then
      Some(DigitsValue(t))
    else None
  }

  /** A string `PyInt` accepts contains no letter. */
  lemma PyIntNoLetters(text: string, i: nat)
    requires PyInt(text).Some? && i < |text|
    ensures !IsLetter(text[i])
  {
    StripByWindow(text, IsSpace);
    var t := Strip(text);
    var a := LeadCount(text, IsSpace);
    if a <= i < a + |t| {
      assert t[i - a] == text[i];
      if t[0] == '+' || t[0] == '-' {
        if i > a { assert t[1..][i - a - 1] == text[i]; }
      }
    }
  }

  function DigitChar(d: nat): char
    requires d < 10
  {
    ('0' as int + d) as char
  }

  /** Python's `str(n)` for a non-negative integer. */
  function NatToString(n: nat): (r: string)
    ensures |r| > 0
    ensures forall i :: 0 <= i < |r| ==> IsDigit(r[i])
  {
    if n < 10 then [DigitChar(n)] else NatToString(n / 10) + [DigitChar(n % 10)]
  }

  /** Python's `str(n)` for any integer. */
  function IntToString(n: int): (r: string)
    ensures |r| > 0
    ensures n >= 0 ==> r == NatToString(n)
    ensures n < 0 ==> r == "-" + NatToString(-n)
  {
    if n < 0 then "-" + NatToString(-n) else NatToString(n)
  }

  lemma {:induction false} NatToStringValue(n: nat)
    ensures DigitsValue(NatToString(n)) == n
  {
    if n >= 10 {
      NatToStringValue(n / 10);
      var s := NatToString(n);
      assert s[..|s| - 1] == NatToString(n / 10);
    }
  }

  lemma NatToStringIsDigitGroups(n: nat)
    ensures IsDigitGroups(NatToString(n))
  {
  }

  /** Python's `int()` reads a bare digit string as its decimal value. */
  lemma PyIntOfDigits(d: string)
    requires |d| > 0 && forall i :: 0 <= i < |d| ==> IsDigit(d[i])
    ensures PyInt(d) == Some(DigitsValue(d))
  {
    StripByNoOp(d, IsSpace);
  }

  /** ... and a minus sign followed by digits as the negated value. */
  lemma PyIntOfNegDigits(t: string)
    requires |t| > 1 && t[0] == '-'
    requires forall i :: 1 <= i < |t| ==> IsDigit(t[i])
    ensures PyInt(t) == Some(-(DigitsValue(t[1..]) as int))
  {
    StripByNoOp(t, IsSpace);
    assert IsDigitGroups(t[1..]);
  }

  /** `int(str(n)) == n`: rendering an integer and parsing it back is the identity. */
  lemma IntToStringRoundTrip(n: int)
    ensures PyInt(IntToString(n)) == Some(n)
  {
    var m: nat := if n < 0 then -n else n;
    NatToStringValue(m);
    if n < 0 {
      var t := IntToString(n);
      assert t[1..] == NatToString(m);
      PyIntOfNegDigits(t);
    } else {
      PyIntOfDigits(NatToString(m));
    }
  }

  // ---------------------------------------------------------------- title case

  function TitleChar(c: char, afterLetter: bool): char {
    if !IsLetter(c) then c else if afterLetter then LowerChar(c) else UpperChar(c)
  }

  function TitleFrom(s: string, afterLetter: bool): (r: string)
    ensures |r| == |s|
    ensures |s| > 0 ==> r[0] == TitleChar(s[0], afterLetter)
    ensures forall i :: 0 < i < |s| ==> r[i] == TitleChar(s[i], IsLetter(s[i - 1]))
  {
    if s == [] then []
    else
      var rest := TitleFrom(s[1..], IsLetter(s[0]));
      assert forall i :: 0 < i < |s| ==> s[1..][i - 1] == s[i];
      [TitleChar(s[0], afterLetter)] + rest
  }

  /** `str.title()` on ASCII: a letter is upper-cased when it starts a run of
      letters and lower-cased otherwise; other characters are kept. */
  function Title(s: string): (r: string)
    ensures |r| == |s|
    ensures forall i :: 0 <= i < |s| && IsLetter(s[i]) && (i == 0 || !IsLetter(s[i - 1])) ==> r[i] == UpperChar(s[i])
    ensures forall i :: 0 < i < |s| && IsLetter(s[i]) && IsLetter(s[i - 1]) ==> r[i] == LowerChar(s[i])
    ensures forall i :: 0 <= i < |s| && !IsLetter(s[i]) ==> r[i] == s[i]
  {
    var r := TitleFrom(s, false);
    forall i | 0 <= i < |s|
      ensures r[i] == TitleChar(s[i], i > 0 && IsLetter(s[i - 1]))
      ensures !IsLetter(s[i]) ==> r[i] == s[i]
    {
    }
    r
  }
}

=== FILE: url.dfy ===
/** The parts of Python's `urllib.parse` the engine relies on: `urlsplit`,
    `urlparse` (with `;params`), and `unquote` restricted to single-byte escapes. */
module Url {
  import opened Wrappers
  import opened Text

  // ---------------------------------------------------------------- cleaning

  /** Tab, carriage return and line feed are deleted anywhere in a URL. */
  predicate IsUnsafe(c: char) {
    c == '\t' || c == '\r' || c == '\n'
  }

  /** C0 control characters and space are stripped from the front of a URL. */
  predicate IsC0OrSpace(c: char) {
    c <= ' '
  }

  function RemoveUnsafe(s: string): (r: string)
    ensures |r| <= |s|
    ensures (forall i :: 0 <= i < |s| ==> !IsUnsafe(s[i])) ==> r == s
  {
    if s == [] then []
    else
      var rest := RemoveUnsafe(s[1..]);
      if IsUnsafe(s[0]) then rest else [s[0]] + rest
  }

  /** Removal keeps exactly the characters that are not unsafe. */
  lemma {:induction false} RemoveUnsafeMembers(s: string)
    ensures forall c :: c in RemoveUnsafe(s) <==> c in s && !IsUnsafe(c)
    decreases |s|
  {
    if s != [] {
      RemoveUnsafeMembers(s[1..]);
      assert forall c :: c in s <==> c == s[0] || c in s[1..];
    }
  }

  /** What `urlsplit` actually parses. */
  function Clean(url: string): (r: string)
    ensures |r| <= |url|
  {
    RemoveUnsafe(url[LeadCount(url, IsC0OrSpace)..])
  }

  // ---------------------------------------------------------------- urlsplit

  predicate IsSchemeChar(c: char) {
    IsAlnum(c) || c == '+' || c == '-' || c == '.'
  }

  /** The index of the colon that ends a scheme, or -1 when `u` has no scheme: the
      first colon, preceded by an ASCII letter and then scheme characters only. */
  function SchemeEnd(u: string): (i: int)
    ensures i == -1 || (0 < i < |u| && u[i] == ':' && ':' !in u[..i])
  {
    var i := Find(u, ':');
    if i > 0 && IsLetter(u[0]) && (forall j :: 0 <= j < i ==> IsSchemeChar(u[j])) then
      assert forall j :: 0 <= j < i ==> u[..i][j] == u[j];
      i
    else -1
  }

  /** The components of a split URL, recording which delimiters were present. */
  datatype Pieces = Pieces(
    scheme: string,
    authority: Option<string>,
    path: string,
    query: Option<string>,
    fragment: Option<string>)

  /** A netloc with an unmatched square bracket is rejected. */
  predicate BracketMismatch(netloc: string) {
    ('[' in netloc && ']' !in netloc) || (']' in netloc && '[' !in netloc)
  }

  /** A component with its leading delimiter, or nothing when it is absent. */
  function Delimited(c: char, part: Option<string>): string {
    if part.Some? then [c] + part.value else ""
  }

  /** `s` cut at the first `c`: what precedes it, and what follows it when present. */
  function CutAt(s: string, c: char): (r: (string, Option<string>))
    ensures c !in r.0
    ensures r.0 + Delimited(c, r.1) == s
  {
    var k := Find(s, c);
    if k < 0 then
      FindAbsent(s, c);
      (s, None)
    else
      assert forall i :: 0 <= i < k ==> s[..k][i] == s[i];
      assert s == s[..k] + [c] + s[k + 1..];
      (s[..k], Some(s[k + 1..]))
  }

  /** The path, query and fragment of what follows the authority. */
  function SplitTail(s: string): (r: (string, Option<string>, Option<string>))
    ensures '?' !in r.0 && '#' !in r.0
    ensures r.1.Some? ==> '#' !in r.1.value
    ensures r.0 + Delimited('?', r.1) + Delimited('#', r.2) == s
  {
    var (beforeFragment, fragment) := CutAt(s, '#');
    var (path, query) := CutAt(beforeFragment, '?');
    assert query.Some? ==> '#' !in query.value by {
      if query.Some? {
        forall x | x in query.value ensures x in beforeFragment {
          assert x in Delimited('?', query);
        }
      }
    }
    (path, query, fragment)
  }

  /** The authority after a leading `//`: up to the first `/`, `?` or `#`. */
  function SplitAuthority(s: string): (r: (Option<string>, string))
    ensures r.0.Some? <==> StartsWith(s, "//")
    ensures r.0.Some? ==> '/' !in r.0.value && '?' !in r.0.value && '#' !in r.0.value
    ensures (if r.0.Some? then "//" + r.0.value else "") + r.1 == s
    ensures r.0.Some? && r.1 != [] ==> r.1[0] in {'/', '?', '#'}
  {
    if StartsWith(s, "//") then
      var rest := s[2..];
      var d := FirstOf(rest, {'/', '?', '#'});
      assert s == "//" + rest[..d] + rest[d..];
      (Some(rest[..d]), rest[d..])
    else (None, s)
  }

  /** Python's `urlsplit`, keeping track of which delimiters were present. */
  function SplitPieces(url: string): (r: Result<Pieces, string>)
    ensures r.Failure? <==> SplitAuthority(SchemeRest(Clean(url))).0.Some? && BracketMismatch(SplitAuthority(SchemeRest(Clean(url))).0.value)
    ensures r.Success? ==> '?' !in r.value.path && '#' !in r.value.path
    ensures r.Success? && r.value.authority.Some? ==> '/' !in r.value.authority.value
  {
    var u := Clean(url);
    var i := SchemeEnd(u);
    var scheme := if i > 0 then Lower(u[..i]) else "";
    var (authority, tail) := SplitAuthority(SchemeRest(u));
    if authority.Some? && BracketMismatch(authority.value) then Failure("Invalid IPv6 URL")
    else
      var (path, query, fragment) := SplitTail(tail);
      Success(Pieces(scheme, authority, path, query, fragment))
  }

  /** What follows the scheme and its colon (all of `u` when there is no scheme). */
  function SchemeRest(u: string): (r: string)
    ensures SchemeEnd(u) > 0 ==> u == u[..SchemeEnd(u)] + ":" + r
    ensures SchemeEnd(u) <= 0 ==> r == u
  {
    var i := SchemeEnd(u);
    if i > 0 then
      assert u == u[..i] + ":" + u[i + 1..];
      u[i + 1..]
    else u
  }

  /** The pieces put back together, each with its delimiter. */
  function Reassemble(p: Pieces): string {
    (if p.scheme != "" then p.scheme + ":" else "")
    + (if p.authority.Some? then "//" + p.authority.value else "")
    + p.path + Delimited('?', p.query) + Delimited('#', p.fragment)
  }

  /** No ASCII capital letters. */
  predicate NoCapitals(s: string) {
    forall i :: 0 <= i < |s| ==> !IsUpper(s[i])
  }

  /** `u` with its scheme, when it has one, lower-cased. */
  function LowerScheme(u: string): (r: string)
    ensures |r| == |u|
    ensures SchemeEnd(u) > 0 ==> r[SchemeEnd(u)..] == u[SchemeEnd(u)..]
    ensures SchemeEnd(u) <= 0 ==> r == u
  {
    var i := SchemeEnd(u);
    if i > 0 then Lower(u[..i]) + u[i..] else u
  }

  /** Splitting loses nothing: the pieces reassemble to the cleaned URL with its
      scheme lower-cased, and so to the cleaned URL itself when the scheme has no
      capitals. */
  lemma SplitReassemble(url: string)
    requires SplitPieces(url).Success?
    ensures Reassemble(SplitPieces(url).value) == LowerScheme(Clean(url))
    ensures var u := Clean(url); SchemeEnd(u) <= 0 || NoCapitals(u[..SchemeEnd(u)]) ==>
      Reassemble(SplitPieces(url).value) == u
  {
    var u := Clean(url);
    var p := SplitPieces(url).value;
    var i := SchemeEnd(u);
    var rest := SchemeRest(u);
    var sa := SplitAuthority(rest);
    var st := SplitTail(sa.1);
    assert p == Pieces(if i > 0 then Lower(u[..i]) else "", sa.0, st.0, st.1, st.2);
    var schemeText := if p.scheme != "" then p.scheme + ":" else "";
    var authText := if sa.0.Some? then "//" + sa.0.value else "";
    var d1, d2 := Delimited('?', st.1), Delimited('#', st.2);
    SchemeSplit(u);
    assert rest == authText + ((st.0 + d1) + d2);
    assert Reassemble(p) == schemeText + authText + st.0 + d1 + d2;
    Regroup(schemeText, authText, st.0, d1, d2);
    if i <= 0 || NoCapitals(u[..i]) {
      LowerSchemeKeeps(u);
    }
  }

  /** The scheme-lowered URL is the lowered scheme and its colon, then the rest. */
  lemma SchemeSplit(u: string)
    ensures var i := SchemeEnd(u);
      LowerScheme(u) == (if i > 0 then Lower(u[..i]) + ":" else "") + SchemeRest(u)
  {
    var i := SchemeEnd(u);
    if i > 0 {
      var rest := SchemeRest(u);
      assert u == u[..i] + ":" + rest;
      assert u[i..] == (u[..i] + ":" + rest)[i..];
    }
  }

  /** Lower-casing a scheme without capitals changes nothing. */
  lemma LowerSchemeKeeps(u: string)
    requires SchemeEnd(u) <= 0 || NoCapitals(u[..SchemeEnd(u)])
    ensures LowerScheme(u) == u
  {
    var i := SchemeEnd(u);
    if i > 0 {
      assert Lower(u[..i]) == u[..i] by {
        forall j | 0 <= j < i ensures LowerChar(u[..i][j]) == u[..i][j] {
          assert !IsUpper(u[..i][j]);
        }
      }
      assert u == u[..i] + u[i..];
    }
  }

  lemma Regroup(a: string, b: string, c: string, d: string, e: string)
    ensures a + b + c + d + e == a + (b + ((c + d) + e))
  {
    assert (c + d) + e == c + d + e;
    assert b + (c + d + e) == b + c + d + e;
  }

  /** The result of `urlsplit`, with absent components as empty strings. */
  datatype SplitResult = SplitResult(scheme: string, netloc: string, path: string, query: string, fragment: string)

  function UrlSplit(url: string): (r: Result<SplitResult, string>)
    ensures r.Success? <==> SplitPieces(url).Success?
    ensures r.Success? ==> var p := SplitPieces(url).value;
      r.value == SplitResult(p.scheme, p.authority.GetOr(""), p.path, p.query.GetOr(""), p.fragment.GetOr(""))
  {
    match SplitPieces(url)
    case Failure(e) => Failure(e)
    case Success(p) => Success(SplitResult(p.scheme, p.authority.GetOr(""), p.path, p.query.GetOr(""), p.fragment.GetOr("")))
  }

  /** The base a path-only URL is resolved against before parsing. */
  const LocalScheme: string := "http"
  const LocalHost: string := "example.local"
  const LocalBase: string := LocalScheme + "://" + LocalHost

  lemma {:induction false} RemoveUnsafeAppend(a: string, b: string)
    ensures RemoveUnsafe(a + b) == RemoveUnsafe(a) + RemoveUnsafe(b)
  {
    if a != [] {
      assert (a + b)[1..] == a[1..] + b;
      RemoveUnsafeAppend(a[1..], b);
    } else {
      assert a + b == b;
    }
  }

  /** Cleaning a URL that starts with a visible character and a clean prefix only
      touches what follows the prefix. */
  lemma CleanPrefixed(a: string, t: string)
    requires a != [] && !IsC0OrSpace(a[0])
    requires forall i :: 0 <= i < |a| ==> !IsUnsafe(a[i])
    ensures Clean(a + t) == a + RemoveUnsafe(t)
  {
    var s := a + t;
    assert s[0] == a[0];
    assert LeadCount(s, IsC0OrSpace) == 0;
    assert s[0..] == s;
    RemoveUnsafeAppend(a, t);
  }

  /** A scheme followed by `:` ends at that colon. */
  lemma SchemeColon(scheme: string, rest: string)
    requires |scheme| > 0 && IsLetter(scheme[0])
    requires forall i :: 0 <= i < |scheme| ==> IsSchemeChar(scheme[i])
    ensures SchemeEnd(scheme + ":" + rest) == |scheme|
    ensures SchemeRest(scheme + ":" + rest) == rest
  {
    var u := scheme + ":" + rest;
    var n := |scheme|;
    assert u[n] == ':';
    assert forall i :: 0 <= i < n ==> u[i] == scheme[i];
    assert Find(u, ':') == n;
    assert u[n + 1..] == rest;
  }

  /** `//host` followed by a path: the authority is exactly `host`. */
  lemma AuthorityHost(host: string, r: string)
    requires forall i :: 0 <= i < |host| ==> host[i] != '/' && host[i] != '?' && host[i] != '#'
    requires r != [] && r[0] == '/'
    ensures SplitAuthority("//" + host + r).0 == Some(host)
  {
    var tail := host + r;
    assert tail[..|host|] == host;
    assert forall i :: 0 <= i < |host| ==> tail[i] !in {'/', '?', '#'} by {
      forall i | 0 <= i < |host| ensures tail[i] !in {'/', '?', '#'} {
        assert tail[i] == host[i];
      }
    }
    AuthorityAt(tail, |host|);
    assert "//" + host + r == "//" + tail;
  }

  /** The authority after `//` runs up to the first delimiter. */
  lemma AuthorityAt(tail: string, n: nat)
    requires n < |tail| && tail[n] in {'/', '?', '#'}
    requires forall i :: 0 <= i < n ==> tail[i] !in {'/', '?', '#'}
    ensures SplitAuthority("//" + tail).0 == Some(tail[..n])
  {
    assert ("//" + tail)[2..] == tail;
    FirstOfAt(tail, n, {'/', '?', '#'});
  }

  /** The first position holding one of `chars` is the one before which none do. */
  lemma FirstOfAt(s: string, n: nat, chars: set<char>)
    requires n < |s| && s[n] in chars
    requires forall i :: 0 <= i < n ==> s[i] !in chars
    ensures FirstOf(s, chars) == n
  {
  }

  /** A URL that cleans to `scheme://host` and a path splits with that scheme and
      exactly that host. */
  lemma SplitSchemeHost(url: string, scheme: string, host: string, r: string)
    requires Clean(url) == scheme + ":" + ("//" + host + r)
    requires |scheme| > 0 && IsLetter(scheme[0]) && Lower(scheme) == scheme
    requires forall i :: 0 <= i < |scheme| ==> IsSchemeChar(scheme[i])
    requires forall i :: 0 <= i < |host| ==> host[i] != '/' && host[i] != '?' && host[i] != '#'
    requires !BracketMismatch(host)
    requires r != [] && r[0] == '/'
    ensures UrlSplit(url).Success?
    ensures UrlSplit(url).value.scheme == scheme
    ensures UrlSplit(url).value.netloc == host
  {
    var u := Clean(url);
    SchemeColon(scheme, "//" + host + r);
    assert u[..|scheme|] == scheme;
    AuthorityHost(host, r);
  }

  /** The scheme of the base. */
  lemma LocalSchemeChars()
    ensures |LocalScheme| > 0 && IsLetter(LocalScheme[0]) && Lower(LocalScheme) == LocalScheme
    ensures forall i :: 0 <= i < |LocalScheme| ==> IsSchemeChar(LocalScheme[i])
  {
  }

  /** The host of the base holds no delimiter and no bracket. */
  lemma LocalHostChars()
    ensures forall i :: 0 <= i < |LocalHost| ==> LocalHost[i] != '/' && LocalHost[i] != '?' && LocalHost[i] != '#'
    ensures !BracketMismatch(LocalHost)
  {
    assert '/' !in LocalHost && '?' !in LocalHost && '#' !in LocalHost;
    assert forall i :: 0 <= i < |LocalHost| ==> LocalHost[i] in LocalHost;
  }

  /** The base starts with a visible character and holds no character that
      cleaning deletes. */
  lemma LocalBaseChars()
    ensures LocalBase != [] && !IsC0OrSpace(LocalBase[0])
    ensures forall i :: 0 <= i < |LocalBase| ==> !IsUnsafe(LocalBase[i])
  {
    assert '\t' !in LocalBase && '\r' !in LocalBase && '\n' !in LocalBase;
    assert forall i :: 0 <= i < |LocalBase| ==> LocalBase[i] in LocalBase;
  }

  /** The base followed by `x`, regrouped around the scheme's colon. */
  lemma LocalRegroup(x: string)
    ensures LocalBase + x == LocalScheme + ":" + ("//" + LocalHost + x)
  {
    assert "://" == ":" + "//";
  }

  /** A path-only URL put after the base is split with scheme `http` and host
      `example.local`. */
  lemma SplitLocal(t: string)
    requires t != [] && t[0] == '/'
    ensures UrlSplit(LocalBase + t).Success?
    ensures UrlSplit(LocalBase + t).value.scheme == LocalScheme
    ensures UrlSplit(LocalBase + t).value.netloc == LocalHost
  {
    LocalBaseChars();
    CleanPrefixed(LocalBase, t);
    LocalRegroup(RemoveUnsafe(t));
    LocalSchemeChars();
    LocalHostChars();
    SplitSchemeHost(LocalBase + t, LocalScheme, LocalHost, RemoveUnsafe(t));
  }

  // ---------------------------------------------------------------- urlparse

  /** Schemes whose paths carry `;params`. */
  predicate UsesParams(scheme: string) {
    scheme in {"", "ftp", "hdl", "prospero", "http", "imap", "https", "shttp", "rtsp", "rtsps",
               "rtspu", "sip", "sips", "mms", "sftp", "tel"}
  }

  /** `_splitparams`: the parameters start at the first `;` after the last `/`
      (or at the first `;` when there is no `/`). */
  function SplitParams(path: string): (r: (string, string))
    ensures (r.0 == path && r.1 == "") || r.0 + ";" + r.1 == path
  {
    var slash := FindLast(path, '/');
    var start := if slash >= 0 then slash else 0;
    var k := Find(path[start..], ';');
    if k < 0 then (path, "")
    else
      var i := start + k;
      assert path[i] == ';';
      assert path == path[..i] + ";" + path[i + 1..];
      (path[..i], path[i + 1..])
  }

  /** The result of `urlparse`. */
  datatype ParseResult = ParseResult(scheme: string, netloc: string, path: string, params: string,
                                     query: string, fragment: string)

  /** Python's `urlparse`: `urlsplit`, then the parameters split off the path. */
  function UrlParse(url: string): (r: Result<ParseResult, string>)
    ensures r.Success? <==> UrlSplit(url).Success?
    ensures r.Success? ==> var s := UrlSplit(url).value;
      && r.value.scheme == s.scheme && r.value.netloc == s.netloc
      && r.value.query == s.query && r.value.fragment == s.fragment
      && ((r.value.path == s.path && r.value.params == "") || r.value.path + ";" + r.value.params == s.path)
  {
    match UrlSplit(url)
    case Failure(e) => Failure(e)
    case Success(s) =>
      var cut := if UsesParams(s.scheme) && ';' in s.path then SplitParams(s.path) else (s.path, "");
      Success(ParseResult(s.scheme, s.netloc, cut.0, cut.1, s.query, s.fragment))
  }

  /** The parsed path holds no `?` or `#` and the query no `#`: each component
      stops at the next one's delimiter. */
  lemma ParsedDelimiters(url: string)
    requires UrlParse(url).Success?
    ensures var p := UrlParse(url).value;
      '?' !in p.path && '#' !in p.path && '#' !in p.query
  {
    var pieces := SplitPieces(url).value;
    var s := UrlSplit(url).value;
    var p := UrlParse(url).value;
    assert '#' !in s.query by {
      var (authority, tail) := SplitAuthority(SchemeRest(Clean(url)));
      assert pieces.query == SplitTail(tail).1;
    }
    assert '?' !in p.path && '#' !in p.path by {
      if p.path != s.path {
        forall k | 0 <= k < |p.path| ensures p.path[k] == s.path[k] {
          assert (p.path + ";" + p.params)[k] == p.path[k];
        }
      }
    }
  }

  /** A path-only URL put after the base parses with scheme `http` and host
      `example.local`. */
  lemma ParseLocal(t: string)
    requires t != [] && t[0] == '/'
    ensures UrlParse(LocalBase + t).Success?
    ensures UrlParse(LocalBase + t).value.scheme == LocalScheme
    ensures UrlParse(LocalBase + t).value.netloc == LocalHost
  {
    SplitLocal(t);
  }

  /** The base is the scheme, `://` and the host. */
  lemma LocalBaseParts()
    ensures LocalBase == "http" + "://" + LocalHost
  {
  }

  /** No parsed component but the fragment holds a `#`. */
  lemma ParsedNoFragment(url: string)
    requires UrlParse(url).Success?
    ensures var p := UrlParse(url).value;
      '#' !in p.netloc && '#' !in p.path && '#' !in p.params && '#' !in p.query
  {
    var p := UrlParse(url).value;
    var s := UrlSplit(url).value;
    ParsedDelimiters(url);
    NetlocNoFragment(url);
    if p.params != "" {
      AfterSemicolon(p.path, p.params, s.path);
    }
  }

  /** The netloc stops before any `#`. */
  lemma NetlocNoFragment(url: string)
    requires UrlSplit(url).Success?
    ensures '#' !in UrlSplit(url).value.netloc
  {
    var (authority, tail) := SplitAuthority(SchemeRest(Clean(url)));
    assert SplitPieces(url).value.authority == authority;
  }

  /** What follows a `;` in a string without `#` holds none either. */
  lemma AfterSemicolon(a: string, b: string, s: string)
    requires a + ";" + b == s && '#' !in s
    ensures '#' !in b
  {
    forall k | 0 <= k < |b| ensures b[k] != '#' {
      assert s[|a| + 1 + k] == b[k];
    }
  }

  /** Schemes whose URLs are rebuilt with a `//` authority. */
  const NetlocSchemes: set<string> :=
    {"", "ftp", "http", "gopher", "nntp", "telnet", "imap", "wais", "file", "mms", "https", "shttp",
     "snews", "prospero", "rtsp", "rtsps", "rtspu", "rsync", "svn", "svn+ssh", "sftp", "nfs", "git",
     "git+ssh", "ws", "wss", "itms-services"}

  /** The path with its parameters rejoined after a `;`. */
  function WithParams(path: string, params: string): (r: string)
    ensures '#' !in path && '#' !in params ==> '#' !in r
  {
    if params != "" then path + ";" + params else path
  }

  /** The part after the scheme's colon: `//netloc` and the path (with a `/`
      put in front of a relative one) when an authority is written, else the
      path alone. */
  function Hierarchy(authority: bool, netloc: string, path: string): (r: string)
    ensures authority ==> StartsWith(r, "//" + netloc)
    ensures '#' !in netloc && '#' !in path ==> '#' !in r
  {
    if authority then
      var r := "//" + netloc + (if path != "" && path[0] != '/' then "/" + path else path);
      PrefixStarts("//" + netloc, if path != "" && path[0] != '/' then "/" + path else path);
      r
    else path
  }

  lemma PrefixStarts(a: string, b: string)
    ensures StartsWith(a + b, a)
  {
    assert (a + b)[..|a|] == a;
  }

  /** Python's `urlunparse`: the parameters rejoin the path; a `//` authority is
      written when there is a netloc, or when the scheme uses one and the path
      does not already start with `//`; empty query and fragment leave out their
      delimiters. */
  function UrlUnparse(p: ParseResult): (r: string)
    ensures p.scheme != "" && p.netloc != "" ==> StartsWith(r, p.scheme + "://" + p.netloc)
    ensures ('#' !in p.scheme && '#' !in p.netloc && '#' !in p.path && '#' !in p.params
             && '#' !in p.query && p.fragment == "") ==> '#' !in r
  {
    var path := WithParams(p.path, p.params);
    var authority := p.netloc != "" || (p.scheme != "" && p.scheme in NetlocSchemes && !StartsWith(path, "//"));
    var hier := Hierarchy(authority, p.netloc, path);
    var tail := (if p.query != "" then "?" + p.query else "") + (if p.fragment != "" then "#" + p.fragment else "");
    var r := if p.scheme != "" then p.scheme + ":" + hier + tail else hier + tail;
    assert p.scheme != "" && p.netloc != "" ==> StartsWith(r, p.scheme + "://" + p.netloc) by {
      if p.scheme != "" && p.netloc != "" {
        SchemePrefix(p.scheme, hier, tail, p.netloc);
      }
    }
    r
  }

  lemma SchemePrefix(scheme: string, hier: string, tail: string, netloc: string)
    requires StartsWith(hier, "//" + netloc)
    ensures StartsWith(scheme + ":" + hier + tail, scheme + "://" + netloc)
  {
    var n := |scheme| + 3 + |netloc|;
    var r := scheme + ":" + hier + tail;
    assert r[..n] == scheme + "://" + netloc by {
      forall k | 0 <= k < n ensures r[k] == (scheme + "://" + netloc)[k] {
        if k > |scheme| {
          assert r[k] == hier[k - |scheme| - 1];
        }
      }
    }
  }

  // ---------------------------------------------------------------- unquote

  predicate IsHex(c: char) {
    IsDigit(c) || 'a' <= c <= 'f' || 'A' <= c <= 'F'
  }

  function HexValue(c: char): (v: nat)
    requires IsHex(c)
    ensures v < 16
  {
    if IsDigit(c) then c as int - '0' as int
    else if 'a' <= c <= 'f' then c as int - 'a' as int + 10
    else c as int - 'A' as int + 10
  }

  /** `%XX` with two hexadecimal digits starts at index `i`. */
  predicate EscapeAt(s: string, i: nat) {
    i + 2 < |s| && s[i] == '%' && IsHex(s[i + 1]) && IsHex(s[i + 2])
  }

  /** The Unicode replacement character, which UTF-8 decoding with
      `errors='replace'` puts in place of a byte it cannot decode. */
  const Replacement: char := '\U{FFFD}'

  /** The character an escaped byte decodes to: an ASCII byte is its own
      character; a byte of 0x80 or above on its own is not valid UTF-8 and is
      replaced. */
  function ByteChar(b: nat): (c: char)
    requires b < 256
    ensures b < 128 ==> c as int == b
    ensures b >= 128 ==> c == Replacement
  {
    if b < 128 then b as char else Replacement
  }

  /** The byte an escape at the front of `s` stands for. */
  function EscapedByte(s: string): (b: nat)
    requires EscapeAt(s, 0)
    ensures b < 256
  {
    16 * HexValue(s[1]) + HexValue(s[2])
  }

  /** Python's `unquote`: every `%XX` escape becomes the byte with that value,
      decoded as UTF-8 with replacement; a `%` not followed by two hexadecimal
      digits is kept. */
  function Unquote(s: string): (r: string)
    ensures |r| <= |s|
    ensures '%' !in s ==> r == s
    decreases |s|
  {
    if s == [] then []
    else if EscapeAt(s, 0) then
      [ByteChar(EscapedByte(s))] + Unquote(s[3..])
    else
      [s[0]] + Unquote(s[1..])
  }

  /** A lone escaped byte of 0x80 or above decodes to the replacement character,
      not to the character with that code: `%E9` is not `é`. */
  lemma UnquoteHighByte(s: string)
    requires EscapeAt(s, 0) && EscapedByte(s) >= 128
    ensures Unquote(s)[0] == Replacement
  {
  }

  /** `%E9` decodes to the replacement character. */
  lemma UnquoteLatinByte()
    ensures Unquote("%E9") == [Replacement]
  {
    assert EscapeAt("%E9", 0);
    assert "%E9"[3..] == [];
  }

  function HexDigit(n: nat): (c: char)
    requires n < 16
    ensures IsHex(c) && HexValue(c) == n
  {
    if n < 10 then ('0' as int + n) as char else ('A' as int + n - 10) as char
  }

  /** Every character escaped as `%XX` (ASCII characters only). */
  function PercentEncode(s: string): (r: string)
    requires forall i :: 0 <= i < |s| ==> s[i] as int < 128
    ensures |r| == 3 * |s|
  {
    if s == [] then []
    else
      var c := s[0] as int;
      ['%', HexDigit(c / 16), HexDigit(c % 16)] + PercentEncode(s[1..])
  }

  /** Decoding undoes encoding of ASCII text. */
  lemma {:induction false} UnquoteEncode(s: string)
    requires forall i :: 0 <= i < |s| ==> s[i] as int < 128
    ensures Unquote(PercentEncode(s)) == s
  {
    if s != [] {
      var e := PercentEncode(s);
      EncodeHead(s);
      assert Unquote(e) == [s[0]] + Unquote(PercentEncode(s[1..]));
      UnquoteEncode(s[1..]);
    }
  }

  /** The escape of one byte decodes back to that byte. */
  lemma EscapeOf(c: nat)
    requires c < 256
    ensures var x := ['%', HexDigit(c / 16), HexDigit(c % 16)];
      EscapeAt(x, 0) && EscapedByte(x) == c
  {
  }

  /** The encoding of a non-empty ASCII text starts with the escape of its first
      character, which decodes back to that character. */
  lemma EncodeHead(s: string)
    requires s != [] && forall i :: 0 <= i < |s| ==> s[i] as int < 128
    ensures var e := PercentEncode(s);
      && EscapeAt(e, 0) && EscapedByte(e) == s[0] as int
      && e[3..] == PercentEncode(s[1..])
  {
    var c := s[0] as int;
    var x := ['%', HexDigit(c / 16), HexDigit(c % 16)];
    var e := x + PercentEncode(s[1..]);
    assert PercentEncode(s) == e;
    EscapeOf(c);
    assert e[..3] == x;
    assert e[3..] == PercentEncode(s[1..]);
  }

}

=== FILE: wrappers.dfy ===
/** Failure-compatible wrappers shared by every module of the model:
    `Option` stands for Python's `None`-or-value, `Result` for a call that
    either returns or raises. */
module Wrappers {

  datatype Option<+T> = None | Some(value: T) {

    /** The value, or `default` when absent (Python's `x or default` on an optional). */
    function GetOr(default: T): T {
      match this
      case Some(v) => v
      case None => default
    }
  }

  datatype Result<+T, +E> = Success(value: T) | Failure(error: E) {

    /** The value, or `default` when the call raised (a `try`/`except` that substitutes). */
    function GetOr(default: T): T {
      match this
      case Success(v) => v
      case Failure(_) => default
    }
  }

  /** `[f(x) for x in xs]` where `f` may raise: the first exception propagates. */
  function MapAll<A, B, E>(xs: seq<A>, f: A -> Result<B, E>): (r: Result<seq<B>, E>)
    ensures r.Success? <==> forall i :: 0 <= i < |xs| ==> f(xs[i]).Success?
    ensures r.Success? ==> |r.value| == |xs| && forall i :: 0 <= i < |xs| ==> r.value[i] == f(xs[i]).value
    ensures r.Failure? ==> exists i :: 0 <= i < |xs| && f(xs[i]) == Failure(r.error) && forall j :: 0 <= j < i ==> f(xs[j]).Success?
  {
    if xs == [] then Success([])
    else
      match f(xs[0])
      case Failure(e) => Failure(e)
      case Success(y) =>
        var rest := MapAll(xs[1..], f);
        assert forall i :: 0 < i < |xs| ==> xs[1..][i - 1] == xs[i];
        if rest.Failure? then
          assert exists i :: 0 <= i < |xs| && f(xs[i]) == Failure(rest.error) && forall j :: 0 <= j < i ==> f(xs[j]).Success? by {
            var i :| 0 <= i < |xs[1..]| && f(xs[1..][i]) == Failure(rest.error) && forall j :: 0 <= j < i ==> f(xs[1..][j]).Success?;
            forall j | 0 <= j < i + 1 ensures f(xs[j]).Success? {
              if j > 0 { assert xs[j] == xs[1..][j - 1]; }
            }
            assert f(xs[i + 1]) == Failure(rest.error);
          }
          Failure(rest.error)
        else
          Success([y] + rest.value)
  }

  /** Mapping one input returns its value or raises its exception. */
  lemma MapAllSingle<A, B, E>(x: A, f: A -> Result<B, E>)
    ensures MapAll([x], f) == if f(x).Success? then Success([f(x).value]) else Failure(f(x).error)
  {
    assert [x][0] == x && [x][1..] == [];
    assert MapAll([], f) == Success([]);
    if f(x).Success? {
      assert [f(x).value] + [] == [f(x).value];
    }
  }

  /** Every call of `f` on `xs` returns. */
  predicate AllSucceed<A, B, E>(xs: seq<A>, f: A -> Result<B, E>) {
    forall i :: 0 <= i < |xs| ==> f(xs[i]).Success?
  }

  /** The values of a run of calls that all returned, in order. */
  function Values<A, B, E>(xs: seq<A>, f: A -> Result<B, E>): (r: seq<B>)
    requires AllSucceed(xs, f)
    ensures |r| == |xs| && forall i :: 0 <= i < |xs| ==> r[i] == f(xs[i]).value
  {
    seq(|xs|, i requires 0 <= i < |xs| => f(xs[i]).value)
  }

  /** The values of two runs of calls are those of the first run followed by
      those of the second. */
  lemma ValuesAppend<A, B, E>(xs: seq<A>, ys: seq<A>, f: A -> Result<B, E>)
    requires AllSucceed(xs, f) && AllSucceed(ys, f)
    ensures AllSucceed(xs + ys, f) && Values(xs + ys, f) == Values(xs, f) + Values(ys, f)
  {
    forall i | 0 <= i < |xs + ys| ensures f((xs + ys)[i]).Success? && f((xs + ys)[i]).value == (Values(xs, f) + Values(ys, f))[i] {
      if i >= |xs| { assert (xs + ys)[i] == ys[i - |xs|]; }
    }
  }

  /** The concatenation of a list of lists, in order (a nested comprehension or a
      loop of `extend`s). */
  function Flatten<T>(xss: seq<seq<T>>): (r: seq<T>)
    ensures forall i, j :: 0 <= i < |xss| && 0 <= j < |xss[i]| ==> xss[i][j] in r
    ensures forall k :: 0 <= k < |r| ==> exists i :: 0 <= i < |xss| && r[k] in xss[i]
    ensures r == [] <==> forall i :: 0 <= i < |xss| ==> xss[i] == []
  {
    if xss == [] then []
    else
      var rest := Flatten(xss[1..]);
      assert forall i :: 0 < i < |xss| ==> xss[1..][i - 1] == xss[i];
      assert forall k :: 0 <= k < |xss[0] + rest| ==> exists i :: 0 <= i < |xss| && (xss[0] + rest)[k] in xss[i] by {
        forall k | 0 <= k < |xss[0] + rest| ensures exists i :: 0 <= i < |xss| && (xss[0] + rest)[k] in xss[i] {
          if k < |xss[0]| {
            assert (xss[0] + rest)[k] in xss[0];
          } else {
            var i :| 0 <= i < |xss[1..]| && rest[k - |xss[0]|] in xss[1..][i];
            assert (xss[0] + rest)[k] in xss[i + 1];
          }
        }
      }
      xss[0] + rest
  }

  /** Flattening distributes over concatenation. */
  lemma {:induction false} FlattenAppend<T>(a: seq<seq<T>>, b: seq<seq<T>>)
    ensures Flatten(a + b) == Flatten(a) + Flatten(b)
    decreases |a|
  {
    if a == [] {
      assert a + b == b;
    } else {
      assert (a + b)[1..] == a[1..] + b;
      FlattenAppend(a[1..], b);
    }
  }

  /** Flattening one list gives that list. */
  lemma FlattenSingle<T>(xss: seq<seq<T>>)
    requires |xss| == 1
    ensures Flatten(xss) == xss[0]
  {
    assert Flatten(xss) == xss[0] + Flatten(xss[1..]);
  }

  /** The present values of a list of optional values, in order (a comprehension
      with an `if` that drops the missing ones). */
  function Somes<T>(xs: seq<Option<T>>): (r: seq<T>)
    ensures |r| <= |xs|
    ensures (forall i :: 0 <= i < |xs| ==> xs[i].Some?) ==> |r| == |xs| && forall i :: 0 <= i < |xs| ==> r[i] == xs[i].value
    ensures (forall i :: 0 <= i < |xs| ==> xs[i].None?) ==> r == []
  {
    if xs == [] then []
    else
      var rest := Somes(xs[1..]);
      assert forall i :: 0 < i < |xs| ==> xs[1..][i - 1] == xs[i];
      match xs[0]
      case Some(x) => [x] + rest
      case None => rest
  }

  /** Every kept value was present in the input. */
  lemma {:induction false} SomesFrom<T>(xs: seq<Option<T>>, k: nat)
    requires k < |Somes(xs)|
    ensures Some(Somes(xs)[k]) in xs
  {
    var rest := Somes(xs[1..]);
    if xs[0].Some? {
      if k > 0 {
        SomesFrom(xs[1..], k - 1);
      }
    } else {
      SomesFrom(xs[1..], k);
    }
  }

  /** A value is kept exactly when it is present in the input. */
  lemma {:induction false} SomesMembers<T>(xs: seq<Option<T>>, x: T)
    ensures x in Somes(xs) <==> Some(x) in xs
  {
    if xs != [] {
      SomesMembers(xs[1..], x);
      assert xs == [xs[0]] + xs[1..];
    }
  }

  /** Dropping the missing values distributes over concatenation, so the kept
      values stay in input order. */
  lemma {:induction false} SomesAppend<T>(xs: seq<Option<T>>, ys: seq<Option<T>>)
    ensures Somes(xs + ys) == Somes(xs) + Somes(ys)
    decreases |xs|
  {
    if xs == [] {
      assert xs + ys == ys;
    } else {
      assert (xs + ys)[0] == xs[0] && (xs + ys)[1..] == xs[1..] + ys;
      SomesAppend(xs[1..], ys);
    }
  }

  /** One optional value: kept when present, dropped when missing. */
  lemma SomesSingle<T>(o: Option<T>)
    ensures Somes([o]) == if o.Some? then [o.value] else []
  {
    assert [o][1..] == [];
  }

  /** `[f(x, y) for x, y in zip(xs, ys)]`: as long as the shorter input. */
  function ZipWith<A, B, C>(xs: seq<A>, ys: seq<B>, f: (A, B) -> C): (r: seq<C>)
    ensures |r| == if |xs| <= |ys| then |xs| else |ys|
    ensures forall i :: 0 <= i < |r| ==> r[i] == f(xs[i], ys[i])
  {
    var n := if |xs| <= |ys| then |xs| else |ys|;
    seq(n, i requires 0 <= i < n => f(xs[i], ys[i]))
  }
}
